=== FILE: README.md ===
# waste-tui core, modelled in Dafny

This project models the deterministic core of waste-tui. waste-tui is a terminal front end for the WASTE peer-to-peer engine. The model covers the bridge between the engine and the user interface, the interface's own helpers, the table and scroll-text components, the theme lookup and the cache of the asynchronous DNS resolver.

Each module follows one part of the program:

- `Bytes`, `Text`, `Seqs`: small shared pieces. They cover little-endian words, `std::to_string`, `atoi` and trimming.
- `Base64`: the hand-written codec used for key files.
- `Keys`: the 552-byte public-key record and the text block `exportPublicKey` writes. It also covers `importPublicKey` reading the block back, and the moves between the trusted and pending key lists.
- `Chat`: what one `MESSAGE_CHAT`, `MESSAGE_CHAT_REPLY` or `MESSAGE_PING` makes the core do, as a list of events. This includes `/nick/`, `/join`, `/part`, `/leave` and `/me`, the direct-message filter and nickname learning. It also covers `updatePeerNickname`.
- `Session`: the state `{browse path, search id in use, search id}`. `search`, `cancelSearch` and `browsePeer` change it. A search reply is routed by it: to a browse listing, to search results, or dropped. This module also builds the browse query.
- `Config`: the `;`-joined list of shared directories in the configuration file, and adding and removing shared directories. It also covers the accept and throttle bit flags and the export file name.
- `Simulation`: the offline simulation. It has the peer phase machine driven by a millisecond clock, transfer progress capped at the file size, and pause and resume.
- `Sorting`: `std::string` ordering and a sort, used for the user list of a chat room.
- `App`: the interface helpers.
  - Remote-browse navigation: going up, entering a directory, and `..`.
  - Chat rooms and unread counts, joining a room, and presence updates to user lists.
  - Clearing finished transfers, port validation and the unit `formatSize` picks.
- `Table`: `fitToWidth` and the table's key handler.
- `ScrollText`: the visible window, the "more below" footer and the scroll keys.
- `Theme`: `findThemeIndex`.
- `AsyncDns`: `C_AsyncDNS::resolve`, meaning the answer codes and the choice of cache slot.
  - A sweep of the worker thread is a function that takes the lookup as a parameter.
  - A validity invariant over the cache is proved.

The environment is passed in as parameters:

- SHA-1 is a function parameter `hash`.
- The value of every `rand()` call is an argument. C++ leaves unspecified the order in which the operands of the simulated nickname expression are evaluated, so each draw is a separate argument.
- Clock readings are integer milliseconds or seconds.
- The address a lookup yields is a function parameter.

Registered callbacks are assumed to be installed. The browse-results listener is an explicit input, because whether it is installed decides the routing of a search reply.

Some behaviour of the code is kept as written, even where it is surprising:

- A shared directory whose path contains `;` comes back from a reload as two directories (`Config.SemicolonPathSplits`).
- `browsePeer` with an empty path sends the root query. It does not enter browse mode, so the listing that comes back is not shown as a listing (`Session.EmptyBrowsePathIsNotBrowsing`).
- `resolve("")` matches a blank cache slot. The worker skips names that are empty, so that slot stays pending for ever (`AsyncDns.EmptyNameStaysPending`).
- The table's arrow keys do not pull a stale selection back into range; only Home and End do (`Table.JumpsClampIntoRange`).
- Join Room appends a channel even when one of that name is listed (`App.JoinTwiceDuplicates`), and Backspace in the browse view changes the path without fetching its listing (`App.BackSkipsReload`). Both are listed under "Findings" below, with the behaviour the code evidently intends.

## Model

| member | source | states |
|---|---|---|
| Bytes.LittleEndian32 | tui/core/waste_core.cpp:958-962 | byte k of the four is bits 8k..8k+7 of the bit count, least significant first |
| Bytes.FromLittleEndian32 | tui/core/waste_core.cpp:1087-1088 | the importer's reading of bytes 36..39: byte k lands in bits 8k..8k+7 |
| Bytes.LittleEndian32RoundTrip | tui/core/waste_core.cpp:1088 | reading the four bytes back gives the exported bit count |
| Base64.DecodeChar | tui/core/waste_core.cpp:891-898 | the table position of a character, or -1 outside the alphabet |
| Base64.Decode | tui/core/waste_core.cpp:900-921 | the decoder yields ⌊6·(alphabet characters)/8⌋ bytes |
| Base64.AlphabetChar | tui/core/waste_core.cpp:872 | every table position names a character that decodes back to it and is not '=' |
| Base64.GroupSextets | tui/core/waste_core.cpp:878-886 | a group of one, two or three bytes yields two, three or four six-bit values |
| Base64.Quartet | tui/core/waste_core.cpp:883-886 | every group becomes four characters; '=' stands exactly in the positions the short group lacks |
| Base64.Encode | tui/core/waste_core.cpp:874-889 | the output has 4·⌈n/3⌉ characters; '=' appears only in the last quartet; all other characters are in the alphabet |
| Base64.Feed | tui/core/waste_core.cpp:912-918 | shifting six bits in emits at most one byte and leaves (bits + 6) mod 8 bits pending |
| Base64.PackLength | tui/core/waste_core.cpp:912-918 | packing n six-bit values onto a register holding b bits yields ⌊(b + 6n)/8⌋ bytes |
| Base64.Sextets | tui/core/waste_core.cpp:907-911 | '=', CR, LF, space and every other non-alphabet character are skipped |
| Base64.DecodeLoop | tui/core/waste_core.cpp:900-921 | the single-pass loop over the text computes the decoder's function |
| Base64.DecodeIgnoresNoise | tui/core/waste_core.cpp:907-911 | dropping every skipped character does not change the decoded bytes |
| Base64.DecodeLength | tui/core/waste_core.cpp:900-921 | the decoded length is ⌊6·(alphabet characters)/8⌋ |
| Base64.DecodeEncode | tui/core/waste_core.cpp:874-921 | decoding the encoding of any byte sequence gives it back |
| Text.TrimEnd | tui/core/waste_core.cpp:1027-1028 | trailing CR, LF and spaces are removed and nothing else |
| Text.TrimEndAfterPrefix | tui/core/waste_core.cpp:1027-1028 | when the text after a prefix is not all junk, trimming touches only that text |
| Text.TrimEndJunkSuffix | tui/core/waste_core.cpp:1027-1028 | a suffix made only of junk is trimmed away together with any junk before it |
| Text.Hex | tui/core/waste_core.cpp:991-995 | two upper-case hexadecimal digits per hash byte |
| Text.HexReadsBack | tui/core/waste_core.cpp:991-995 | the two digits at positions 2i and 2i+1 read back as a hex number equal byte i, as `%02X` prints it |
| Text.Signed | tui/core/waste_core.cpp:411 | `std::to_string` of an integer: a '-' exactly for negatives, then digits only |
| Text.Atoi | tui/app.cpp:1377 | the loop computes `atoi`: leading blanks, an optional sign, then the longest digit run |
| Text.AtoiDecimal | tui/app.cpp:1377 | `atoi` reads a printed natural number back exactly |
| Text.AtoiSigned | tui/core/waste_core.cpp:411 | `atoi` reads `std::to_string` of any integer back exactly |
| Seqs.Without | tui/core/waste_core.cpp:825 | erasing index i keeps the order of the other elements and removes one copy of element i |
| Keys.NameField | tui/core/waste_core.cpp:951-956 | the name field is 16 bytes: at most 15 characters of the name, then zeros |
| Keys.Record | tui/core/waste_core.cpp:943-972 | the record is 552 bytes: hash, name field, little-endian bit count, modulus, exponent |
| Keys.CopyName | tui/core/waste_core.cpp:1081-1085 | the bytes of the header name up to its first NUL and at most 15 of them, then zeros to the end; byte 15 is always NUL |
| Keys.ParseRecord | tui/core/waste_core.cpp:1071-1107 | the bit count is read little-endian from bytes 36..39 and the key material from offsets 40 and 296; a header name other than "" and "(unnamed)" replaces the record's name, otherwise its first 15 bytes are kept; the fingerprint is always the hash of modulus and exponent |
| Keys.Chunks | tui/core/waste_core.cpp:977-981 | the Base64 text is cut into non-empty lines of at most 64 characters |
| Keys.ConcatChunks | tui/core/waste_core.cpp:977-981 | joining the lines gives the text back |
| Keys.ExportLines | tui/core/waste_core.cpp:997-1003 | the block starts with the BEGIN line and ends with the END line |
| Keys.ScanLine | tui/core/waste_core.cpp:1025-1052 | after END nothing changes; BEGIN enters the block and END stops; the Base64 text only grows, by a whole non-empty trimmed line inside the block; outside the block nothing is gathered |
| Keys.Scan | tui/core/waste_core.cpp:1020-1052 | a file without a BEGIN line yields no name and no Base64 text |
| Keys.Import | tui/core/waste_core.cpp:1011-1137 | no Base64 text gives NoKeyData and fewer than 552 decoded bytes give TooShort, both with the list unchanged; otherwise the parsed key is AlreadyTrusted when its hash is trusted, else OwnKey when it is the node's own, else Added by appending exactly that key |
| Keys.ImportedHashIsComputed | tui/core/waste_core.cpp:1096-1107 | an added key carries the hash of its own modulus and exponent |
| Keys.ImportRejectsShortData | tui/core/waste_core.cpp:1056-1068 | data decoding to fewer than 552 bytes is refused with the trusted list unchanged |
| Keys.Base64LineIsData | tui/core/waste_core.cpp:1025-1052 | no Base64 line is mistaken for a header, blank or marker line |
| Keys.ScanExport | tui/core/waste_core.cpp:1025-1052 | the importer's line loop finds the exported name and the whole Base64 text |
| Keys.NameLineDropsTrailingBlanks | tui/core/waste_core.cpp:1025-1043 | the importer reads the "Name: " line of a nickname back without its trailing blanks, so "bob " comes back as "bob" |
| Keys.BlankNickLineIsData | tui/core/waste_core.cpp:1025-1051 | the "Name: " line of an all-blank nickname trims to "Name:" and is appended to the Base64 text |
| Keys.ParsedName | tui/core/waste_core.cpp:1077-1085 | the name the importer settles on equals the exported name field |
| Keys.ParseExported | tui/core/waste_core.cpp:1071-1094 | parsing an exported record recovers the key, the name and a recomputed fingerprint |
| Keys.ImportExport | tui/core/waste_core.cpp:1011-1137 | importing an exported key file appends exactly that key, unless it is already trusted or is the node's own key |
| Keys.TrustPending | tui/core/waste_core.cpp:813-829 | an out-of-range index changes nothing; otherwise pending entry i moves to the end of the trusted list, and the two lists together lose and gain nothing |
| Keys.TrustKeepsDisjoint | tui/core/waste_core.cpp:813-829 | when no key is both trusted and pending and the pending fingerprints are distinct, the same holds after a trust, and distinct trusted fingerprints stay distinct |
| Keys.ImportDisjointWhenNotPending | tui/core/waste_core.cpp:1109-1125 | the importer checks only the trusted list: an added key keeps the lists apart exactly when its fingerprint is not pending, and any other outcome keeps them apart |
| Keys.RemoveKey | tui/core/waste_core.cpp:831-843 | only an in-range index of the chosen list is erased, keeping the order of the rest; the other list is untouched |
| Chat.PingNickIsChatNick | tui/core/waste_core.cpp:287-288 | the ping rule is the chat rule plus no leading '#' or '&' |
| Chat.OnChatReply | tui/core/waste_core.cpp:117-137 | a reply teaches the nickname exactly when it is non-empty, does not start with '.' and is shorter than 24 |
| Chat.OnPing | tui/core/waste_core.cpp:281-301 | a ping teaches the nickname exactly when it passes the stricter ping rule |
| Chat.OnChat | tui/core/waste_core.cpp:154-277 | the sender's nickname is learned first exactly when it passes the test; a direct message between two other users yields only that; a reply is sent, last, exactly when a nickname is registered and the message was not dropped |
| Chat.DirectRoom | tui/core/waste_core.cpp:237-242 | a direct message is filed under '@' and the other party's nick |
| Chat.RegularMessage | tui/core/waste_core.cpp:216-254 | a message keeps its sender; "/me x" becomes the system line "* src x"; a channel message stays in its room |
| Chat.OnChatShape | tui/core/waste_core.cpp:154-277 | learning comes first and the reply last; the reply is sent exactly when a nickname is registered and the message was not dropped |
| Chat.NickChangePresence | tui/core/waste_core.cpp:164-183 | "/nick/old" reports old leaving, then the sender joining, plus one system line |
| Chat.JoinPartPresence | tui/core/waste_core.cpp:184-215 | "/join" reports the sender joining; "/part" and "/leave" report the sender leaving; either one is shown as the single system line "*** src has joined dest" or "*** src has left dest" and not as a chat message |
| Chat.PlainMessageShown | tui/core/waste_core.cpp:216-262 | an ordinary message is shown once, unless it is a direct message between two other users |
| Chat.DirectRoomIsOtherParty | tui/core/waste_core.cpp:225-242 | both sides of a conversation file it under the other party's name |
| Chat.FirstStale | tui/core/waste_core.cpp:854-863 | the first peer at the address whose nickname differs |
| Chat.UpdatePeerNickname | tui/core/waste_core.cpp:845-869 | only the first stale peer is renamed; a notification happens exactly when such a peer exists |
| Chat.UpdatePeerNicknameIdempotent | tui/core/waste_core.cpp:854-863 | with one peer per address, repeating the update changes nothing and notifies nobody |
| Session.Search | tui/core/waste_core.cpp:1862-1941 | a search leaves browse mode; a sent request records its id as the one in use |
| Session.CancelSearch | tui/core/waste_core.cpp:1973-1978 | cancelling clears the id and its in-use flag and leaves the browse path alone |
| Session.BrowsePeer | tui/core/waste_core.cpp:2283-2313 | with no connection nothing happens; otherwise the path is stored and the query is sent |
| Session.BrowseQuery | tui/core/waste_core.cpp:2302-2313 | an empty or root path asks for "/peer/*"; a path ending in '/' gets "*" added; any other path gets "/*" added |
| Session.BrowseQueryOfWellFormed | tui/core/waste_core.cpp:2304-2313 | for a well-formed path the query is "/" + peer + directory + "*" and never holds "//" |
| Session.FileSize | tui/core/waste_core.cpp:368 | the size is high·2³² + low, each half read as unsigned 32-bit |
| Session.EntryName | tui/core/waste_core.cpp:356-359 | one trailing '/' is removed and nothing else |
| Session.EntryOf | tui/core/waste_core.cpp:354-368 | the entry's name is the file name with at most one '/' removed from the end; it is a directory exactly when the id is -1 or the metadata is "Directory"; its size splits into the two unsigned halves |
| Session.BrowseEntries | tui/core/waste_core.cpp:341-375 | a listing has at most one entry per item, and every entry has a non-empty name |
| Session.BrowseEntriesOfOne | tui/core/waste_core.cpp:346-372 | one item gives its entry when it is readable and named, and nothing otherwise |
| Session.BrowseEntriesAppend | tui/core/waste_core.cpp:341-375 | the listing of two runs of items is their two listings in order, so entries keep the order of the items |
| Session.BrowseEntriesMembers | tui/core/waste_core.cpp:341-375 | an entry is listed exactly when it comes from a readable item with a non-empty name; directories are id -1 or metadata "Directory" |
| Session.SearchResults | tui/core/waste_core.cpp:393-416 | every readable item gives one result from the replying peer with one source |
| Session.ResultOf | tui/core/waste_core.cpp:402-411 | a result carries the item's file name, metadata and unsigned size, one source, the replying peer, and a hash that is the peer, ':' and a number `atoi` reads as the id |
| Session.SearchResultsOfOne | tui/core/waste_core.cpp:393-416 | one item gives its result when it is readable, and nothing otherwise |
| Session.SearchResultsAppend | tui/core/waste_core.cpp:393-416 | the results of two runs of items are their two result lists in order |
| Session.ResultHashNamesItem | tui/core/waste_core.cpp:407-411 | a result hash is the peer id, ':' and the item id in decimal, and `atoi` recovers the id |
| Session.OnSearchReply | tui/core/waste_core.cpp:319-421 | a reply becomes a listing exactly when a browse path is set, or results exactly when the id matches a search in use, and is dropped otherwise; only a listing clears the browse path |
| Session.SearchAcceptsItsReply | tui/core/waste_core.cpp:390-391 | after a sent search, its own reply is shown as results |
| Session.SearchDropsOtherReplies | tui/core/waste_core.cpp:390-391 | after a sent search, a reply with another id is dropped |
| Session.CancelDropsEverything | tui/core/waste_core.cpp:1976-1978 | after a cancel, with no browse pending, every reply is dropped |
| Session.BrowseListsOnce | tui/core/waste_core.cpp:385-389 | a browse produces one listing; the next reply is routed as a search reply |
| Session.EmptyBrowsePathIsNotBrowsing | tui/core/waste_core.cpp:2305 | browsing with an empty path sends the root query but does not enter browse mode |
| Config.Find | tui/core/waste_core.cpp:2537 | the first ';', or the length when there is none |
| Config.SplitDirs | tui/core/waste_core.cpp:2533-2550 | the pieces between semicolons with empty pieces dropped; none holds ';' |
| Config.JoinDirs | tui/core/waste_core.cpp:2576-2580 | the joined text starts with the first entry, has the entries' total length plus one per separator, and puts ';' right after the first entry when there is a second |
| Config.LoadSharedDirs | tui/core/waste_core.cpp:2532-2551 | an empty stored string keeps the current list; otherwise the list is replaced by storable entries |
| Config.SplitLoop | tui/core/waste_core.cpp:2535-2550 | the front-consuming loop computes the split |
| Config.NextPiece | tui/core/waste_core.cpp:2537-2545 | one turn takes the text before the first ';' and leaves a strictly shorter rest |
| Config.JoinLoop | tui/core/waste_core.cpp:2576-2580 | the save loop puts ';' between entries |
| Config.SplitJoin | tui/core/waste_core.cpp:2533-2580 | splitting the joined list gives it back when no entry is empty or holds ';' |
| Config.SaveThenLoad | tui/core/waste_core.cpp:2533-2580 | save then load keeps a non-empty storable list; an empty one leaves the list as it was |
| Config.SplitIsNormal | tui/core/waste_core.cpp:2533-2580 | after one reload, saving and reloading again changes nothing |
| Config.SemicolonPathSplits | tui/core/waste_core.cpp:2576-2580 | the directory "a;b" reloads as "a" and "b" |
| Config.AddShared | tui/core/waste_core.cpp:1775-1791 | a path is appended only when absent; the list stays free of repeats |
| Config.RemoveShared | tui/core/waste_core.cpp:1793-1808 | only an in-range index is erased, keeping the order of the rest; a list without repeats loses that directory entirely |
| Config.RemoveUndoesAdd | tui/core/waste_core.cpp:1775-1808 | removing the directory just added restores the list |
| Config.SetAcceptIncoming | tui/core/waste_core.cpp:2416-2431 | bit 0 of the accept word reads back as the setting and every other bit is kept; throttle values are untouched |
| Config.SetThrottleUpload | tui/core/waste_core.cpp:2433-2444 | bit value 2 follows the setting, and the send rate is the given rate or 0; download settings are untouched |
| Config.SetThrottleDownload | tui/core/waste_core.cpp:2446-2457 | bit value 1 follows the setting, and the receive rate is the given rate or 0; upload settings are untouched |
| Config.ThrottleSettersKeepOtherBits | tui/core/waste_core.cpp:2433-2457 | both throttle setters leave every bit of the throttle word other than values 1 and 2 as it was |
| Config.ThrottleSettersCommute | tui/core/waste_core.cpp:2433-2457 | setting upload then download equals setting download then upload |
| Config.ReadInt | tui/core/waste_core.cpp:2526-2529 | the stored integer, or the default when the key is missing |
| Config.LoadFlags | tui/core/waste_core.cpp:2526-2529 | the accept and throttle words and the two rates, with 7, 0, 128 and 128 for missing keys |
| Config.SaveFlags | tui/core/waste_core.cpp:2570-2573 | the four settings are written and every other stored key is kept |
| Config.EmptyConfigLoadsDefaults | tui/core/waste_core.cpp:2526-2529 | a configuration file holding none of the four keys gives the defaults 7, 0, 128, 128 |
| Config.LoadConfig | tui/core/waste_core.cpp:2490-2529 | without a configuration file the flags keep their current values; with one they are read from it, and a file without the four keys gives the defaults |
| Config.NoFileKeepsInitial | tui/core/waste_core.cpp:72-90 | at startup with no configuration file the flags stay at 1/0/0/0: file requests are answered and nothing is throttled |
| Config.FlagsSaveThenLoad | tui/core/waste_core.cpp:2526-2573 | saving the flags and loading them back gives the same flags |
| Config.Sanitize | tui/core/waste_core.cpp:926-928 | same length; every character is alphanumeric, '-' or '_'; safe characters are kept and every other one becomes '_' |
| Config.SanitizeIdempotent | tui/core/waste_core.cpp:926-928 | sanitising twice is sanitising once |
| Config.ExportPathStaysInConfigDir | tui/core/waste_core.cpp:923-930 | the default export path is the config directory, '/', one name with no '/', then ".wastekey" |
| Simulation.Connect | tui/core/waste_core.cpp:1666-1673 | a new simulated peer is connecting at time now, and fails exactly when its roll is a multiple of five |
| Simulation.Tick | tui/core/waste_core.cpp:1575-1617 | after 800 ms connecting becomes authenticating; after another 1200 ms it becomes online or failed; the status always matches the phase |
| Simulation.TickMonotone | tui/core/waste_core.cpp:1575-1617 | phases never go back, and a settled peer never changes |
| Simulation.ConnectTimeline | tui/core/waste_core.cpp:1575-1617 | a new peer walks connecting, authenticating, then online or failed by its roll |
| Simulation.FirstForPeer | tui/core/waste_core.cpp:1752-1760 | the first simulated peer with the same address and port |
| Simulation.Retry | tui/core/waste_core.cpp:1732-1767 | only a failed peer is retried: it goes back to connecting with its error cleared, and its first simulated twin restarts |
| Simulation.StartTransfer | tui/core/waste_core.cpp:2055-2060 | the size is 10 MiB to 110 MiB and the speed 200 to 999 KB/s, with nothing transferred |
| Simulation.FirstWithId | tui/core/waste_core.cpp:2085-2093 | the first simulated transfer with the id, or the length when none has it |
| Simulation.Advance | tui/core/waste_core.cpp:1621-1638 | paused or finished transfers stay silent; a running one advances to min(size, transferred + speed·1024·ms/1000), reports its progress, and reports completion on the tick that finishes it |
| Simulation.AdvanceAll | tui/core/waste_core.cpp:1621-1638 | every transfer advances on its own; a single transfer reports what it reports alone, and an empty list reports nothing |
| Simulation.AdvanceAllAppend | tui/core/waste_core.cpp:1621-1638 | the reports of two runs of transfers come run by run, so reports follow the list order |
| Simulation.AdvanceKeepsWithinTotal | tui/core/waste_core.cpp:1627-1628 | no transfer counts more bytes than its size |
| Simulation.FinishedReportsAreFresh | tui/core/waste_core.cpp:1634-1637 | a completion report names a transfer that was running and finished on this tick |
| Simulation.DoneIsSilent | tui/core/waste_core.cpp:1622-1624 | a finished transfer reports nothing again |
| Simulation.SetPaused | tui/core/waste_core.cpp:2082-2108 | the first transfer with the id gets the flag; nothing changes when there is none |
| Simulation.PauseThenResume | tui/core/waste_core.cpp:2082-2108 | pausing and resuming a running transfer restores the list |
| Simulation.PausedDoesNotMove | tui/core/waste_core.cpp:1622-1624 | a paused transfer does not move and reports nothing |
| Sorting.Sort | tui/app.cpp:338 | the result is a sorted permutation of the input |
| Sorting.SortedUnique | tui/app.cpp:338 | two sorted lists with the same elements are equal, so the sorted order is unique |
| Sorting.SortSorted | tui/app.cpp:338 | sorting a sorted list changes nothing |
| Sorting.RemoveAll | tui/app.cpp:342-344 | every copy of the value and nothing else is removed, keeping the count of every other value; a list without the value is returned unchanged |
| Sorting.RemoveAllAppend | tui/app.cpp:342-344 | removal works run by run, so the remaining users keep their order |
| Sorting.RemoveAllSorted | tui/app.cpp:342-344 | removal keeps a list sorted |
| App.LastSlash | tui/app.cpp:1230 | the position of the last '/', or -1 |
| App.ParentPath | tui/app.cpp:1230-1236 | with no '/' after the first character the parent is the root; otherwise it is the prefix before the last '/' |
| App.ChildPath | tui/app.cpp:1252-1254 | the child path ends in the name; at the root it is "/" and the name, elsewhere the path, one '/' and the name |
| App.ParentOfChild | tui/app.cpp:1228-1254 | going up from a subdirectory just entered gives back the path, and the child path is well formed |
| App.ParentWellFormed | tui/app.cpp:1228-1236 | going up keeps a path well formed and shortens it, except at the root |
| App.OnBrowseEnter | tui/app.cpp:1222-1277 | ".." reloads the parent; otherwise the row names entry idx − offset: a directory reloads its child path, a file is fetched, and a row past the list does nothing |
| App.OnBrowseBack | tui/app.cpp:1539-1551 | at the root Backspace changes nothing; elsewhere the path becomes its parent, and no listing is fetched, so the old entries stay on screen |
| App.BackSkipsReload | tui/app.cpp:1539-1551 | Backspace reaches the same parent as the ".." row, but only ".." fetches that parent's listing |
| App.OnBrowseBackReloading | tui/app.cpp:2503-2522 | the browse view's own Backspace and 'h' handler, which never receives events: at the root nothing, elsewhere the parent with a fresh listing |
| App.DotDotIsBack | tui/app.cpp:2503-2522 | with the fetch, Backspace and the ".." row do the same thing |
| App.EnterThenUp | tui/app.cpp:1228-1254 | entering a listed directory and then choosing ".." reloads the starting path |
| App.FindRoom | tui/app.cpp:303-312 | the first room with the name |
| App.OnChatMessage | tui/app.cpp:298-322 | a known room gets the message, plus one unread unless it is the selected room; an unknown room is created with one unread, direct exactly when its name does not start with '#' |
| App.UnreadCountsMessages | tui/app.cpp:303-321 | the unread total grows by one, except for a message to the open room |
| App.ChatMessageKeepsNamesUnique | tui/app.cpp:303-321 | room names stay unique |
| App.ChannelName | tui/app.cpp:1619-1620 | the name starts with '#', prefixed when missing |
| App.JoinRoom | tui/app.cpp:660-669 | empty input changes nothing; otherwise a channel named after the input, not direct and with no unread, is appended after the unchanged rooms, even when one of that name is listed |
| App.JoinTwiceDuplicates | tui/app.cpp:660-669 | joining the same room twice lists it twice, so names are no longer unique; messages reach only the first copy |
| App.JoinRoomChecked | tui/app.cpp:1617-1639 | the Join Room dialog that is never shown: a listed room is left alone, a new one is appended and selected, and room names stay unique |
| App.JoinRoomCheckedIdempotent | tui/app.cpp:1622-1638 | with the duplicate check, joining twice is joining once |
| App.UserJoined | tui/app.cpp:333-339 | a user is added only when absent, and the list is then sorted |
| App.UserLeft | tui/app.cpp:340-345 | every copy of the user is removed and nobody else |
| App.LeaveUndoesJoin | tui/app.cpp:333-345 | a user who joins and then leaves a tidy list leaves it as it was |
| App.OnUserPresence | tui/app.cpp:327-348 | only the first room with the name changes, and only in its users |
| App.PresenceKeepsUsersTidy | tui/app.cpp:331-348 | user lists stay sorted and free of repeats |
| App.Unfinished | tui/app.cpp:1524-1530 | exactly the transfers neither completed nor failed remain |
| App.ClearFinished | tui/app.cpp:1520-1535 | the unfinished transfers in order; a selection past the end moves to the last transfer, or to 0 |
| App.ClearFinishedSelection | tui/app.cpp:1531-1533 | a non-negative selection then points at a transfer whenever one is left |
| App.ClearFinishedIdempotent | tui/app.cpp:1524-1530 | clearing twice is clearing once |
| App.EditedPort | tui/app.cpp:1377-1380 | the port changes only when `atoi` of the text is in 1..65535 |
| App.EditedPortDecimal | tui/app.cpp:1377-1380 | typing a valid port in decimal sets exactly that port |
| App.UnitFor | tui/app.cpp:65-77 | the largest unit of 1, 1024, 1024² or 1024³ not exceeding the size |
| App.FormatSize | tui/app.cpp:65-77 | below 1024 the exact byte count and " B"; from 1024, 1024² and 1024³ on, the scaled figure and " KB", " MB" or " GB" |
| App.UnitMonotone | tui/app.cpp:65-77 | a larger size never gets a smaller unit |
| App.SmallSizesAreExact | tui/app.cpp:73-74 | below 1024 the printed size reads back as the exact byte count |
| Table.FitToWidth | tui/components/table.cpp:15-38 | a width of zero or less keeps the text; otherwise the cell has exactly the width; long text ends in "..." above width 3; short text sits at the aligned position among spaces |
| Table.CenterIsBalanced | tui/components/table.cpp:31-34 | centring puts padding/2 spaces left and the rest right, which is at most one more |
| Table.FitIdempotent | tui/components/table.cpp:15-38 | fitting a fitted cell changes nothing |
| Table.ExactFitIsVerbatim | tui/components/table.cpp:25-35 | a text exactly as wide as the column is shown as it is |
| Table.OnEvent | tui/components/table.cpp:114-168 | an empty table handles nothing; exactly the arrow, j/k, Home, End, Page and Return keys are handled; each key's new selection, and when highlight or select fires |
| Table.SelectionStaysInRange | tui/components/table.cpp:117-165 | a selection on a row stays on a row whatever key is pressed |
| Table.JumpsClampIntoRange | tui/components/table.cpp:135-145 | Home and End land on a row from any selection |
| Table.DownPresses | tui/components/table.cpp:127-133 | n presses of Down move n rows, stopping at the last |
| Table.UpPresses | tui/components/table.cpp:119-125 | n presses of Up move n rows, stopping at the first |
| Table.PagesAreTenArrows | tui/components/table.cpp:154-165 | Page Down and Page Up equal ten Down and ten Up presses |
| Table.DownThenUp | tui/components/table.cpp:119-133 | Down then Up returns to the row, except from the last |
| ScrollText.Window | tui/components/scrolltext.cpp:134-156 | at most `visible` lines, a contiguous run starting at max(0, total − visible − offset) |
| ScrollText.BottomShowsNewest | tui/components/scrolltext.cpp:136-137 | at offset 0 the newest lines are shown, as many as fit |
| ScrollText.TopShowsOldest | tui/components/scrolltext.cpp:136-137 | at the largest offset the oldest lines are shown |
| ScrollText.ScrollUpShiftsWindow | tui/components/scrolltext.cpp:136-137 | one more line of offset shows one older line and drops the newest |
| ScrollText.Render | tui/components/scrolltext.cpp:124-165 | empty input gives only the placeholder; otherwise the window, with the "more below" footer exactly when offset > 0 |
| ScrollText.FooterCountsHiddenLines | tui/components/scrolltext.cpp:158-162 | the footer's number is the offset |
| ScrollText.OnEvent | tui/components/scrolltext.cpp:63-100 | an empty view handles nothing; Home goes to the largest offset and End to 0; Page Up and Down move by half the visible lines (truncated) and the arrows by one, clamped to the range |
| ScrollText.OffsetStaysInRange | tui/components/scrolltext.cpp:66-97 | every key keeps the offset in [0, max(0, total − visible)] |
| ScrollText.UpThenDown | tui/components/scrolltext.cpp:89-97 | Up then Down returns to the offset, except at the top |
| Theme.FindThemeIndex | tui/theme.cpp:194-202 | the first index with the name, or 0 when none has it |
| Theme.ThemeIndex | tui/theme.cpp:194-202 | the same lookup as a function: the smallest match, else 0 |
| Theme.FindAgrees | tui/theme.cpp:194-202 | the loop and the function agree on every list and name |
| Theme.BuiltinLookup | tui/theme.cpp:194-201 | every lookup in the built-in list names a theme, and an unknown name gives "Default" |
| AsyncDns.NewCache | asyncdns.cpp:31-38 | a new cache is all blank slots |
| AsyncDns.FindHost | asyncdns.cpp:124-126 | the first slot whose name matches regardless of ASCII case |
| AsyncDns.FindFrom | asyncdns.cpp:124-126 | the lookup loop from slot x: the first matching slot at or after x |
| AsyncDns.Scan | asyncdns.cpp:146-158 | the slot-choice loop returns -1 or a slot index |
| AsyncDns.Victim | asyncdns.cpp:146-158 | a new name takes the first never-used slot; with none, the least recently used resolved slot, first of equals; with none of those, -1 |
| AsyncDns.ScanSpec | asyncdns.cpp:146-158 | the loop stops at the first free slot, and otherwise keeps the oldest resolved slot seen, first of equals |
| AsyncDns.VictimSpec | asyncdns.cpp:146-158 | a new name takes the first never-used slot; with none free, the least recently used resolved slot, first of equals; with none of those, no slot |
| AsyncDns.AnswerOf | asyncdns.cpp:129-142 | a resolved slot answers its address, or "unresolvable" for INADDR_NONE; an unresolved one says wait |
| AsyncDns.Resolve | asyncdns.cpp:120-171 | an address is only ever answered from a resolved slot with the name; a wait always leaves an unresolved slot with the name stamped now; only that slot changes |
| AsyncDns.HitAnswersFromSlot | asyncdns.cpp:124-143 | a known name is answered from its first slot, whose time is refreshed; nothing else changes |
| AsyncDns.NewNameTakesFirstFree | asyncdns.cpp:149-153 | a new name goes into the first free slot, unresolved with INADDR_NONE, and the answer is wait |
| AsyncDns.NewNameEvictsOldest | asyncdns.cpp:154-157 | with no free slot, a new name replaces the oldest resolved slot |
| AsyncDns.FullCacheRefuses | asyncdns.cpp:159-163 | with every slot pending, a new name is refused with -1 and the cache is unchanged |
| AsyncDns.WorkerPass | asyncdns.cpp:82-112 | each used, unresolved, named slot becomes resolved with the lookup's address; every other slot is unchanged |
| AsyncDns.AnsweredAfterWorker | asyncdns.cpp:120-171 | a name told to wait gets a definite answer after one worker sweep |
| AsyncDns.EmptyNameStaysPending | asyncdns.cpp:84-86 | the empty name stays pending after any sweep |
| AsyncDns.HitKeepsValid | asyncdns.cpp:124-143 | answering a known name keeps the cache valid |
| AsyncDns.MissKeepsValid | asyncdns.cpp:146-171 | storing or refusing a new name keeps the cache valid |
| AsyncDns.ResolveKeepsValid | asyncdns.cpp:120-171 | resolving keeps the cache valid: free slots are blank and come last, and no two used slots hold the same name |
| AsyncDns.WorkerKeepsValid | asyncdns.cpp:82-112 | a worker sweep keeps the cache valid |
| AsyncDns.NewCacheValid | asyncdns.cpp:31-38 | a new cache is valid |

## Left out

- Threads, mutexes, the event loop, `post` and `refresh`: the model is sequential. Each operation is one step on explicit state.
- The WASTE engine: `NetKern_*`, `g_mql->send`, the message classes and their byte layouts, transfers over the network, and `C_FileDB` scanning. Their source is not part of this model. A sent request is a `live` flag plus the id the send produced.
- RSA key generation, Blowfish, the private-key writer and SHA-1. The hash is a function parameter.
- File and filesystem I/O: reading and writing key files and `waste-tui.ini`, and `savePKList`. The parsers and formatters work on in-memory lines and strings.
- The nickname, port and network name `loadConfig` reads, and the default nickname drawn from `rand()`. The flag words and rates are modelled (`Config.LoadFlags`, `Config.SaveFlags`) over a map from keys to integers; the file format of `C_Config` is not.
- `getaddrinfo` and the creation of the worker thread. A sweep is one complete pass; a sweep interrupted by the kill flag is not modelled.
- `AsyncDns.Resolve`: `strcpy` into the slot's fixed-size hostname buffer is taken to fit, because the buffer size is in a header that is not part of this model.
- Floating point: the decimal digits of `formatSize` above 1 KB (a parameter) and `formatSpeed`.
- Advance (`Simulation.Advance`): the speed is a whole number of KB/s, and the bytes moved in a tick are speed·1024·ms/1000 by exact integer division. The code computes that product in single-precision `float` and truncates it. Rounding can then give a different count, for example 298709 rather than 298708 for 999 KB/s over 292 ms, when a tick is long enough. Neither this rounding nor fractional speeds are modelled.
- All FTXUI rendering: colours, the colour tables of the themes, modals, layout, `main.cpp`. The scroll view's visible line count is a parameter; it starts at 20.
- `disconnectPeer`, `cancelTransfer`, `downloadFile` over the network, `sendChatMessage`, `joinRoom`/`leaveRoom` in the core, and the local-database and simulated-result parts of `search`: they only call the engine or produce canned data.
- `Text.Atoi`: overflow of `atoi` on more than ten digits is not modelled; integers are unbounded.
- `Session.FileSize`: sizes are unbounded naturals rather than `uint64_t`. The two halves are reduced modulo 2³² as the casts do.
- Strings are sequences of characters, and a character stands for the byte `CharByte` gives it. The C++ code works on the bytes of UTF-8 text, so the members below agree with it on ASCII text only:
- FitToWidth (`Table.FitToWidth`): lengths are counted in characters, while `std::string::length` counts bytes.
- NameField (`Keys.NameField`): the name is cut to 15 characters, while `substr(0, 15)` cuts 15 bytes.
- CopyName (`Keys.CopyName`): `strncpy` copies 15 bytes; the model copies 15 characters.
- OnChatReply (`Chat.OnChatReply`): the length test counts characters, while `strlen` counts bytes.
- OnChatReply, OnPing and OnChat (`Chat.OnChatReply`, `Chat.OnPing`, `Chat.OnChat`): a nickname is learned only through the connection that delivered the message, and only while the core instance exists. The model takes both as present: it has no connections, and "learns exactly when" is stated under that assumption.
- OnPing (`Chat.OnPing`): the same length test as `OnChatReply`, on characters rather than bytes.
- Sanitize (`Config.Sanitize`): each character is tested, while `isalnum` tests each byte, so a two-byte character becomes one '_' here and two in the program.
- Import (`Keys.Import`): like `importPublicKey`, it checks only the trusted list for a duplicate. Importing a key that is already pending therefore leaves it in both lists, and no lemma promises the lists stay apart in that case (see `Keys.ImportDisjointWhenNotPending`).
- ImportExport (`Keys.ImportExport`): the round trip is stated only for the nicknames `Keys.PortableNick` allows. Three kinds are excluded:
  - A nickname ending in a space, CR or LF loses those characters, because the importer trims every line (`Keys.NameLineDropsTrailingBlanks`). The name imported then differs from the name in the record. A nickname made only of such characters leaves the line "Name:", which is appended to the Base64 text and garbles the key (`Keys.BlankNickLineIsData`).
  - A nickname holding NUL is cut at the NUL by `strncpy` on import.
  - A nickname holding a newline splits the "Name: " line of the written file into two lines, since the key file is modelled as its list of lines.
- The browse entry's `fullPath` and `fileId` fields, which no state record of the interface keeps.

## Findings

| source | as written | input that shows it | evidently intended | confidence | as-written member | corrected member |
|---|---|---|---|---|---|---|
| tui/app.cpp:660-669 | Enter in the Join Room dialog appends a channel without looking for one of the same name, and leaves the selection alone | rooms `[#foo]`, input "foo": the list becomes `[#foo, #foo]`, and every later message for "#foo" goes to the first copy | the check of `buildJoinRoomModal` (app.cpp:1617-1639): a listed room is left alone, a new one is appended and selected | medium; not executed | `App.JoinRoom`, shown by `App.JoinTwiceDuplicates` | `App.JoinRoomChecked`, with `App.JoinRoomCheckedIdempotent` |
| tui/app.cpp:1539-1551 | Backspace in the browse view sets the parent path and selects row 0, but neither clears the entries nor asks for the parent's listing | path "/music/rock": the path becomes "/music" while the entries of "/music/rock" stay on screen | clear and fetch, as the ".." row (app.cpp:1237-1243) and the browse view's own handler (app.cpp:2503-2522) do | medium; not executed | `App.OnBrowseBack`, shown by `App.BackSkipsReload` | `App.OnBrowseBackReloading`, with `App.DotDotIsBack` |

=== FILE: app.dfy ===
/**
 * The interface's own bookkeeping: remote-browse navigation, chat rooms and
 * their unread counts and user lists, clearing finished transfers, the port
 * editor and the unit `formatSize` picks.
 */
module App {
  import opened Text
  import opened State
  import opened Sorting
  import Session

  // ---------------------------------------------------------------------------
  // Remote browse navigation

  /** The position of the last '/' in `s`, or -1 (`rfind` returning `npos`). */
  function LastSlash(s: string): (k: int)
    ensures -1 <= k < |s|
    ensures k >= 0 ==> s[k] == '/'
    ensures forall j :: k < j < |s| ==> s[j] != '/'
  {
    if s == [] then -1
    else if s[|s| - 1] == '/' then |s| - 1
    else LastSlash(s[..|s| - 1])
  }

  /** Going up: everything before the last '/', or the root when that is the first character. */
  function ParentPath(path: string): (r: string)
    ensures (forall j :: 0 < j < |path| ==> path[j] != '/') ==> r == "/"
    ensures (exists j :: 0 < j < |path| && path[j] == '/') ==>
      |r| < |path| && r == path[..|r|] && path[|r|] == '/' && (forall j :: |r| < j < |path| ==> path[j] != '/')
  {
    var pos := LastSlash(path);
    if pos > 0 then path[..pos] else "/"
  }

  /** Entering `name`: one '/' between the path and the name, none doubled at the root. */
  function ChildPath(path: string, name: string): (r: string)
    ensures |r| >= |name| && r[|r| - |name|..] == name
    ensures path == "/" ==> r == "/" + name
    ensures path != "/" ==> |r| == |path| + 1 + |name| && r[..|path|] == path && r[|path|] == '/'
  {
    (if path != "/" then path + "/" else path) + name
  }

  /** A name a directory listing can hold as one path component. */
  predicate ComponentName(name: string) {
    name != [] && '/' !in name
  }

  lemma LastSlashBeforeName(q: string, name: string)
    requires '/' !in name
    ensures LastSlash(q + "/" + name) == |q|
    decreases |name|
  {
    var s := q + "/" + name;
    if name != [] {
      assert s[..|s| - 1] == q + "/" + name[..|name| - 1];
      assert name[|name| - 1] in name;
      LastSlashBeforeName(q, name[..|name| - 1]);
    } else {
      assert s[|s| - 1] == '/';
    }
  }

  /**
   * Entering a directory from a well-formed path gives a well-formed path,
   * and going up from it returns to where the user was.
   */
  lemma ParentOfChild(path: string, name: string)
    requires Session.WellFormedPath(path) && ComponentName(name)
    ensures Session.WellFormedPath(ChildPath(path, name))
    ensures ParentPath(ChildPath(path, name)) == path
  {
    var c := ChildPath(path, name);
    if path == "/" {
      assert c == "/" + name;
      assert c == [] + "/" + name;
      LastSlashBeforeName([], name);
      assert forall i :: 1 <= i < |c| ==> c[i] == name[i - 1];
    } else {
      assert c == path + "/" + name;
      LastSlashBeforeName(path, name);
      assert c[..|path|] == path;
      assert forall i :: |path| < i < |c| ==> c[i] == name[i - |path| - 1];
      assert forall i :: 0 <= i < |path| ==> c[i] == path[i];
    }
    assert name[|name| - 1] in name;
  }

  /** Going up keeps a path well formed and shortens it, so it reaches the root. */
  lemma ParentWellFormed(path: string)
    requires Session.WellFormedPath(path)
    ensures Session.WellFormedPath(ParentPath(path))
    ensures path != "/" ==> |ParentPath(path)| < |path|
  {
    var pos := LastSlash(path);
    if pos > 0 {
      var p := path[..pos];
      assert forall i :: 0 <= i < |p| ==> p[i] == path[i];
      assert p[|p| - 1] != '/' by {
        assert path[pos] == '/';
      }
    }
  }

  /**
   * What Enter or Backspace in the browse view does: `Reload` sets the path
   * and fetches its listing, `Retarget` sets the path and keeps the listing
   * on screen, `Fetch` downloads a file, and `Stay` changes nothing.
   */
  datatype BrowseAction = Reload(path: string) | Retarget(path: string) | Fetch(entry: BrowseEntry) | Stay

  /**
   * Enter on row `idx`. Away from the root, row 0 is "..", so entries start
   * at row 1; a directory row is entered and a file row downloaded.
   */
  function OnBrowseEnter(path: string, idx: int, entries: seq<BrowseEntry>): (a: BrowseAction)
    ensures path != "/" && idx == 0 ==> a == Reload(ParentPath(path))
    ensures a.Fetch? ==> a.entry in entries && !a.entry.isDirectory
    ensures a.Reload? && !(path != "/" && idx == 0) ==>
      exists e :: e in entries && e.isDirectory && a.path == ChildPath(path, e.name)
    ensures var k := idx - (if path != "/" then 1 else 0);
      !(path != "/" && idx == 0) && 0 <= k < |entries| ==>
        a == if entries[k].isDirectory then Reload(ChildPath(path, entries[k].name)) else Fetch(entries[k])
    ensures var k := idx - (if path != "/" then 1 else 0);
      !(path != "/" && idx == 0) && !(0 <= k < |entries|) ==> a == Stay
  {
    var offset := if path != "/" then 1 else 0;
    if offset > 0 && idx == 0 then Reload(ParentPath(path))
    else
      var k := idx - offset;
      if 0 <= k < |entries| then
        if entries[k].isDirectory then Reload(ChildPath(path, entries[k].name)) else Fetch(entries[k])
      else Stay
  }

  /**
   * Backspace in the browse view, as the global key handler runs it: away
   * from the root the path becomes its parent and the first row is
   * selected, but no listing is requested and the old one stays on screen.
   */
  function OnBrowseBack(path: string): (a: BrowseAction)
    ensures path == "/" <==> a == Stay
    ensures path != "/" ==> a.Retarget? && a.path == ParentPath(path)
  {
    if path != "/" then Retarget(ParentPath(path)) else Stay
  }

  /**
   * Backspace goes to the same parent as the ".." row, but only ".." asks
   * for the parent's listing; after Backspace the entries shown are still
   * those of the directory that was left.
   */
  lemma BackSkipsReload(path: string, entries: seq<BrowseEntry>)
    requires path != "/"
    ensures OnBrowseEnter(path, 0, entries) == Reload(OnBrowseBack(path).path)
    ensures !OnBrowseBack(path).Reload?
  {
  }

  /**
   * Backspace and 'h' as the browse view's own handler meant them, which
   * also clears the listing and asks for the parent's: up one level with a
   * fetch, except at the root.
   */
  function OnBrowseBackReloading(path: string): (a: BrowseAction)
    ensures path == "/" <==> a == Stay
    ensures path != "/" ==> a.Reload? && a.path == ParentPath(path)
  {
    if path != "/" then Reload(ParentPath(path)) else Stay
  }

  /** With the fetch, the ".." row and Backspace do the same thing. */
  lemma DotDotIsBack(path: string, entries: seq<BrowseEntry>)
    requires path != "/"
    ensures OnBrowseEnter(path, 0, entries) == OnBrowseBackReloading(path)
  {
  }

  /** Entering a listed directory and then choosing ".." reloads the starting path. */
  lemma EnterThenUp(path: string, idx: int, entries: seq<BrowseEntry>, later: seq<BrowseEntry>)
    requires Session.WellFormedPath(path)
    requires var k := idx - (if path != "/" then 1 else 0);
      0 <= k < |entries| && entries[k].isDirectory && ComponentName(entries[k].name)
    ensures var a := OnBrowseEnter(path, idx, entries);
      a.Reload? && OnBrowseEnter(a.path, 0, later) == Reload(path)
  {
    var k := idx - (if path != "/" then 1 else 0);
    ParentOfChild(path, entries[k].name);
    assert |ChildPath(path, entries[k].name)| > 1;
  }

  // ---------------------------------------------------------------------------
  // Chat rooms

  /** The first room called `name`, or |rooms|. */
  function FindRoom(rooms: seq<ChatRoom>, name: string): (k: nat)
    ensures k <= |rooms|
    ensures k < |rooms| ==> rooms[k].name == name
    ensures forall j :: 0 <= j < k ==> rooms[j].name != name
  {
    if rooms == [] then 0 else if rooms[0].name == name then 0 else 1 + FindRoom(rooms[1..], name)
  }

  function TotalUnread(rooms: seq<ChatRoom>): int {
    if rooms == [] then 0 else rooms[0].unreadCount + TotalUnread(rooms[1..])
  }

  /** Room names other than channels ("#...") are direct conversations. */
  predicate DirectName(name: string) {
    !(|name| > 0 && name[0] == '#')
  }

  /**
   * A chat message arrives: it joins the first room of its name, counting as
   * unread unless that room is the selected one; a message for an unknown
   * room opens a new room holding it, unread.
   */
  function OnChatMessage(rooms: seq<ChatRoom>, selected: int, msg: ChatMessage): (r: seq<ChatRoom>)
    ensures var k := FindRoom(rooms, msg.room);
      && (k < |rooms| ==> |r| == |rooms| && r[k].messages == rooms[k].messages + [msg]
                           && r[k].unreadCount == rooms[k].unreadCount + (if k == selected then 0 else 1))
      && (k == |rooms| ==> r == rooms + [ChatRoom(msg.room, DirectName(msg.room), 1, [msg], [])])
    ensures forall j :: 0 <= j < |rooms| && j != FindRoom(rooms, msg.room) ==> r[j] == rooms[j]
  {
    var k := FindRoom(rooms, msg.room);
    if k < |rooms| then
      rooms[k := rooms[k].(messages := rooms[k].messages + [msg],
                           unreadCount := rooms[k].unreadCount + (if k == selected then 0 else 1))]
    else rooms + [ChatRoom(msg.room, DirectName(msg.room), 1, [msg], [])]
  }

  lemma {:induction false} TotalUnreadUpdate(rooms: seq<ChatRoom>, k: int, room: ChatRoom)
    requires 0 <= k < |rooms|
    ensures TotalUnread(rooms[k := room]) == TotalUnread(rooms) - rooms[k].unreadCount + room.unreadCount
  {
    if k > 0 {
      assert rooms[k := room][1..] == rooms[1..][k - 1 := room];
      TotalUnreadUpdate(rooms[1..], k - 1, room);
    }
  }

  lemma {:induction false} TotalUnreadAppend(rooms: seq<ChatRoom>, room: ChatRoom)
    ensures TotalUnread(rooms + [room]) == TotalUnread(rooms) + room.unreadCount
  {
    if rooms != [] {
      assert (rooms + [room])[1..] == rooms[1..] + [room];
      TotalUnreadAppend(rooms[1..], room);
    }
  }

  /** Each message adds one to the unread badge total, unless it lands in the open room. */
  lemma UnreadCountsMessages(rooms: seq<ChatRoom>, selected: int, msg: ChatMessage)
    ensures var k := FindRoom(rooms, msg.room);
      TotalUnread(OnChatMessage(rooms, selected, msg)) ==
        TotalUnread(rooms) + (if k < |rooms| && k == selected then 0 else 1)
  {
    var k := FindRoom(rooms, msg.room);
    if k < |rooms| {
      TotalUnreadUpdate(rooms, k, OnChatMessage(rooms, selected, msg)[k]);
    } else {
      TotalUnreadAppend(rooms, ChatRoom(msg.room, DirectName(msg.room), 1, [msg], []));
    }
  }

  /** No two rooms share a name. */
  predicate UniqueNames(rooms: seq<ChatRoom>) {
    forall i, j :: 0 <= i < j < |rooms| ==> rooms[i].name != rooms[j].name
  }

  lemma ChatMessageKeepsNamesUnique(rooms: seq<ChatRoom>, selected: int, msg: ChatMessage)
    requires UniqueNames(rooms)
    ensures UniqueNames(OnChatMessage(rooms, selected, msg))
  {
  }

  /** The name the Join Room dialog uses: the input, with '#' in front when missing. */
  function ChannelName(input: string): (name: string)
    requires input != []
    ensures |name| >= 1 && name[0] == '#'
    ensures input[0] == '#' ==> name == input
    ensures input[0] != '#' ==> name[1..] == input
  {
    if input[0] != '#' then "#" + input else input
  }

  /**
   * Join Room as the key handler of the dialog runs it: a non-empty input
   * appends an empty channel, whether or not a room of that name is already
   * listed, and leaves the selected room as it was.
   */
  function JoinRoom(rooms: seq<ChatRoom>, input: string): (r: seq<ChatRoom>)
    ensures input == [] ==> r == rooms
    ensures input != [] ==>
      |r| == |rooms| + 1 && r[..|rooms|] == rooms && r[|rooms|] == ChatRoom(ChannelName(input), false, 0, [], [])
  {
    if input == [] then rooms else rooms + [ChatRoom(ChannelName(input), false, 0, [], [])]
  }

  /**
   * Joining a room that is already listed adds a second room of the same
   * name, so the names are no longer unique. Messages still go to the first
   * of the two: the copy never receives any.
   */
  lemma JoinTwiceDuplicates(rooms: seq<ChatRoom>, input: string, selected: int, msg: ChatMessage)
    requires input != []
    ensures var once := JoinRoom(rooms, input);
      var twice := JoinRoom(once, input);
      |twice| == |rooms| + 2
      && twice[|rooms|].name == twice[|rooms| + 1].name == ChannelName(input)
      && !UniqueNames(twice)
    ensures var once := JoinRoom(rooms, input);
      var twice := JoinRoom(once, input);
      FindRoom(twice, ChannelName(input)) <= |rooms|
      && OnChatMessage(twice, selected, msg)[|rooms| + 1] == twice[|rooms| + 1]
  {
  }

  /**
   * Join Room as the dialog that is built but never shown meant it: a room
   * already listed is left as it is; otherwise the new channel is appended
   * and selected.
   */
  function JoinRoomChecked(rooms: seq<ChatRoom>, selected: int, input: string): (r: (seq<ChatRoom>, int))
    ensures input == [] ==> r == (rooms, selected)
    ensures input != [] ==> var name := ChannelName(input);
      FindRoom(r.0, name) < |r.0| &&
      (FindRoom(rooms, name) < |rooms| ==> r == (rooms, selected)) &&
      (FindRoom(rooms, name) == |rooms| ==>
        r == (JoinRoom(rooms, input), |rooms|))
    ensures UniqueNames(rooms) ==> UniqueNames(r.0)
  {
    if input == [] then (rooms, selected)
    else
      var name := ChannelName(input);
      if FindRoom(rooms, name) < |rooms| then (rooms, selected)
      else
        var r := JoinRoom(rooms, input);
        assert r[|rooms|].name == name;
        (r, |rooms|)
  }

  /** With the check, joining the same room twice is the same as joining it once. */
  lemma JoinRoomCheckedIdempotent(rooms: seq<ChatRoom>, selected: int, input: string)
    ensures var (once, s1) := JoinRoomChecked(rooms, selected, input);
      JoinRoomChecked(once, s1, input) == (once, s1)
  {
  }

  // ---------------------------------------------------------------------------
  // Room user lists

  /** No user listed twice. */
  ghost predicate NoRepeats(users: seq<string>) {
    forall u :: multiset(users)[u] <= 1
  }

  /** A join adds a user not yet listed and re-sorts the list. */
  function UserJoined(users: seq<string>, user: string): (r: seq<string>)
    ensures user in r
    ensures user in users ==> r == users
    ensures user !in users ==> multiset(r) == multiset(users) + multiset{user} && Sorted(r)
    ensures Sorted(users) ==> Sorted(r)
    ensures NoRepeats(users) ==> NoRepeats(r)
  {
    if user in users then users
    else
      var r := Sort(users + [user]);
      assert multiset(users + [user]) == multiset(users) + multiset{user};
      assert user in multiset(r);
      r
  }

  /** A leave removes every occurrence of the user. */
  function UserLeft(users: seq<string>, user: string): (r: seq<string>)
    ensures user !in r
    ensures forall u :: u in r <==> u in users && u != user
    ensures Sorted(users) ==> Sorted(r)
    ensures NoRepeats(users) ==> NoRepeats(r)
  {
    var r := RemoveAll(users, user);
    assert Sorted(users) ==> Sorted(r) by {
      if Sorted(users) {
        RemoveAllSorted(users, user);
      }
    }
    r
  }

  /** Someone who joins and then leaves a sorted list leaves it as it was. */
  lemma LeaveUndoesJoin(users: seq<string>, user: string)
    requires Sorted(users) && user !in users
    ensures UserLeft(UserJoined(users, user), user) == users
  {
    var joined := UserJoined(users, user);
    var r := UserLeft(joined, user);
    assert multiset(r) == multiset(joined)[user := 0];
    assert multiset(users)[user] == 0;
    assert multiset(r) == multiset(users);
    SortedUnique(r, users);
  }

  /** The presence event updates the first room of its name; other rooms are untouched. */
  function OnUserPresence(rooms: seq<ChatRoom>, room: string, user: string, joined: bool): (r: seq<ChatRoom>)
    ensures |r| == |rooms|
    ensures forall j :: 0 <= j < |rooms| && j != FindRoom(rooms, room) ==> r[j] == rooms[j]
    ensures var k := FindRoom(rooms, room); k < |rooms| ==>
      r[k] == rooms[k].(users := if joined then UserJoined(rooms[k].users, user) else UserLeft(rooms[k].users, user))
  {
    var k := FindRoom(rooms, room);
    if k == |rooms| then rooms
    else
      var u := rooms[k].users;
      rooms[k := rooms[k].(users := if joined then UserJoined(u, user) else UserLeft(u, user))]
  }

  /** Every room's user list stays sorted and free of repeats. */
  ghost predicate TidyUsers(rooms: seq<ChatRoom>) {
    forall j :: 0 <= j < |rooms| ==> Sorted(rooms[j].users) && NoRepeats(rooms[j].users)
  }

  lemma PresenceKeepsUsersTidy(rooms: seq<ChatRoom>, room: string, user: string, joined: bool)
    requires TidyUsers(rooms)
    ensures TidyUsers(OnUserPresence(rooms, room, user, joined))
  {
  }

  // ---------------------------------------------------------------------------
  // Clearing finished transfers

  predicate Finished(t: TransferInfo) {
    t.status == TransferStatus.Completed || t.status == TransferStatus.Failed
  }

  /** The unfinished transfers, in their original order. */
  function Unfinished(ts: seq<TransferInfo>): (r: seq<TransferInfo>)
    ensures |r| <= |ts|
    ensures forall t :: t in r <==> t in ts && !Finished(t)
  {
    if ts == [] then []
    else
      assert ts == [ts[0]] + ts[1..];
      (if Finished(ts[0]) then [] else [ts[0]]) + Unfinished(ts[1..])
  }

  lemma {:induction false} UnfinishedAppend(a: seq<TransferInfo>, b: seq<TransferInfo>)
    ensures Unfinished(a + b) == Unfinished(a) + Unfinished(b)
  {
    if a == [] {
      assert a + b == b;
    } else {
      assert (a + b)[1..] == a[1..] + b;
      UnfinishedAppend(a[1..], b);
    }
  }

  /**
   * 'x' in the transfers view: drops completed and failed transfers and pulls
   * the selection back onto the shortened list.
   */
  function ClearFinished(ts: seq<TransferInfo>, selected: int): (r: (seq<TransferInfo>, int))
    ensures r.0 == Unfinished(ts)
    ensures selected < |r.0| ==> r.1 == selected
    ensures selected >= |r.0| ==> r.1 == (if |r.0| > 0 then |r.0| - 1 else 0)
  {
    var kept := Unfinished(ts);
    (kept, if selected >= |kept| then (if |kept| - 1 > 0 then |kept| - 1 else 0) else selected)
  }

  /** After clearing, a non-negative selection points at a transfer whenever there is one. */
  lemma ClearFinishedSelection(ts: seq<TransferInfo>, selected: int)
    requires selected >= 0
    ensures var (kept, sel) := ClearFinished(ts, selected);
      0 <= sel && (kept != [] ==> sel < |kept|)
  {
  }

  /** Clearing twice is clearing once. */
  lemma {:induction false} ClearFinishedIdempotent(ts: seq<TransferInfo>)
    ensures Unfinished(Unfinished(ts)) == Unfinished(ts)
  {
    if ts != [] {
      ClearFinishedIdempotent(ts[1..]);
      var rest := Unfinished(ts[1..]);
      if Finished(ts[0]) {
        assert Unfinished(ts) == [] + rest == rest;
      } else {
        assert Unfinished(ts) == [ts[0]] + rest;
        assert ([ts[0]] + rest)[1..] == rest;
      }
    }
  }

  // ---------------------------------------------------------------------------
  // Settings and sizes

  /** The port editor keeps the old port unless `atoi` of the text is in 1..65535. */
  function EditedPort(text: string, current: int): (p: int)
    ensures 0 < AtoiSpec(text) < 65536 ==> p == AtoiSpec(text)
    ensures !(0 < AtoiSpec(text) < 65536) ==> p == current
  {
    var port := AtoiSpec(text);
    if port > 0 && port < 65536 then port else current
  }

  /** Typing a port number in decimal sets exactly that port. */
  lemma EditedPortDecimal(n: nat, current: int)
    requires 0 < n < 65536
    ensures EditedPort(Decimal(n), current) == n
  {
    AtoiDecimal(n);
  }

  datatype SizeUnit = B | KB | MB | GB

  function Scale(u: SizeUnit): nat {
    match u
    case B => 1
    case KB => 1024
    case MB => 1024 * 1024
    case GB => 1024 * 1024 * 1024
  }

  /** `formatSize`'s unit: the largest unit not exceeding the size, bytes below 1 KB. */
  function UnitFor(bytes: nat): (u: SizeUnit)
    ensures u == B || Scale(u) <= bytes
    ensures u == GB || bytes < 1024 * Scale(u)
  {
    if bytes >= 1024 * 1024 * 1024 then GB
    else if bytes >= 1024 * 1024 then MB
    else if bytes >= 1024 then KB
    else B
  }

  /** A larger size never gets a smaller unit. */
  lemma UnitMonotone(a: nat, b: nat)
    requires a <= b
    ensures Scale(UnitFor(a)) <= Scale(UnitFor(b))
  {
  }

  /**
   * The text `formatSize` prints: exact bytes below 1 KB, otherwise `scaled`
   * (the size divided by the unit to one decimal place, which this model
   * takes as given) and the unit name.
   */
  function FormatSize(bytes: nat, scaled: string): (r: string)
    ensures bytes < 1024 ==> r == Decimal(bytes) + " B"
    ensures 1024 <= bytes < 1024 * 1024 ==> r == scaled + " KB"
    ensures 1024 * 1024 <= bytes < 1024 * 1024 * 1024 ==> r == scaled + " MB"
    ensures 1024 * 1024 * 1024 <= bytes ==> r == scaled + " GB"
  {
    match UnitFor(bytes)
    case B => Decimal(bytes) + " B"
    case KB => scaled + " KB"
    case MB => scaled + " MB"
    case GB => scaled + " GB"
  }

  /** Below 1 KB the printed size reads back as the exact byte count. */
  lemma SmallSizesAreExact(bytes: nat, scaled: string)
    requires bytes < 1024
    ensures AtoiSpec(FormatSize(bytes, scaled)) == bytes
  {
    var d := Decimal(bytes);
    var s := d + " B";
    assert SpaceRun(s) == 0;
    assert s[0..] == s;
    assert s[..|d|] == d;
    DigitRunIsFirstNonDigit(s, |d|);
    DecimalValue(bytes);
  }
}

=== FILE: asyncdns.dfy ===
/**
 * The host-name cache of the asynchronous resolver. `Resolve` answers from
 * the cache or claims a slot for a new name; a worker pass (the resolver
 * thread, here one complete sweep with the lookup as a parameter) fills in
 * the pending slots.
 */
module AsyncDns {

  /** `INADDR_NONE`, the address that stands for "could not be resolved". */
  const InaddrNone: bv32 := 0xFFFF_FFFF

  /** One cache slot; `lastUsed == 0` marks a slot never used. */
  datatype Entry = Entry(hostname: string, lastUsed: int, resolved: bool, addr: bv32)

  /** A zero-filled slot, as the constructor leaves every slot. */
  const Blank := Entry("", 0, false, 0)

  function NewCache(size: nat): (c: seq<Entry>)
    ensures |c| == size && forall i :: 0 <= i < size ==> c[i] == Blank
  {
    seq(size, _ => Blank)
  }

  predicate Used(e: Entry) { e.lastUsed != 0 }

  /** ASCII lower-casing, as the case-insensitive comparison applies it. */
  function Lower(ch: char): char {
    if 'A' <= ch <= 'Z' then (ch as int + 32) as char else ch
  }

  function Fold(s: string): (r: string)
    ensures |r| == |s|
  {
    seq(|s|, i requires 0 <= i < |s| => Lower(s[i]))
  }

  /** Equal up to the case of ASCII letters. */
  predicate SameHost(a: string, b: string) { Fold(a) == Fold(b) }

  /** The first slot at or after `x` whose name matches `h`, or `|c|`. */
  function FindFrom(c: seq<Entry>, h: string, x: nat): (m: nat)
    requires x <= |c|
    ensures x <= m <= |c|
    ensures m < |c| ==> SameHost(c[m].hostname, h)
    ensures forall j :: x <= j < m ==> !SameHost(c[j].hostname, h)
    decreases |c| - x
  {
    if x == |c| then x
    else if SameHost(c[x].hostname, h) then x
    else FindFrom(c, h, x + 1)
  }

  function FindHost(c: seq<Entry>, h: string): (m: nat)
    ensures m <= |c|
    ensures m < |c| ==> SameHost(c[m].hostname, h)
    ensures forall j :: 0 <= j < m ==> !SameHost(c[j].hostname, h)
  {
    FindFrom(c, h, 0)
  }

  // Slot choice for a new name.

  predicate HasFree(c: seq<Entry>) {
    exists i :: 0 <= i < |c| && !Used(c[i])
  }

  predicate AllUsed(c: seq<Entry>, n: nat)
    requires n <= |c|
  {
    forall j :: 0 <= j < n ==> Used(c[j])
  }

  predicate NoneResolved(c: seq<Entry>, n: nat)
    requires n <= |c|
  {
    forall j :: 0 <= j < n ==> !c[j].resolved
  }

  /** `v` is the first free slot. */
  predicate FirstFree(c: seq<Entry>, v: int) {
    0 <= v < |c| && !Used(c[v]) && AllUsed(c, v)
  }

  /**
   * Among the first `n` slots, `v` is a resolved one used least recently,
   * and the first such.
   */
  predicate OldestIn(c: seq<Entry>, n: nat, v: int)
    requires n <= |c|
  {
    0 <= v < n && c[v].resolved &&
    (forall j :: 0 <= j < n && c[j].resolved ==> c[v].lastUsed <= c[j].lastUsed) &&
    (forall j :: 0 <= j < v && c[j].resolved ==> c[v].lastUsed < c[j].lastUsed)
  }

  /** The slot search as written: stop at a free slot, else keep the oldest resolved one. */
  function Scan(c: seq<Entry>, x: nat, oi: int): (r: int)
    requires x <= |c| && -1 <= oi < x
    ensures -1 <= r < |c|
    decreases |c| - x
  {
    if x == |c| then oi
    else if !Used(c[x]) then x
    else Scan(c, x + 1, if (oi == -1 || c[x].lastUsed < c[oi].lastUsed) && c[x].resolved then x else oi)
  }

  /** The slot a new name goes into, or -1 when every slot is pending. */
  function Victim(c: seq<Entry>): (v: int)
    ensures HasFree(c) ==> FirstFree(c, v)
    ensures !HasFree(c) && !NoneResolved(c, |c|) ==> OldestIn(c, |c|, v)
    ensures !HasFree(c) && NoneResolved(c, |c|) ==> v == -1
  {
    ScanSpec(c, 0, -1);
    Scan(c, 0, -1)
  }

  lemma {:induction false} ScanSpec(c: seq<Entry>, x: nat, oi: int)
    requires x <= |c| && -1 <= oi < x && AllUsed(c, x)
    requires if oi == -1 then NoneResolved(c, x) else OldestIn(c, x, oi)
    ensures var r := Scan(c, x, oi);
            (HasFree(c) ==> FirstFree(c, r)) &&
            (!HasFree(c) && !NoneResolved(c, |c|) ==> OldestIn(c, |c|, r)) &&
            (!HasFree(c) && NoneResolved(c, |c|) ==> r == -1)
    decreases |c| - x
  {
    if x < |c| && Used(c[x]) {
      var next := if (oi == -1 || c[x].lastUsed < c[oi].lastUsed) && c[x].resolved then x else oi;
      assert AllUsed(c, x + 1);
      if next == -1 {
        assert NoneResolved(c, x + 1);
      } else {
        assert OldestIn(c, x + 1, next);
      }
      ScanSpec(c, x + 1, next);
    } else if x == |c| {
      assert !HasFree(c);
    }
  }

  /**
   * A new name takes the first never-used slot; failing that, the resolved
   * slot used longest ago (the first of several); failing that, none.
   */
  lemma VictimSpec(c: seq<Entry>)
    ensures HasFree(c) ==> FirstFree(c, Victim(c))
    ensures !HasFree(c) && !NoneResolved(c, |c|) ==> OldestIn(c, |c|, Victim(c))
    ensures !HasFree(c) && NoneResolved(c, |c|) ==> Victim(c) == -1
  {
    ScanSpec(c, 0, -1);
  }

  // Resolving.

  datatype Answer = Resolved(addr: bv32) | Pending | Unresolvable

  /** The return code: 0 with an address, 1 to wait, -1 when it cannot be resolved. */
  function Code(a: Answer): int {
    match a
    case Resolved(_) => 0
    case Pending => 1
    case Unresolvable => -1
  }

  /** What a slot found for the name answers. */
  function AnswerOf(e: Entry): (a: Answer)
    ensures a.Resolved? <==> e.resolved && e.addr != InaddrNone
    ensures a.Resolved? ==> a.addr == e.addr
    ensures a == Pending <==> !e.resolved
  {
    if !e.resolved then Pending
    else if e.addr == InaddrNone then Unresolvable
    else Resolved(e.addr)
  }

  /** One call at time `now`: the new cache and the answer. */
  function Resolve(c: seq<Entry>, h: string, now: int): (r: (seq<Entry>, Answer))
    ensures |r.0| == |c|
    ensures r.1.Resolved? ==>
              exists i :: 0 <= i < |c| && SameHost(c[i].hostname, h) && c[i].resolved && c[i].addr == r.1.addr
    ensures r.1 == Pending ==>
              exists i :: 0 <= i < |c| && SameHost(r.0[i].hostname, h) && !r.0[i].resolved && r.0[i].lastUsed == now
    ensures forall i :: 0 <= i < |c| && r.0[i] != c[i] ==> r.0[i].lastUsed == now && SameHost(r.0[i].hostname, h)
    ensures r.1 == Unresolvable && FindHost(c, h) == |c| ==> r.0 == c
  {
    var m := FindHost(c, h);
    if m < |c| then
      var c1 := c[m := c[m].(lastUsed := now)];
      assert c1[m].hostname == c[m].hostname && c1[m].resolved == c[m].resolved;
      (c1, AnswerOf(c[m]))
    else
      var v := Victim(c);
      if v == -1 then (c, Unresolvable)
      else
        var c1 := c[v := Entry(h, now, false, InaddrNone)];
        assert SameHost(c1[v].hostname, h);
        (c1, Pending)
  }

  /** A name already in the cache is answered from its first slot, whose use time is refreshed. */
  lemma HitAnswersFromSlot(c: seq<Entry>, h: string, now: int, m: nat)
    requires m < |c| && SameHost(c[m].hostname, h)
    requires forall j :: 0 <= j < m ==> !SameHost(c[j].hostname, h)
    ensures Resolve(c, h, now).1 == AnswerOf(c[m])
    ensures Resolve(c, h, now).0[m].lastUsed == now
    ensures forall i :: 0 <= i < |c| && i != m ==> Resolve(c, h, now).0[i] == c[i]
  {
    assert FindHost(c, h) == m;
  }

  /** A new name goes into the first never-used slot, unresolved. */
  lemma NewNameTakesFirstFree(c: seq<Entry>, h: string, now: int, v: int)
    requires forall j :: 0 <= j < |c| ==> !SameHost(c[j].hostname, h)
    requires FirstFree(c, v)
    ensures Resolve(c, h, now) == (c[v := Entry(h, now, false, InaddrNone)], Pending)
  {
    assert FindHost(c, h) == |c|;
    VictimSpec(c);
    assert HasFree(c);
    assert Victim(c) == v;
  }

  /** With no free slot, a new name evicts the least recently used resolved slot. */
  lemma NewNameEvictsOldest(c: seq<Entry>, h: string, now: int, v: int)
    requires forall j :: 0 <= j < |c| ==> !SameHost(c[j].hostname, h)
    requires AllUsed(c, |c|) && OldestIn(c, |c|, v)
    ensures Resolve(c, h, now) == (c[v := Entry(h, now, false, InaddrNone)], Pending)
  {
    assert FindHost(c, h) == |c|;
    VictimSpec(c);
    var w := Victim(c);
    assert OldestIn(c, |c|, w);
    assert c[v].lastUsed == c[w].lastUsed;
  }

  /** With every slot pending, a new name is refused and nothing changes. */
  lemma FullCacheRefuses(c: seq<Entry>, h: string, now: int)
    requires forall j :: 0 <= j < |c| ==> !SameHost(c[j].hostname, h)
    requires AllUsed(c, |c|) && NoneResolved(c, |c|)
    ensures Resolve(c, h, now) == (c, Unresolvable)
  {
    assert FindHost(c, h) == |c|;
    VictimSpec(c);
  }

  // The worker.

  /** A slot the worker looks up: in use, not yet resolved, with a name. */
  predicate Waiting(e: Entry) { Used(e) && !e.resolved && e.hostname != "" }

  /**
   * One sweep of the worker: every waiting slot becomes resolved with what
   * `lookup` gives for its name (`InaddrNone` when the lookup fails).
   */
  function WorkerPass(c: seq<Entry>, lookup: string -> bv32): (r: seq<Entry>)
    ensures |r| == |c|
    ensures forall i :: 0 <= i < |c| ==>
              r[i].hostname == c[i].hostname && r[i].lastUsed == c[i].lastUsed
    ensures forall i :: 0 <= i < |c| ==>
              (if Waiting(c[i]) then r[i].resolved && r[i].addr == lookup(c[i].hostname) else r[i] == c[i])
  {
    seq(|c|, i requires 0 <= i < |c| =>
      if Waiting(c[i]) then c[i].(resolved := true, addr := lookup(c[i].hostname)) else c[i])
  }

  lemma FindHostByNames(c: seq<Entry>, d: seq<Entry>, h: string)
    requires |c| == |d| && forall i :: 0 <= i < |c| ==> c[i].hostname == d[i].hostname
    ensures FindHost(c, h) == FindHost(d, h)
  {
    var m := FindHost(c, h);
    var n := FindHost(d, h);
    if m < n {
      assert SameHost(d[m].hostname, h);
    }
  }

  /**
   * A name told to wait gets a definite answer once the worker has swept,
   * provided the name is not empty and the clock is not at zero.
   */
  lemma {:induction false} AnsweredAfterWorker(c: seq<Entry>, h: string, now: int, later: int, lookup: string -> bv32)
    requires h != "" && now != 0
    requires Resolve(c, h, now).1 == Pending
    ensures Resolve(WorkerPass(Resolve(c, h, now).0, lookup), h, later).1 != Pending
  {
    var c1 := Resolve(c, h, now).0;
    var c2 := WorkerPass(c1, lookup);
    FindHostByNames(c1, c2, h);
    var m := FindHost(c, h);
    var k: nat;
    if m < |c| {
      k := m;
      FindHostByNames(c, c1, h);
    } else {
      k := Victim(c);
      assert FindHost(c1, h) == k by {
        assert SameHost(c1[k].hostname, h);
        assert forall j :: 0 <= j < k ==> c1[j] == c[j];
      }
    }
    assert |c1[k].hostname| == |h|;
    assert Waiting(c1[k]);
  }

  /** The empty name is never looked up by the worker: once told to wait, it waits for ever. */
  lemma EmptyNameStaysPending(c: seq<Entry>, now: int, later: int, lookup: string -> bv32)
    requires Resolve(c, "", now).1 == Pending
    ensures Resolve(WorkerPass(Resolve(c, "", now).0, lookup), "", later).1 == Pending
  {
    var c1 := Resolve(c, "", now).0;
    var c2 := WorkerPass(c1, lookup);
    FindHostByNames(c1, c2, "");
    var m := FindHost(c, "");
    var k: nat;
    if m < |c| {
      k := m;
      FindHostByNames(c, c1, "");
    } else {
      k := Victim(c);
      assert FindHost(c1, "") == k by {
        assert SameHost(c1[k].hostname, "");
        assert forall j :: 0 <= j < k ==> c1[j] == c[j];
      }
    }
    assert |c1[k].hostname| == 0;
  }

  // The cache invariant.

  /**
   * Never-used slots are blank and come after every used one, and no two
   * used slots hold the same name.
   */
  predicate Valid(c: seq<Entry>) {
    (forall i :: 0 <= i < |c| && !Used(c[i]) ==> c[i].hostname == "" && !c[i].resolved) &&
    (forall i, j :: 0 <= i < j < |c| && !Used(c[i]) ==> !Used(c[j])) &&
    (forall i, j :: 0 <= i < j < |c| && Used(c[i]) && Used(c[j]) ==> !SameHost(c[i].hostname, c[j].hostname))
  }

  lemma NewCacheValid(size: nat)
    ensures Valid(NewCache(size))
  {
  }

  lemma HitKeepsValid(c: seq<Entry>, h: string, now: int)
    requires Valid(c) && now > 0 && FindHost(c, h) < |c|
    ensures Valid(Resolve(c, h, now).0)
  {
    var m := FindHost(c, h);
    var c1 := Resolve(c, h, now).0;
    assert c1 == c[m := c[m].(lastUsed := now)];
  }

  lemma MissKeepsValid(c: seq<Entry>, h: string, now: int)
    requires Valid(c) && now > 0 && FindHost(c, h) == |c|
    ensures Valid(Resolve(c, h, now).0)
  {
    VictimSpec(c);
    var v := Victim(c);
    if v != -1 {
      var c1 := Resolve(c, h, now).0;
      assert c1 == c[v := Entry(h, now, false, InaddrNone)];
      forall j | 0 <= j < |c| && j != v
        ensures !SameHost(c1[j].hostname, h)
      {
        assert c1[j] == c[j];
      }
    }
  }

  /** Resolving at a positive time keeps the cache valid. */
  lemma ResolveKeepsValid(c: seq<Entry>, h: string, now: int)
    requires Valid(c) && now > 0
    ensures Valid(Resolve(c, h, now).0)
  {
    if FindHost(c, h) < |c| {
      HitKeepsValid(c, h, now);
    } else {
      MissKeepsValid(c, h, now);
    }
  }

  /** The worker keeps the cache valid. */
  lemma WorkerKeepsValid(c: seq<Entry>, lookup: string -> bv32)
    requires Valid(c)
    ensures Valid(WorkerPass(c, lookup))
  {
  }
}

=== FILE: base64.dfy ===
/**
 * The hand-written Base64 codec used for exported public keys:
 * a padding encoder over groups of three bytes and a forgiving,
 * bit-accumulating decoder that skips anything outside the alphabet.
 */
module Base64 {
  import opened Bytes

  /** Position in the 64-character table "A-Z a-z 0-9 + /". */
  function AlphabetChar(v: bv32): (c: char)
    requires v < 64
    ensures DecodeChar(c) == v as int
    ensures c != '='
  {
    var i := v as int;
    if i < 26 then ('A' as int + i) as char
    else if i < 52 then ('a' as int + (i - 26)) as char
    else if i < 62 then ('0' as int + (i - 52)) as char
    else if i == 62 then '+'
    else '/'
  }

  /** The table position of `c`, or -1 when `c` is not in the alphabet. */
  function DecodeChar(c: char): (v: int)
    ensures -1 <= v < 64
  {
    if 'A' <= c <= 'Z' then c as int - 'A' as int
    else if 'a' <= c <= 'z' then c as int - 'a' as int + 26
    else if '0' <= c <= '9' then c as int - '0' as int + 52
    else if c == '+' then 62
    else if c == '/' then 63
    else -1
  }

  predicate InAlphabet(c: char) {
    DecodeChar(c) >= 0
  }

  /** All values are table positions. */
  predicate AllSixBit(vs: seq<bv32>) {
    forall i :: 0 <= i < |vs| ==> vs[i] < 64
  }

  /** The 24-bit group value of the first one to three bytes of `data`, missing bytes taken as zero. */
  function GroupValue(data: seq<byte>): bv32
    requires |data| >= 1
  {
    ((data[0] as bv32) << 16)
    | (if |data| > 1 then (data[1] as bv32) << 8 else 0)
    | (if |data| > 2 then data[2] as bv32 else 0)
  }

  /** The table positions a group emits: two for one byte, three for two, four for three or more. */
  function GroupSextets(data: seq<byte>): (vs: seq<bv32>)
    requires |data| >= 1
    ensures |vs| == Min(3, |data|) + 1
    ensures AllSixBit(vs)
  {
    var n := GroupValue(data);
    if |data| == 1 then [(n >> 18) & 0x3F, (n >> 12) & 0x3F]
    else if |data| == 2 then [(n >> 18) & 0x3F, (n >> 12) & 0x3F, (n >> 6) & 0x3F]
    else [(n >> 18) & 0x3F, (n >> 12) & 0x3F, (n >> 6) & 0x3F, n & 0x3F]
  }

  /** Two to four table positions as four characters, padded with '='. */
  function QuartetChars(vs: seq<bv32>): (q: string)
    requires 2 <= |vs| <= 4 && AllSixBit(vs)
    ensures |q| == 4
    ensures InAlphabet(q[0]) && InAlphabet(q[1])
    ensures q[2] == '=' <==> |vs| == 2
    ensures q[3] == '=' <==> |vs| <= 3
    ensures q[2] != '=' ==> InAlphabet(q[2])
    ensures q[3] != '=' ==> InAlphabet(q[3])
  {
    [ AlphabetChar(vs[0]),
      AlphabetChar(vs[1]),
      if |vs| > 2 then AlphabetChar(vs[2]) else '=',
      if |vs| > 3 then AlphabetChar(vs[3]) else '=' ]
  }

  /** The four output characters for the group starting at `data[0]`. */
  function Quartet(data: seq<byte>): (q: string)
    requires |data| >= 1
    ensures |q| == 4
    ensures InAlphabet(q[0]) && InAlphabet(q[1])
    ensures q[2] == '=' <==> |data| == 1
    ensures q[3] == '=' <==> |data| <= 2
    ensures q[2] != '=' ==> InAlphabet(q[2])
    ensures q[3] != '=' ==> InAlphabet(q[3])
  {
    QuartetChars(GroupSextets(data))
  }

  function Min(a: int, b: int): int { if a < b then a else b }

  /** Encodes three bytes at a time; a short final group is padded with '='. */
  function Encode(data: seq<byte>): (r: string)
    ensures |r| == 4 * ((|data| + 2) / 3)
    ensures forall i :: 0 <= i < |r| && r[i] != '=' ==> InAlphabet(r[i])
    ensures forall i :: 0 <= i < |r| - 4 ==> r[i] != '='
    decreases |data|
  {
    if |data| == 0 then ""
    else Quartet(data) + Encode(data[Min(3, |data|)..])
  }

  /** The decoder's accumulator: a 32-bit shift register and the count of pending bits. */
  datatype Acc = Acc(buf: bv32, bits: bv32)

  predicate ValidAcc(a: Acc) { a.bits < 8 }

  /** Characters the decoder passes over without touching the accumulator. */
  predicate Skipped(c: char) {
    c == '=' || c == '\n' || c == '\r' || c == ' ' || !InAlphabet(c)
  }

  /** Shifts one six-bit value in; emits a byte once eight bits are pending. */
  function Feed(a: Acc, v: bv32): (r: (Acc, seq<byte>))
    requires ValidAcc(a) && v < 64
    ensures ValidAcc(r.0)
    ensures |r.1| <= 1
    ensures r.0.bits as int == (a.bits as int + 6) % 8
  {
    var buf := (a.buf << 6) | v;
    var bits := a.bits + 6;
    if bits >= 8 then (Acc(buf, bits - 8), [((buf >> (bits - 8)) & 0xFF) as byte])
    else (Acc(buf, bits), [])
  }

  /** The six-bit values of the alphabet characters of `s`, in order; everything else is skipped. */
  function Sextets(s: string): (vs: seq<bv32>)
    ensures |vs| <= |s|
    ensures AllSixBit(vs)
  {
    if |s| == 0 then []
    else if Skipped(s[0]) then Sextets(s[1..])
    else [DecodeChar(s[0]) as bv32] + Sextets(s[1..])
  }

  /** Shifts the values into the accumulator one after another, collecting the emitted bytes. */
  function Pack(vs: seq<bv32>, a: Acc): (r: seq<byte>)
    requires ValidAcc(a)
    requires AllSixBit(vs)
    decreases |vs|
  {
    if |vs| == 0 then []
    else
      var step := Feed(a, vs[0]);
      step.1 + Pack(vs[1..], step.0)
  }

  /** Decodes Base64 text, ignoring padding, line breaks, spaces and any other non-alphabet character. */
  function Decode(s: string): (r: seq<byte>)
    ensures |r| == 6 * |AlphabetOnly(s)| / 8
  {
    PackLength(Sextets(s), Acc(0, 0));
    SextetsCountAlphabet(s);
    Pack(Sextets(s), Acc(0, 0))
  }

  /** The alphabet characters of `s`, in order. */
  function AlphabetOnly(s: string): (r: string)
    ensures |r| <= |s|
    ensures forall i :: 0 <= i < |r| ==> InAlphabet(r[i])
  {
    if |s| == 0 then ""
    else if Skipped(s[0]) then AlphabetOnly(s[1..])
    else [s[0]] + AlphabetOnly(s[1..])
  }

  /** What is still to come out of the decoder from position `i` on, with register `a`. */
  function Remaining(s: string, i: int, a: Acc): seq<byte>
    requires 0 <= i <= |s| && ValidAcc(a)
  {
    Pack(Sextets(s[i..]), a)
  }

  /** The effect of one character on the register and the output. */
  function CharStep(a: Acc, c: char): (Acc, seq<byte>)
    requires ValidAcc(a)
  {
    if Skipped(c) then (a, []) else Feed(a, DecodeChar(c) as bv32)
  }

  /** One character of the single pass. */
  lemma RemainingStep(s: string, i: int, a: Acc)
    requires 0 <= i < |s| && ValidAcc(a)
    ensures ValidAcc(CharStep(a, s[i]).0)
    ensures Remaining(s, i, a) == CharStep(a, s[i]).1 + Remaining(s, i + 1, CharStep(a, s[i]).0)
  {
    SextetsCons(s[i..]);
    assert s[i..][1..] == s[i + 1..];
    if !Skipped(s[i]) {
      var rest := Sextets(s[i + 1..]);
      assert ([DecodeChar(s[i]) as bv32] + rest)[1..] == rest;
    }
  }

  /**
   * One character of the importer's decoding loop: separators, padding and
   * characters outside the alphabet leave the register alone; any other
   * character is shifted in, and a byte comes out once eight bits are pending.
   */
  method DecodeStep(reg: Acc, c: char) returns (next: Acc, out: seq<byte>)
    requires ValidAcc(reg)
    ensures Skipped(c) ==> next == reg && out == []
    ensures (next, out) == CharStep(reg, c)
  {
    var val := DecodeChar(c);
    if c == '=' || c == '\n' || c == '\r' || c == ' ' || val < 0 {
      return reg, [];
    }
    var step := Feed(reg, val as bv32);
    next, out := step.0, step.1;
  }

  /** The importer's single pass over the text computes `Decode`. */
  method DecodeLoop(encoded: string) returns (result: seq<byte>)
    ensures result == Decode(encoded)
  {
    result := [];
    var reg := Acc(0, 0);
    var i := 0;
    assert encoded[0..] == encoded;
    while i < |encoded|
      invariant 0 <= i <= |encoded|
      invariant ValidAcc(reg)
      invariant result + Remaining(encoded, i, reg) == Decode(encoded)
    {
      RemainingStep(encoded, i, reg);
      var out;
      reg, out := DecodeStep(reg, encoded[i]);
      result := result + out;
      i := i + 1;
    }
  }

  // ---------------------------------------------------------------------------
  // Properties of the decoder

  /** Two registers agree on their low `k` bits. */
  predicate AgreeLow(x: bv32, y: bv32, k: bv32)
    requires k < 8
  {
    (x ^ y) & ((1 << k) - 1) == 0
  }

  lemma FeedRespectsAgreement(x: bv32, y: bv32, k: bv32, v: bv32)
    requires k < 8 && v < 64 && AgreeLow(x, y, k)
    ensures Feed(Acc(x, k), v).1 == Feed(Acc(y, k), v).1
    ensures AgreeLow(Feed(Acc(x, k), v).0.buf, Feed(Acc(y, k), v).0.buf, Feed(Acc(x, k), v).0.bits)
  {
  }

  /** Only the pending bits of the register influence what is decoded next. */
  lemma {:induction false} PackDependsOnPendingBits(vs: seq<bv32>, x: bv32, y: bv32, k: bv32)
    requires k < 8 && AgreeLow(x, y, k)
    requires AllSixBit(vs)
    ensures Pack(vs, Acc(x, k)) == Pack(vs, Acc(y, k))
    decreases |vs|
  {
    if |vs| != 0 {
      FeedRespectsAgreement(x, y, k, vs[0]);
      var sx := Feed(Acc(x, k), vs[0]).0;
      var sy := Feed(Acc(y, k), vs[0]).0;
      PackDependsOnPendingBits(vs[1..], sx.buf, sy.buf, sx.bits);
    }
  }

  /** With no pending bits the register contents are irrelevant. */
  lemma PackFromEmptyRegister(vs: seq<bv32>, x: bv32)
    requires AllSixBit(vs)
    ensures Pack(vs, Acc(x, 0)) == Pack(vs, Acc(0, 0))
  {
    PackDependsOnPendingBits(vs, x, 0, 0);
  }

  /** Skipping distributes over concatenation. */
  lemma {:induction false} SextetsAppend(s: string, t: string)
    ensures Sextets(s + t) == Sextets(s) + Sextets(t)
    decreases |s|
  {
    if |s| == 0 {
      assert s + t == t;
    } else {
      assert (s + t)[1..] == s[1..] + t;
      SextetsAppend(s[1..], t);
    }
  }

  /** Every skipped character can be dropped without changing the decoded bytes. */
  lemma {:induction false} DecodeIgnoresNoise(s: string)
    ensures Decode(s) == Decode(AlphabetOnly(s))
  {
    SextetsOfAlphabetOnly(s);
  }

  lemma {:induction false} SextetsOfAlphabetOnly(s: string)
    ensures Sextets(AlphabetOnly(s)) == Sextets(s)
    decreases |s|
  {
    if |s| != 0 {
      SextetsOfAlphabetOnly(s[1..]);
      if !Skipped(s[0]) {
        var t := AlphabetOnly(s);
        assert t[0] == s[0] && t[1..] == AlphabetOnly(s[1..]);
      }
    }
  }

  /** Each value carries six bits; whole bytes are emitted, leftover bits are dropped. */
  lemma {:induction false} PackLength(vs: seq<bv32>, a: Acc)
    requires ValidAcc(a)
    requires AllSixBit(vs)
    ensures |Pack(vs, a)| == (a.bits as int + 6 * |vs|) / 8
    decreases |vs|
  {
    if |vs| != 0 {
      PackLength(vs[1..], Feed(a, vs[0]).0);
    }
  }

  /** The decoded length is fixed by the number of alphabet characters alone. */
  lemma DecodeLength(s: string)
    ensures |Decode(s)| == 6 * |Sextets(s)| / 8
    ensures |Sextets(s)| == |AlphabetOnly(s)|
  {
    PackLength(Sextets(s), Acc(0, 0));
    SextetsCountAlphabet(s);
  }

  lemma {:induction false} SextetsCountAlphabet(s: string)
    ensures |Sextets(s)| == |AlphabetOnly(s)|
    decreases |s|
  {
    if |s| != 0 {
      SextetsCountAlphabet(s[1..]);
    }
  }

  // ---------------------------------------------------------------------------
  // The round trip

  /** What skipping leaves of a single character. */
  function CharSextets(c: char): seq<bv32> {
    if Skipped(c) then [] else [DecodeChar(c) as bv32]
  }

  lemma SextetsCons(s: string)
    requires |s| > 0
    ensures Sextets(s) == CharSextets(s[0]) + Sextets(s[1..])
  {
  }

  lemma SextetsOfFour(q: string)
    requires |q| == 4
    ensures Sextets(q) == CharSextets(q[0]) + (CharSextets(q[1]) + (CharSextets(q[2]) + CharSextets(q[3])))
  {
    var q3 := q[1..][1..][1..];
    assert q3 == [q[3]];
    assert Sextets(q3) == CharSextets(q[3]) by {
      SextetsCons(q3);
      assert q3[1..] == [];
      assert CharSextets(q[3]) + [] == CharSextets(q[3]);
    }
    SextetsCons(q);
    SextetsCons(q[1..]);
    SextetsCons(q[1..][1..]);
  }

  lemma AlphabetCharSextets(v: bv32)
    requires v < 64
    ensures CharSextets(AlphabetChar(v)) == [v]
  {
  }

  /** Reading a quartet back yields exactly the table positions it was built from. */
  lemma QuartetCharsSextets(vs: seq<bv32>)
    requires 2 <= |vs| <= 4 && AllSixBit(vs)
    ensures Sextets(QuartetChars(vs)) == vs
  {
    var q := QuartetChars(vs);
    SextetsOfFour(q);
    AlphabetCharSextets(vs[0]);
    AlphabetCharSextets(vs[1]);
    var tail := CharSextets(q[2]) + CharSextets(q[3]);
    assert tail == vs[2..] by {
      if |vs| > 2 { AlphabetCharSextets(vs[2]); }
      if |vs| > 3 { AlphabetCharSextets(vs[3]); }
    }
    assert vs == [vs[0]] + ([vs[1]] + vs[2..]);
  }

  lemma QuartetSextets(data: seq<byte>)
    requires |data| >= 1
    ensures Sextets(Quartet(data)) == GroupSextets(data)
  {
    QuartetCharsSextets(GroupSextets(data));
  }

  /** The accumulator after shifting all of `vs` in. */
  function AccAfter(vs: seq<bv32>, a: Acc): (r: Acc)
    requires ValidAcc(a)
    requires AllSixBit(vs)
    ensures ValidAcc(r)
    decreases |vs|
  {
    if |vs| == 0 then a else AccAfter(vs[1..], Feed(a, vs[0]).0)
  }

  /** Packing a concatenation packs the first part, then the second from where the first left off. */
  lemma {:induction false} PackAppend(vs: seq<bv32>, rest: seq<bv32>, a: Acc)
    requires ValidAcc(a)
    requires AllSixBit(vs)
    requires AllSixBit(rest)
    ensures Pack(vs + rest, a) == Pack(vs, a) + Pack(rest, AccAfter(vs, a))
    decreases |vs|
  {
    if |vs| == 0 {
      assert vs + rest == rest;
    } else {
      assert (vs + rest)[1..] == vs[1..] + rest;
      PackAppend(vs[1..], rest, Feed(a, vs[0]).0);
    }
  }

  /** Four values shifted into an empty accumulator give back the three bytes of a full group. */
  lemma PackGroupOfThree(data: seq<byte>, buf: bv32)
    requires |data| >= 3
    ensures Pack(GroupSextets(data), Acc(buf, 0)) == data[..3]
    ensures AccAfter(GroupSextets(data), Acc(buf, 0)).bits == 0
  {
    var vs := GroupSextets(data);
    FeedFullGroup(data, buf);
    var s1 := Feed(Acc(buf, 0), vs[0]);
    var s2 := Feed(s1.0, vs[1]);
    var s3 := Feed(s2.0, vs[2]);
    var s4 := Feed(s3.0, vs[3]);
    assert vs[1..][1..][1..][1..] == [];
    assert Pack(vs, Acc(buf, 0)) == s1.1 + Pack(vs[1..], s1.0);
    assert Pack(vs[1..], s1.0) == s2.1 + Pack(vs[1..][1..], s2.0);
    assert Pack(vs[1..][1..], s2.0) == s3.1 + Pack(vs[1..][1..][1..], s3.0);
    assert Pack(vs[1..][1..][1..], s3.0) == s4.1;
    assert AccAfter(vs, Acc(buf, 0)) == AccAfter(vs[1..], s1.0);
    assert AccAfter(vs[1..], s1.0) == AccAfter(vs[1..][1..], s2.0);
    assert AccAfter(vs[1..][1..], s2.0) == AccAfter(vs[1..][1..][1..], s3.0);
    assert AccAfter(vs[1..][1..][1..], s3.0) == s4.0;
  }

  /** Four values shifted into an empty accumulator give back the three bytes of a full group. */
  lemma FeedFullGroup(data: seq<byte>, buf: bv32)
    requires |data| >= 3
    ensures var vs := GroupSextets(data);
            var s1 := Feed(Acc(buf, 0), vs[0]);
            var s2 := Feed(s1.0, vs[1]);
            var s3 := Feed(s2.0, vs[2]);
            var s4 := Feed(s3.0, vs[3]);
            s1.1 + s2.1 + s3.1 + s4.1 == data[..3] && s4.0.bits == 0
  {
  }

  /** A final group of one or two bytes decodes to those bytes; the leftover bits are dropped. */
  lemma FeedShortGroup(data: seq<byte>, buf: bv32)
    requires 1 <= |data| <= 2
    ensures Pack(GroupSextets(data), Acc(buf, 0)) == data
  {
    var vs := GroupSextets(data);
    var s1 := Feed(Acc(buf, 0), vs[0]);
    var s2 := Feed(s1.0, vs[1]);
    assert Pack(vs, Acc(buf, 0)) == s1.1 + Pack(vs[1..], s1.0);
    assert Pack(vs[1..], s1.0) == s2.1 + Pack(vs[2..], s2.0);
    if |data| == 2 {
      var s3 := Feed(s2.0, vs[2]);
      assert Pack(vs[2..], s2.0) == s3.1 + Pack(vs[3..], s3.0);
    }
  }

  lemma PackFullGroup(data: seq<byte>, rest: seq<bv32>, buf: bv32)
    requires |data| >= 3
    requires AllSixBit(rest)
    ensures Pack(GroupSextets(data) + rest, Acc(buf, 0)) == data[..3] + Pack(rest, Acc(0, 0))
  {
    var vs := GroupSextets(data);
    PackAppend(vs, rest, Acc(buf, 0));
    PackGroupOfThree(data, buf);
    PackFromEmptyRegister(rest, AccAfter(vs, Acc(buf, 0)).buf);
  }

  /** Decoding an encoding gives back the original bytes, whatever the register held before. */
  lemma {:induction false} PackEncode(data: seq<byte>, buf: bv32)
    ensures Pack(Sextets(Encode(data)), Acc(buf, 0)) == data
    decreases |data|
  {
    if |data| == 0 {
    } else if |data| <= 2 {
      assert Encode(data) == Quartet(data) + Encode(data[|data|..]);
      assert Encode(data[|data|..]) == "";
      assert Encode(data) == Quartet(data);
      QuartetSextets(data);
      FeedShortGroup(data, buf);
    } else {
      var tail := data[3..];
      assert Encode(data) == Quartet(data) + Encode(tail);
      SextetsAppend(Quartet(data), Encode(tail));
      QuartetSextets(data);
      PackFullGroup(data, Sextets(Encode(tail)), buf);
      PackEncode(tail, 0);
      assert data == data[..3] + tail;
    }
  }

  /** The codec round trip: `Decode(Encode(b)) == b` for every byte sequence. */
  lemma DecodeEncode(data: seq<byte>)
    ensures Decode(Encode(data)) == data
  {
    PackEncode(data, 0);
  }
}

=== FILE: bytes.dfy ===
/** Bytes and the 32-bit little-endian field used by the public-key record. */
module Bytes {

  type byte = bv8

  /** The four bytes of `x`, least significant first. */
  function LittleEndian32(x: bv32): (r: seq<byte>)
    ensures |r| == 4
    ensures r[0] as bv32 == x & 0xFF
    ensures r[1] as bv32 == (x >> 8) & 0xFF
    ensures r[2] as bv32 == (x >> 16) & 0xFF
    ensures r[3] as bv32 == x >> 24
  {
    [(x & 0xFF) as byte, ((x >> 8) & 0xFF) as byte, ((x >> 16) & 0xFF) as byte, ((x >> 24) & 0xFF) as byte]
  }

  /** Reassembles a 32-bit value from four bytes, least significant first. */
  function FromLittleEndian32(b0: byte, b1: byte, b2: byte, b3: byte): (x: bv32)
    ensures x & 0xFF == b0 as bv32
    ensures (x >> 8) & 0xFF == b1 as bv32
    ensures (x >> 16) & 0xFF == b2 as bv32
    ensures x >> 24 == b3 as bv32
  {
    (b0 as bv32) | ((b1 as bv32) << 8) | ((b2 as bv32) << 16) | ((b3 as bv32) << 24)
  }

  /** Decoding the little-endian bytes of `x` gives back `x`. */
  lemma LittleEndian32RoundTrip(x: bv32)
    ensures var r := LittleEndian32(x); FromLittleEndian32(r[0], r[1], r[2], r[3]) == x
  {
  }

  /** Zero bytes. */
  function Zeros(n: nat): (r: seq<byte>)
    ensures |r| == n
    ensures forall i :: 0 <= i < n ==> r[i] == 0
  {
    seq(n, _ => 0)
  }
}

=== FILE: chat.dfy ===
/**
 * Incoming chat traffic: which nicknames the core learns from, how a chat
 * body is classified (nick change, join, part, action, direct or channel
 * message), which direct messages are dropped, how direct-message rooms are
 * named, and the peer-nickname update those messages trigger.
 */
module Chat {
  import opened Text
  import opened State

  /** What handling one message makes the core do, in order. */
  datatype Event =
    | NickSeen(nick: string)                               // updatePeerNickname(address of sender, nick)
    | Presence(room: string, user: string, joined: bool)   // onUserPresence
    | Message(msg: ChatMessage)                            // onChatMessage
    | ReplySent(nick: string)                              // a CHAT_REPLY carrying our nickname

  // ---------------------------------------------------------------------------
  // Nicknames learned from traffic

  /** A nickname taken from a chat reply or a chat source: non-empty, not starting with '.', under 24 characters. */
  predicate LearnableNick(n: string) {
    n != [] && n[0] != '.' && |n| < 24
  }

  /** A nickname taken from a ping: as above, and not starting with '#' or '&' either. */
  predicate LearnablePingNick(n: string) {
    n != [] && n[0] != '#' && n[0] != '&' && n[0] != '.' && |n| < 24
  }

  /** A ping nickname is learned under strictly tighter rules than a chat nickname. */
  lemma PingNickIsChatNick(n: string)
    ensures LearnablePingNick(n) ==> LearnableNick(n)
    ensures LearnableNick(n) && !LearnablePingNick(n) ==> n[0] == '#' || n[0] == '&'
  {
  }

  /** A CHAT_REPLY: learn the replying peer's nickname when it passes the test. */
  function OnChatReply(nick: string): (r: seq<Event>)
    ensures r == [NickSeen(nick)] || r == []
    ensures r != [] <==> LearnableNick(nick)
  {
    if LearnableNick(nick) then [NickSeen(nick)] else []
  }

  /** A PING: learn the sender's nickname when it passes the ping test. */
  function OnPing(nick: string): (r: seq<Event>)
    ensures r == [NickSeen(nick)] || r == []
    ensures r != [] <==> LearnablePingNick(nick)
  {
    if LearnablePingNick(nick) then [NickSeen(nick)] else []
  }

  // ---------------------------------------------------------------------------
  // Classifying a chat body

  const NickPrefix := "/nick/"
  const ActionPrefix := "/me "

  predicate IsNickChange(body: string) {
    |body| > 6 && StartsWith(body, NickPrefix)
  }

  predicate IsPart(body: string) {
    body == "/part" || body == "/leave"
  }

  predicate IsAction(body: string) {
    |body| > 4 && StartsWith(body, ActionPrefix)
  }

  /** The destination names a person rather than a channel. */
  predicate IsDirect(dest: string) {
    |dest| > 1 && dest[0] == '@'
  }

  /** A direct message between two other users, which this node does not show. */
  predicate NotForUs(src: string, dest: string, myNick: string)
    requires IsDirect(dest)
  {
    myNick != [] && dest[1..] != myNick && src != myNick
  }

  /** The room a shown direct message is filed under: the other party. */
  function DirectRoom(src: string, target: string, myNick: string): (room: string)
    ensures |room| > 0 && room[0] == '@'
    ensures src != myNick ==> room[1..] == src
    ensures src == myNick ==> room[1..] == target
  {
    if src == myNick then "@" + target else "@" + src
  }

  /** An ordinary message as shown: room resolved, `/me` turned into an action line. */
  function RegularMessage(src: string, dest: string, body: string, myNick: string): (m: ChatMessage)
    requires IsDirect(dest) ==> !NotForUs(src, dest, myNick)
    ensures m.sender == src
    ensures m.isSystem <==> IsAction(body)
    ensures IsAction(body) ==> m.content == "* " + src + " " + body[4..]
    ensures !IsAction(body) ==> m.content == body
    ensures !IsDirect(dest) ==> m.room == dest
  {
    var room := if IsDirect(dest) then DirectRoom(src, dest[1..], myNick) else dest;
    if IsAction(body) then ChatMessage(room, src, "* " + src + " " + body[4..], true)
    else ChatMessage(room, src, body, false)
  }

  function System(room: string, text: string): ChatMessage {
    ChatMessage(room, "", text, true)
  }

  /** The nickname learned from the sender of a chat message, if it passes the test. */
  function Learn(src: string): seq<Event> {
    if LearnableNick(src) then [NickSeen(src)] else []
  }

  /** The CHAT_REPLY sent back when a nickname is registered. */
  function Reply(myNick: string): seq<Event> {
    if myNick != [] then [ReplySent(myNick)] else []
  }

  /** An ordinary direct message between two other users, which is not shown and not answered. */
  predicate Dropped(src: string, dest: string, body: string, myNick: string) {
    !IsNickChange(body) && body != "/join" && !IsPart(body) && IsDirect(dest) && NotForUs(src, dest, myNick)
  }

  /**
   * A MESSAGE_CHAT from `src` to `dest` carrying `body`, seen by a node whose
   * registered nickname is `myNick` (empty when none is set).
   */
  function OnChat(src: string, dest: string, body: string, myNick: string): (r: seq<Event>)
    ensures LearnableNick(src) <==> |r| > 0 && r[0] == NickSeen(src)
    ensures Dropped(src, dest, body, myNick) ==> r == Learn(src)
    ensures Replied(r) <==> myNick != [] && !Dropped(src, dest, body, myNick)
    ensures !Dropped(src, dest, body, myNick) && myNick != [] ==> r[|r| - 1] == ReplySent(myNick)
  {
    if Dropped(src, dest, body, myNick) then
      assert !Replied(Learn(src));
      Learn(src)
    else
      var mid :=
        if IsNickChange(body) then
          var former := body[6..];
          [Presence(dest, former, false), Presence(dest, src, true),
           Message(System(dest, "*** " + former + " is now known as " + src))]
        else if body == "/join" then
          [Presence(dest, src, true), Message(System(dest, "*** " + src + " has joined " + dest))]
        else if IsPart(body) then
          [Presence(dest, src, false), Message(System(dest, "*** " + src + " has left " + dest))]
        else
          [Message(RegularMessage(src, dest, body, myNick))];
      ReplyFramed(src, mid, myNick);
      Learn(src) + mid + Reply(myNick)
  }

  /** Only the reply suffix can carry a reply. */
  lemma ReplyFramed(src: string, mid: seq<Event>, myNick: string)
    requires |mid| > 0 && forall i :: 0 <= i < |mid| ==> !mid[i].ReplySent?
    ensures var r := Learn(src) + mid + Reply(myNick);
      (Replied(r) <==> myNick != []) && |r| > 0 && (myNick != [] ==> r[|r| - 1] == ReplySent(myNick))
  {
    var r := Learn(src) + mid + Reply(myNick);
    if myNick != [] {
      assert r[|r| - 1] == ReplySent(myNick);
    }
  }

  // ---------------------------------------------------------------------------
  // Views of an event list

  function Presences(events: seq<Event>): (r: seq<Event>)
    ensures forall i :: 0 <= i < |r| ==> r[i].Presence?
  {
    if events == [] then []
    else (if events[0].Presence? then [events[0]] else []) + Presences(events[1..])
  }

  function Messages(events: seq<Event>): (r: seq<ChatMessage>)
    ensures |r| <= |events|
  {
    if events == [] then []
    else (if events[0].Message? then [events[0].msg] else []) + Messages(events[1..])
  }

  predicate Replied(events: seq<Event>) {
    exists i :: 0 <= i < |events| && events[i].ReplySent?
  }

  lemma {:induction false} ViewsDistribute(a: seq<Event>, b: seq<Event>)
    ensures Presences(a + b) == Presences(a) + Presences(b)
    ensures Messages(a + b) == Messages(a) + Messages(b)
    decreases |a|
  {
    if a != [] {
      assert (a + b)[0] == a[0];
      assert (a + b)[1..] == a[1..] + b;
      ViewsDistribute(a[1..], b);
      var p := if a[0].Presence? then [a[0]] else [];
      assert p + (Presences(a[1..]) + Presences(b)) == (p + Presences(a[1..])) + Presences(b);
      var m := if a[0].Message? then [a[0].msg] else [];
      assert m + (Messages(a[1..]) + Messages(b)) == (m + Messages(a[1..])) + Messages(b);
    } else {
      assert a + b == b;
    }
  }

  lemma ViewsOfOne(e: Event)
    ensures Presences([e]) == if e.Presence? then [e] else []
    ensures Messages([e]) == if e.Message? then [e.msg] else []
  {
    assert [e][1..] == [];
  }

  /** The fixed parts of `OnChat`'s output: the learning prefix and the reply suffix. */
  lemma OnChatShape(src: string, dest: string, body: string, myNick: string)
    ensures var r := OnChat(src, dest, body, myNick);
      (LearnableNick(src) <==> |r| > 0 && r[0] == NickSeen(src))
    ensures Replied(OnChat(src, dest, body, myNick)) <==>
      myNick != [] && !(!IsNickChange(body) && body != "/join" && !IsPart(body)
                        && IsDirect(dest) && NotForUs(src, dest, myNick))
  {
    var r := OnChat(src, dest, body, myNick);
    if myNick != [] && !(!IsNickChange(body) && body != "/join" && !IsPart(body)
                         && IsDirect(dest) && NotForUs(src, dest, myNick)) {
      assert r[|r| - 1] == ReplySent(myNick);
    }
  }

  /** The learning prefix and the reply suffix carry no presence and no message. */
  lemma ViewsFramed(src: string, mid: seq<Event>, myNick: string)
    ensures Presences(Learn(src) + mid + Reply(myNick)) == Presences(mid)
    ensures Messages(Learn(src) + mid + Reply(myNick)) == Messages(mid)
  {
    ViewsOfOne(NickSeen(src));
    ViewsOfOne(ReplySent(myNick));
    ViewsDistribute(Learn(src) + mid, Reply(myNick));
    ViewsDistribute(Learn(src), mid);
  }

  /** The views of a three-event sequence, one event at a time. */
  lemma ViewsOfThree(e1: Event, e2: Event, e3: Event)
    ensures Presences([e1, e2, e3]) == Presences([e1]) + Presences([e2]) + Presences([e3])
    ensures Messages([e1, e2, e3]) == Messages([e1]) + Messages([e2]) + Messages([e3])
  {
    assert [e1, e2, e3] == [e1] + [e2] + [e3];
    ViewsDistribute([e1], [e2]);
    ViewsDistribute([e1] + [e2], [e3]);
  }

  /** "/nick/<former>" reports <former> leaving and the sender joining, in that order. */
  lemma NickChangePresence(src: string, dest: string, former: string, myNick: string)
    requires former != []
    ensures Presences(OnChat(src, dest, NickPrefix + former, myNick))
      == [Presence(dest, former, false), Presence(dest, src, true)]
    ensures Messages(OnChat(src, dest, NickPrefix + former, myNick))
      == [System(dest, "*** " + former + " is now known as " + src)]
  {
    var body := NickPrefix + former;
    assert body[..6] == NickPrefix && body[6..] == former;
    var e1, e2, e3 := Presence(dest, former, false), Presence(dest, src, true),
                      Message(System(dest, "*** " + former + " is now known as " + src));
    assert OnChat(src, dest, body, myNick) == Learn(src) + [e1, e2, e3] + Reply(myNick);
    ViewsFramed(src, [e1, e2, e3], myNick);
    ViewsOfThree(e1, e2, e3);
    ViewsOfOne(e1);
    ViewsOfOne(e2);
    ViewsOfOne(e3);
  }

  /**
   * "/join", "/part" and "/leave" report the sender joining or leaving the
   * destination, and show it as one system line rather than a chat message.
   */
  lemma JoinPartPresence(src: string, dest: string, body: string, myNick: string)
    requires body == "/join" || IsPart(body)
    ensures Presences(OnChat(src, dest, body, myNick)) == [Presence(dest, src, body == "/join")]
    ensures Messages(OnChat(src, dest, body, myNick))
      == [System(dest, if body == "/join" then "*** " + src + " has joined " + dest else "*** " + src + " has left " + dest)]
  {
    assert !IsNickChange(body);
    var text := if body == "/join" then "*** " + src + " has joined " + dest else "*** " + src + " has left " + dest;
    var e1, e2 := Presence(dest, src, body == "/join"), Message(System(dest, text));
    assert OnChat(src, dest, body, myNick) == Learn(src) + [e1, e2] + Reply(myNick);
    ViewsFramed(src, [e1, e2], myNick);
    assert [e1, e2] == [e1] + [e2];
    ViewsDistribute([e1], [e2]);
    ViewsOfOne(e1);
    ViewsOfOne(e2);
  }

  /**
   * A plain message is shown exactly once, except a direct message between
   * two other users, which is neither shown nor answered.
   */
  lemma PlainMessageShown(src: string, dest: string, body: string, myNick: string)
    requires !IsNickChange(body) && body != "/join" && !IsPart(body)
    ensures IsDirect(dest) && NotForUs(src, dest, myNick) ==>
      Messages(OnChat(src, dest, body, myNick)) == [] && !Replied(OnChat(src, dest, body, myNick))
    ensures !(IsDirect(dest) && NotForUs(src, dest, myNick)) ==>
      Messages(OnChat(src, dest, body, myNick)) == [RegularMessage(src, dest, body, myNick)]
  {
    if IsDirect(dest) && NotForUs(src, dest, myNick) {
      ViewsOfOne(NickSeen(src));
    } else {
      var e := Message(RegularMessage(src, dest, body, myNick));
      ViewsFramed(src, [e], myNick);
      ViewsOfOne(e);
    }
  }

  /**
   * Both ends of a private conversation between `a` and `b` file it under the
   * other party: at `a` every message in either direction lands in "@b".
   */
  lemma DirectRoomIsOtherParty(a: string, b: string, body: string)
    requires a != [] && a != b && |"@" + b| > 1
    requires !IsNickChange(body) && body != "/join" && !IsPart(body)
    ensures Messages(OnChat(a, "@" + b, body, a)) == [RegularMessage(a, "@" + b, body, a)]
    ensures Messages(OnChat(b, "@" + a, body, a)) == [RegularMessage(b, "@" + a, body, a)]
    ensures RegularMessage(a, "@" + b, body, a).room == "@" + b
    ensures RegularMessage(b, "@" + a, body, a).room == "@" + b
  {
    assert ("@" + b)[1..] == b && ("@" + a)[1..] == a;
    PlainMessageShown(a, "@" + b, body, a);
    PlainMessageShown(b, "@" + a, body, a);
  }

  // ---------------------------------------------------------------------------
  // Peer nicknames

  /** The peer `updatePeerNickname` changes: at `address`, under another nickname. */
  predicate Stale(p: PeerInfo, address: string, nick: string) {
    p.address == address && p.nickname != nick
  }

  /** The index of the first stale peer, or `|peers|` when there is none. */
  function FirstStale(peers: seq<PeerInfo>, address: string, nick: string): (i: nat)
    ensures i <= |peers|
    ensures i < |peers| ==> Stale(peers[i], address, nick)
    ensures forall k :: 0 <= k < i ==> !Stale(peers[k], address, nick)
  {
    if peers == [] then 0
    else if Stale(peers[0], address, nick) then 0
    else 1 + FirstStale(peers[1..], address, nick)
  }

  /**
   * `updatePeerNickname`: the first peer at `address` whose nickname differs
   * takes the new one; the flag says whether a peer was updated (and so
   * whether the interface is notified).
   */
  function UpdatePeerNickname(peers: seq<PeerInfo>, address: string, nick: string)
    : (r: (seq<PeerInfo>, bool))
    ensures |r.0| == |peers|
    ensures r.1 <==> exists i :: 0 <= i < |peers| && Stale(peers[i], address, nick)
    ensures !r.1 ==> r.0 == peers
    ensures forall k :: 0 <= k < |peers| ==> r.0[k] == peers[k] || (r.0[k] == peers[k].(nickname := nick) && Stale(peers[k], address, nick))
    ensures forall k :: 0 <= k < |peers| && r.0[k] != peers[k] ==> forall j :: 0 <= j < k ==> !Stale(peers[j], address, nick)
  {
    var i := FirstStale(peers, address, nick);
    if i < |peers| then (peers[i := peers[i].(nickname := nick)], true) else (peers, false)
  }

  predicate UniqueAddresses(peers: seq<PeerInfo>) {
    forall i, j :: 0 <= i < j < |peers| ==> peers[i].address != peers[j].address
  }

  /** With one peer per address, a repeated update changes nothing and notifies nobody. */
  lemma UpdatePeerNicknameIdempotent(peers: seq<PeerInfo>, address: string, nick: string)
    requires UniqueAddresses(peers)
    ensures var once := UpdatePeerNickname(peers, address, nick);
      UpdatePeerNickname(once.0, address, nick) == (once.0, false)
  {
    var once := UpdatePeerNickname(peers, address, nick);
    var i := FirstStale(peers, address, nick);
    if i < |peers| {
      assert forall k :: 0 <= k < |once.0| ==> !Stale(once.0[k], address, nick) by {
        forall k | 0 <= k < |once.0|
          ensures !Stale(once.0[k], address, nick)
        {
          if k != i {
            assert peers[k].address != peers[i].address;
          }
        }
      }
    }
  }
}

=== FILE: config.dfy ===
/**
 * The persisted settings that have logic of their own: the shared-directory
 * list, stored as one semicolon-separated string; the network flag words;
 * and the default file name for an exported key.
 */
module Config {
  import opened Seqs

  // ---------------------------------------------------------------------------
  // Shared directories

  /** The index of the first `c` in `s`, or |s| when there is none (`npos`). */
  function Find(s: string, c: char): (k: nat)
    ensures k <= |s|
    ensures c !in s[..k]
    ensures k < |s| ==> s[k] == c
  {
    if s == [] || s[0] == c then 0
    else
      var k := Find(s[1..], c);
      assert s[..k + 1] == [s[0]] + s[1..][..k];
      k + 1
  }

  /** An entry that survives a save and a reload. */
  predicate Storable(d: string) {
    d != [] && ';' !in d
  }

  predicate AllStorable(dirs: seq<string>) {
    forall i :: 0 <= i < |dirs| ==> Storable(dirs[i])
  }

  /** The text before the first ';'. */
  function Piece(s: string): string {
    s[..Find(s, ';')]
  }

  /** The text after the first ';', or nothing when there is none. */
  function AfterPiece(s: string): (r: string)
    ensures s != [] ==> |r| < |s|
  {
    var k := Find(s, ';');
    if k < |s| then s[k + 1..] else []
  }

  /** The pieces of `s` between semicolons, empty pieces dropped. */
  function SplitDirs(s: string): (r: seq<string>)
    ensures AllStorable(r)
    decreases |s|
  {
    if s == [] then []
    else (if Piece(s) == [] then [] else [Piece(s)]) + SplitDirs(AfterPiece(s))
  }

  /** The combined length of the entries. */
  function TotalLength(dirs: seq<string>): nat {
    if dirs == [] then 0 else |dirs[0]| + TotalLength(dirs[1..])
  }

  /** The entries joined with ';' between them. */
  function JoinDirs(dirs: seq<string>): (r: string)
    ensures dirs == [] ==> r == []
    ensures dirs != [] ==> |r| == TotalLength(dirs) + |dirs| - 1 && r[..|dirs[0]|] == dirs[0]
    ensures |dirs| >= 2 ==> r[|dirs[0]|] == ';'
  {
    if dirs == [] then []
    else if |dirs| == 1 then dirs[0]
    else dirs[0] + ";" + JoinDirs(dirs[1..])
  }

  /** `loadConfig` replaces the list only when the stored string is non-empty. */
  function LoadSharedDirs(current: seq<string>, stored: string): (r: seq<string>)
    ensures stored == [] ==> r == current
    ensures stored != [] ==> AllStorable(r)
  {
    if stored == [] then current else SplitDirs(stored)
  }

  /** The splitting loop of `loadConfig`, which consumes the string from the front. */
  method SplitLoop(stored: string) returns (dirs: seq<string>)
    ensures dirs == SplitDirs(stored)
  {
    dirs := [];
    var rest := stored;
    while rest != []
      invariant dirs + SplitDirs(rest) == SplitDirs(stored)
      decreases |rest|
    {
      var dir, next := NextPiece(rest);
      SplitStep(dirs, rest);
      if dir != [] {
        dirs := dirs + [dir];
      }
      rest := next;
    }
    assert dirs + [] == dirs;
  }

  /** One `find(';')` and the two `substr` calls around it. */
  method NextPiece(rest: string) returns (dir: string, next: string)
    ensures dir == Piece(rest) && next == AfterPiece(rest)
    ensures rest != [] ==> |next| < |rest|
  {
    var pos := Find(rest, ';');
    if pos < |rest| {
      dir, next := rest[..pos], rest[pos + 1..];
    } else {
      dir, next := rest, [];
      assert rest[..pos] == rest;
    }
  }

  /** One turn of the splitting loop: the first piece moves to the output. */
  lemma SplitStep(dirs: seq<string>, rest: string)
    requires rest != []
    ensures dirs + SplitDirs(rest) ==
      (if Piece(rest) == [] then dirs else dirs + [Piece(rest)]) + SplitDirs(AfterPiece(rest))
  {
    var p := Piece(rest);
    var t := SplitDirs(AfterPiece(rest));
    if p == [] {
      assert SplitDirs(rest) == [] + t == t;
    } else {
      assert SplitDirs(rest) == [p] + t;
      assert dirs + ([p] + t) == (dirs + [p]) + t;
    }
  }

  /** The joining loop of `saveConfig`: a ';' before every entry but the first. */
  method JoinLoop(dirs: seq<string>) returns (s: string)
    ensures s == JoinDirs(dirs)
  {
    s := [];
    var i := 0;
    while i < |dirs|
      invariant 0 <= i <= |dirs|
      invariant s == JoinDirs(dirs[..i])
    {
      if i > 0 {
        s := s + ";";
      }
      s := s + dirs[i];
      JoinSnoc(dirs[..i], dirs[i]);
      assert dirs[..i + 1] == dirs[..i] + [dirs[i]];
      i := i + 1;
    }
    assert dirs[..|dirs|] == dirs;
  }

  lemma {:induction false} JoinSnoc(dirs: seq<string>, d: string)
    ensures JoinDirs(dirs + [d]) == if dirs == [] then d else JoinDirs(dirs) + ";" + d
  {
    if |dirs| > 1 {
      assert (dirs + [d])[1..] == dirs[1..] + [d];
      JoinSnoc(dirs[1..], d);
    } else if |dirs| == 1 {
      assert (dirs + [d])[1..] == [d];
    }
  }

  lemma FindAfterEntry(d: string, t: string)
    requires ';' !in d
    ensures Find(d + t, ';') == |d| + Find(t, ';')
    decreases |d|
  {
    if d != [] {
      assert (d + t)[0] == d[0] != ';';
      assert (d + t)[1..] == d[1..] + t;
      assert ';' !in d[1..];
      FindAfterEntry(d[1..], t);
      assert Find(d + t, ';') == Find((d + t)[1..], ';') + 1;
    } else {
      assert d + t == t;
    }
  }

  /** Splitting the joined list gives the list back when every entry is storable. */
  lemma {:induction false} SplitJoin(dirs: seq<string>)
    requires AllStorable(dirs)
    ensures SplitDirs(JoinDirs(dirs)) == dirs
  {
    if dirs != [] {
      var d := dirs[0];
      assert Storable(d);
      if |dirs| == 1 {
        FindAfterEntry(d, []);
        assert d + [] == d;
        assert d[..|d|] == d;
      } else {
        var t := JoinDirs(dirs[1..]);
        var s := d + ";" + t;
        FindAfterEntry(d, ";" + t);
        assert s == d + (";" + t);
        assert s[..|d|] == d;
        assert s[|d| + 1..] == t;
        assert AllStorable(dirs[1..]) by {
          forall i | 0 <= i < |dirs[1..]| ensures Storable(dirs[1..][i]) {
            assert dirs[1..][i] == dirs[i + 1];
          }
        }
        SplitJoin(dirs[1..]);
      }
    }
  }

  /** Saving and reloading keeps a non-empty list; an empty one leaves the list as it was. */
  lemma SaveThenLoad(current: seq<string>, dirs: seq<string>)
    requires AllStorable(dirs)
    ensures LoadSharedDirs(current, JoinDirs(dirs)) == if dirs == [] then current else dirs
  {
    SplitJoin(dirs);
    if dirs != [] {
      assert Storable(dirs[0]);
      assert |JoinDirs(dirs)| >= |dirs[0]|;
    }
  }

  /** One reload normalises the stored string: a second save and load changes nothing. */
  lemma SplitIsNormal(s: string)
    ensures SplitDirs(JoinDirs(SplitDirs(s))) == SplitDirs(s)
  {
    SplitJoin(SplitDirs(s));
  }

  /** A directory whose path holds ';' comes back from a reload as two directories. */
  lemma SemicolonPathSplits()
    ensures LoadSharedDirs([], JoinDirs(["a;b"])) == ["a", "b"]
  {
    var s := "a;b";
    assert Find(s, ';') == 1;
    assert s[..1] == "a" && s[2..] == "b";
    assert Find("b", ';') == 1;
    assert "b"[..1] == "b";
  }

  /** `addSharedDirectory`: appends a directory not already shared. */
  function AddShared(dirs: seq<string>, path: string): (r: seq<string>)
    ensures forall d :: d in r <==> d in dirs || d == path
    ensures |dirs| <= |r| <= |dirs| + 1 && r[..|dirs|] == dirs
    ensures Distinct(dirs) ==> Distinct(r)
  {
    if path in dirs then dirs else dirs + [path]
  }

  /** `removeSharedDirectory`: erases entry `index` when it exists. */
  function RemoveShared(dirs: seq<string>, index: int): (r: seq<string>)
    ensures !(0 <= index < |dirs|) ==> r == dirs
    ensures 0 <= index < |dirs| ==> r == Without(dirs, index)
    ensures 0 <= index < |dirs| ==> multiset(r) + multiset{dirs[index]} == multiset(dirs)
    ensures 0 <= index < |dirs| && Distinct(dirs) ==> Distinct(r) && dirs[index] !in r
  {
    if index < 0 || index >= |dirs| then dirs
    else
      var r := Without(dirs, index);
      assert forall k :: 0 <= k < |r| ==> r[k] == dirs[if k < index then k else k + 1];
      r
  }

  /** Removing the directory just added restores the list. */
  lemma RemoveUndoesAdd(dirs: seq<string>, path: string)
    requires path !in dirs
    ensures RemoveShared(AddShared(dirs, path), |dirs|) == dirs
  {
    assert (dirs + [path])[..|dirs|] == dirs;
  }

  // ---------------------------------------------------------------------------
  // Flag words

  /**
   * `accept`: bit 0 answers file requests. `throttle`: bit 0 limits
   * downloads, bit 1 limits uploads. The rates are in KB/s.
   */
  datatype NetFlags = NetFlags(accept: bv32, throttle: bv32, sendKBps: int, recvKBps: int)

  /** The values before any configuration is read. */
  const Initial := NetFlags(1, 0, 0, 0)

  /** The values `loadConfig` uses for keys missing from the configuration file. */
  const ConfigDefaults := NetFlags(7, 0, 128, 128)

  predicate AcceptIncoming(f: NetFlags) { f.accept & 1 != 0 }
  predicate ThrottleDownload(f: NetFlags) { f.throttle & 1 != 0 }
  predicate ThrottleUpload(f: NetFlags) { f.throttle & 2 != 0 }

  /** `~1` and `~2` as 32-bit words. */
  const ClearBit0: bv32 := 0xFFFF_FFFE
  const ClearBit1: bv32 := 0xFFFF_FFFD
  /** `~3`: every throttle bit except the two limit bits. */
  const ClearBits01: bv32 := 0xFFFF_FFFC

  function SetAcceptIncoming(f: NetFlags, accept: bool): (r: NetFlags)
    ensures AcceptIncoming(r) == accept
    ensures r.accept & ClearBit0 == f.accept & ClearBit0
    ensures r.throttle == f.throttle && r.sendKBps == f.sendKBps && r.recvKBps == f.recvKBps
  {
    f.(accept := if accept then f.accept | 1 else f.accept & ClearBit0)
  }

  /** Enabling stores the rate; disabling clears it to 0. */
  function SetThrottleUpload(f: NetFlags, enabled: bool, kbps: int): (r: NetFlags)
    ensures ThrottleUpload(r) == enabled && ThrottleDownload(r) == ThrottleDownload(f)
    ensures r.sendKBps == (if enabled then kbps else 0)
    ensures r.accept == f.accept && r.recvKBps == f.recvKBps
  {
    if enabled then f.(throttle := f.throttle | 2, sendKBps := kbps)
    else f.(throttle := f.throttle & ClearBit1, sendKBps := 0)
  }

  function SetThrottleDownload(f: NetFlags, enabled: bool, kbps: int): (r: NetFlags)
    ensures ThrottleDownload(r) == enabled && ThrottleUpload(r) == ThrottleUpload(f)
    ensures r.recvKBps == (if enabled then kbps else 0)
    ensures r.accept == f.accept && r.sendKBps == f.sendKBps
  {
    if enabled then f.(throttle := f.throttle | 1, recvKBps := kbps)
    else f.(throttle := f.throttle & ClearBit0, recvKBps := 0)
  }

  /** The integers `C_Config` stores under each key of the configuration file. */
  type IntSettings = map<string, int>

  /** `ReadInt`: the stored value, or the default when the key is missing. */
  function ReadInt(cfg: IntSettings, key: string, default: int): (v: int)
    ensures key in cfg ==> v == cfg[key]
    ensures key !in cfg ==> v == default
  {
    if key in cfg then cfg[key] else default
  }

  const TwoTo32: int := 0x1_0000_0000

  /** An `int` read into a 32-bit flag word. */
  function Word(v: int): bv32 {
    if 0 <= v < TwoTo32 then v as bv32 else (v % TwoTo32) as bv32
  }

  /** `loadConfig`'s four flag and rate settings. */
  function LoadFlags(cfg: IntSettings): (f: NetFlags)
    ensures "downloadflags" !in cfg ==> f.accept == ConfigDefaults.accept
    ensures "throttleflag" !in cfg ==> f.throttle == ConfigDefaults.throttle
    ensures "throttlesend" !in cfg ==> f.sendKBps == ConfigDefaults.sendKBps
    ensures "throttlerecv" !in cfg ==> f.recvKBps == ConfigDefaults.recvKBps
    ensures "throttlesend" in cfg ==> f.sendKBps == cfg["throttlesend"]
    ensures "throttlerecv" in cfg ==> f.recvKBps == cfg["throttlerecv"]
  {
    NetFlags(Word(ReadInt(cfg, "downloadflags", 7)), Word(ReadInt(cfg, "throttleflag", 0)),
             ReadInt(cfg, "throttlesend", 128), ReadInt(cfg, "throttlerecv", 128))
  }

  /** `saveConfig`'s four flag and rate settings written over `cfg`. */
  function SaveFlags(cfg: IntSettings, f: NetFlags): (r: IntSettings)
    ensures forall k :: k in cfg ==> k in r
    ensures forall k :: k in cfg && k !in FlagKeys ==> r[k] == cfg[k]
  {
    cfg["downloadflags" := f.accept as int]["throttleflag" := f.throttle as int]
       ["throttlesend" := f.sendKBps]["throttlerecv" := f.recvKBps]
  }

  /** The four keys `loadConfig` reads the flags and rates from. */
  const FlagKeys: set<string> := {"downloadflags", "throttleflag", "throttlesend", "throttlerecv"}

  /** A configuration file holding none of the four keys gives every flag its default. */
  lemma EmptyConfigLoadsDefaults(cfg: IntSettings)
    requires forall k :: k in FlagKeys ==> k !in cfg
    ensures LoadFlags(cfg) == ConfigDefaults
  {
  }

  /**
   * `loadConfig` as a whole on the flags: when the configuration file does
   * not exist it returns before reading them, so they keep their current
   * values; otherwise they are read from the file.
   */
  function LoadConfig(fileExists: bool, cfg: IntSettings, current: NetFlags): (r: NetFlags)
    ensures !fileExists ==> r == current
    ensures fileExists ==> r == LoadFlags(cfg)
    ensures fileExists && (forall k :: k in FlagKeys ==> k !in cfg) ==> r == ConfigDefaults
  {
    if fileExists then LoadFlags(cfg) else current
  }

  /**
   * At startup with no configuration file the flags stay at their initial
   * values: file requests are answered and nothing is throttled.
   */
  lemma NoFileKeepsInitial(cfg: IntSettings)
    ensures LoadConfig(false, cfg, Initial) == Initial
    ensures AcceptIncoming(Initial) && !ThrottleDownload(Initial) && !ThrottleUpload(Initial)
    ensures Initial.sendKBps == 0 && Initial.recvKBps == 0
  {
  }

  /** Saving the flags and loading them back gives the same flags. */
  lemma FlagsSaveThenLoad(cfg: IntSettings, f: NetFlags)
    ensures LoadFlags(SaveFlags(cfg, f)) == f
  {
    var saved := SaveFlags(cfg, f);
    assert saved["downloadflags"] == f.accept as int && saved["throttleflag"] == f.throttle as int;
    WordOfWord(f.accept);
    WordOfWord(f.throttle);
  }

  /** A stored flag word reads back as itself. */
  lemma WordOfWord(x: bv32)
    ensures Word(x as int) == x
  {
    assert 0 <= x as int < TwoTo32;
  }

  /** The two throttle settings are independent: their order does not matter. */
  lemma ThrottleSettersCommute(f: NetFlags, up: bool, upKBps: int, down: bool, downKBps: int)
    ensures SetThrottleUpload(SetThrottleDownload(f, down, downKBps), up, upKBps)
         == SetThrottleDownload(SetThrottleUpload(f, up, upKBps), down, downKBps)
  {
  }

  /** The throttle setters change only the two limit bits of the throttle word. */
  lemma ThrottleSettersKeepOtherBits(f: NetFlags, enabled: bool, kbps: int)
    ensures SetThrottleUpload(f, enabled, kbps).throttle & ClearBits01 == f.throttle & ClearBits01
    ensures SetThrottleDownload(f, enabled, kbps).throttle & ClearBits01 == f.throttle & ClearBits01
  {
  }

  // ---------------------------------------------------------------------------
  // Export file name

  /** What `isalnum` accepts in the C locale, plus '-' and '_'. */
  predicate SafeChar(c: char) {
    'a' <= c <= 'z' || 'A' <= c <= 'Z' || '0' <= c <= '9' || c == '-' || c == '_'
  }

  /** Every unsafe character replaced by '_'. */
  function Sanitize(name: string): (r: string)
    ensures |r| == |name|
    ensures forall i :: 0 <= i < |r| ==> SafeChar(r[i])
    ensures forall i :: 0 <= i < |r| && SafeChar(name[i]) ==> r[i] == name[i]
    ensures forall i :: 0 <= i < |r| && !SafeChar(name[i]) ==> r[i] == '_'
  {
    seq(|name|, i requires 0 <= i < |name| => if SafeChar(name[i]) then name[i] else '_')
  }

  /** Sanitising a sanitised name changes nothing. */
  lemma SanitizeIdempotent(name: string)
    ensures Sanitize(Sanitize(name)) == Sanitize(name)
  {
  }

  /** `getDefaultExportPath`: "<configDir>/<nickname or mykey, sanitised>.wastekey". */
  function DefaultExportPath(configDir: string, nick: string): string {
    configDir + "/" + Sanitize(if nick == [] then "mykey" else nick) + ".wastekey"
  }

  /**
   * The file always lands directly in the configuration directory: the part
   * after "<configDir>/" holds no '/' and ends in ".wastekey".
   */
  lemma ExportPathStaysInConfigDir(configDir: string, nick: string)
    ensures var p := DefaultExportPath(configDir, nick);
      var file := p[|configDir| + 1..];
      |p| > |configDir| && p[..|configDir| + 1] == configDir + "/" &&
      '/' !in file && |file| >= 9 && file[|file| - 9..] == ".wastekey" &&
      (nick == [] ==> file == "mykey.wastekey")
  {
    var p := DefaultExportPath(configDir, nick);
    var stem := Sanitize(if nick == [] then "mykey" else nick);
    assert p == (configDir + "/") + (stem + ".wastekey");
    var file := p[|configDir| + 1..];
    assert file == stem + ".wastekey";
    assert forall i :: 0 <= i < |stem| ==> file[i] == stem[i];
  }
}

=== FILE: keys.dfy ===
/**
 * Public-key exchange files and the two key lists.
 *
 * A key is exported as a 552-byte record (fingerprint, name, bit length,
 * modulus, exponent) in Base64, wrapped in a PEM-like text block. Importing
 * reads such a block back, always recomputes the fingerprint from the key
 * material and appends the key to the trusted list unless it is already
 * there or is the importer's own key. The fingerprint function (SHA-1 in
 * the program) is a parameter of the model.
 */
module Keys {
  import opened Bytes
  import Base64
  import opened Text
  import opened Seqs

  const HashSize := 20
  const NameSize := 16
  const ModulusSize := 256
  const RecordSize := 552
  const LineWidth := 64

  const BeginLine := "-----BEGIN WASTE PUBLIC KEY-----"
  const EndLine := "-----END WASTE PUBLIC KEY-----"
  const Unnamed := "(unnamed)"

  /** An RSA public key as the engine stores it: fixed 256-byte big numbers. */
  datatype PublicKey = PublicKey(bits: bv32, modulus: seq<byte>, exponent: seq<byte>)

  predicate ValidPublicKey(pk: PublicKey) {
    |pk.modulus| == ModulusSize && |pk.exponent| == ModulusSize
  }

  /** An entry of the trusted or pending list: fingerprint, 16-byte C name, key. */
  datatype KeyItem = KeyItem(hash: seq<byte>, name: seq<byte>, pk: PublicKey)

  /** The byte a character of a C++ string stands for. */
  function CharByte(c: char): byte {
    (c as int % 256) as byte
  }

  // ---------------------------------------------------------------------------
  // The record

  /** The 16-byte name field: at most 15 characters, then zero bytes. */
  function NameField(nick: string): (r: seq<byte>)
    ensures |r| == NameSize && r[NameSize - 1] == 0
    ensures forall i :: 0 <= i < NameSize && i < |nick| && i < NameSize - 1 ==> r[i] == CharByte(nick[i])
    ensures forall i :: |nick| <= i < NameSize ==> r[i] == 0
  {
    seq(NameSize, i requires 0 <= i < NameSize => if i < |nick| && i < NameSize - 1 then CharByte(nick[i]) else 0)
  }

  /** The record `exportPublicKey` encodes. */
  function Record(ownHash: seq<byte>, nick: string, pk: PublicKey): (r: seq<byte>)
    requires |ownHash| == HashSize && ValidPublicKey(pk)
    ensures |r| == RecordSize
    ensures r[..20] == ownHash
    ensures r[20..36] == NameField(nick)
    ensures r[36..40] == LittleEndian32(pk.bits)
    ensures r[40..296] == pk.modulus
    ensures r[296..] == pk.exponent
  {
    var r := ownHash + (NameField(nick) + (LittleEndian32(pk.bits) + (pk.modulus + pk.exponent)));
    assert r[20..][..16] == NameField(nick);
    assert r[36..][..4] == LittleEndian32(pk.bits);
    r
  }

  /** The characters of a C++ string up to its first NUL, as `c_str()` sees them. */
  function CString(s: string): (r: string)
    ensures |r| <= |s| && r == s[..|r|]
    ensures forall i :: 0 <= i < |r| ==> CharByte(r[i]) != 0
    ensures |r| < |s| ==> CharByte(s[|r|]) == 0
  {
    if s == [] || CharByte(s[0]) == 0 then []
    else
      var t := CString(s[1..]);
      assert [s[0]] + t == s[..|t| + 1];
      [s[0]] + t
  }

  /**
   * The name field after `strncpy(name, s.c_str(), 15)` and `name[15] = 0`:
   * the bytes of `s` up to its first NUL, at most 15 of them, then zeros.
   */
  function CopyName(s: string): (r: seq<byte>)
    ensures |r| == NameSize && r[NameSize - 1] == 0
    ensures forall i :: 0 <= i < NameSize - 1 && i < |s| && (forall j :: 0 <= j <= i ==> CharByte(s[j]) != 0)
              ==> r[i] == CharByte(s[i])
    ensures forall i :: |s| <= i < NameSize ==> r[i] == 0
    ensures forall i, j :: 0 <= j <= i < NameSize && j < |s| && CharByte(s[j]) == 0 ==> r[i] == 0
  {
    NameField(CString(s))
  }

  /** The fields the importer reads back from a record of at least 552 bytes. */
  function ParseRecord(data: seq<byte>, headerName: string, hash: seq<byte> -> seq<byte>): (k: KeyItem)
    requires |data| >= RecordSize
    ensures ValidPublicKey(k.pk)
    ensures k.hash == hash(k.pk.modulus + k.pk.exponent)
    ensures |k.name| == NameSize && k.name[NameSize - 1] == 0
    ensures k.pk.modulus == data[40..296] && k.pk.exponent == data[296..552]
    ensures k.pk.bits == FromLittleEndian32(data[36], data[37], data[38], data[39])
    ensures headerName != [] && headerName != Unnamed ==> k.name == CopyName(headerName)
    ensures headerName == [] || headerName == Unnamed ==> k.name == data[20..35] + [0]
  {
    var embedded := data[..20];
    var name :=
      if headerName != [] && headerName != Unnamed then CopyName(headerName)
      else data[20..35] + [0];
    var bits := FromLittleEndian32(data[36], data[37], data[38], data[39]);
    var pk := PublicKey(bits, data[40..296], data[296..552]);
    var computed := hash(pk.modulus + pk.exponent);
    KeyItem(if computed != embedded then computed else embedded, name, pk)
  }

  // ---------------------------------------------------------------------------
  // The text block

  /** Consecutive pieces of `s`, `width` characters each except possibly the last. */
  function Chunks(s: string, width: nat): (r: seq<string>)
    requires width > 0
    ensures forall i :: 0 <= i < |r| ==> 0 < |r[i]| <= width
    decreases |s|
  {
    if s == [] then []
    else if |s| <= width then [s]
    else [s[..width]] + Chunks(s[width..], width)
  }

  function Concat(lines: seq<string>): string {
    if lines == [] then [] else lines[0] + Concat(lines[1..])
  }

  /** Joining the pieces gives back the text. */
  lemma {:induction false} ConcatChunks(s: string, width: nat)
    requires width > 0
    ensures Concat(Chunks(s, width)) == s
    decreases |s|
  {
    if |s| > width {
      var r := Chunks(s, width);
      assert r[1..] == Chunks(s[width..], width);
      ConcatChunks(s[width..], width);
    }
  }

  /** A line that `TrimEnd` leaves alone and that is not empty. */
  predicate Solid(v: string) {
    v != [] && !TrailingJunk(v[|v| - 1])
  }

  /** The five header lines of an exported block. */
  function Header(shown: string, hex: string, bits: string): seq<string> {
    [BeginLine, "Name: " + shown, "Hash: " + hex, "Bits: " + bits, ""]
  }

  /** The lines of an exported block, given its header values and Base64 lines. */
  function Block(shown: string, hex: string, bits: string, data: seq<string>): seq<string> {
    Header(shown, hex, bits) + data + [EndLine]
  }

  /** The lines `exportPublicKey` writes, without their line terminators. */
  function ExportLines(nick: string, ownHash: seq<byte>, pk: PublicKey): (lines: seq<string>)
    requires |ownHash| == HashSize && ValidPublicKey(pk)
    ensures |lines| >= 7
    ensures lines[0] == BeginLine && lines[|lines| - 1] == EndLine
  {
    var shown := if nick == [] then Unnamed else nick;
    Block(shown, Hex(ownHash), Decimal(pk.bits as int), Chunks(Base64.Encode(Record(ownHash, nick, pk)), LineWidth))
  }

  /** What the importer's line loop has gathered so far. */
  datatype ScanState = ScanState(inKey: bool, stopped: bool, name: string, b64: string)

  const ScanStart := ScanState(false, false, [], [])

  /**
   * One line of the loop in `importPublicKey`, after trimming: BEGIN enters
   * the block, END stops the loop, lines outside the block are ignored, a
   * "Name: " line sets the header name, "Hash: ", "Bits: " and blank lines
   * are skipped, and any other line is appended to the Base64 text.
   */
  function ScanLine(st: ScanState, raw: string): (r: ScanState)
    ensures st.stopped ==> r == st
    ensures !st.stopped && TrimEnd(raw) == BeginLine ==> r == st.(inKey := true)
    ensures !st.stopped && TrimEnd(raw) == EndLine ==> r == st.(stopped := true)
    ensures r.b64 == st.b64 || (st.inKey && r.b64 == st.b64 + TrimEnd(raw) && TrimEnd(raw) != [])
    ensures r.name == st.name || (st.inKey && StartsWith(TrimEnd(raw), "Name: ") && r.name == TrimEnd(raw)[6..])
    ensures !st.inKey ==> r.name == st.name && r.b64 == st.b64
  {
    if st.stopped then st
    else
      var line := TrimEnd(raw);
      if line == BeginLine then st.(inKey := true)
      else if line == EndLine then st.(stopped := true)
      else if !st.inKey then st
      else if StartsWith(line, "Name: ") then st.(name := line[6..])
      else if StartsWith(line, "Hash: ") || StartsWith(line, "Bits: ") then st
      else if line == [] then st
      else st.(b64 := st.b64 + line)
  }

  /** The loop over the lines from `i` on. */
  function ScanFrom(lines: seq<string>, i: nat, st: ScanState): ScanState
    requires i <= |lines|
    decreases |lines| - i
  {
    if i == |lines| then st else ScanFrom(lines, i + 1, ScanLine(st, lines[i]))
  }

  /** The header name and Base64 text of a key file; a file without a BEGIN line has neither. */
  function Scan(lines: seq<string>): (r: ScanState)
    ensures (forall i :: 0 <= i < |lines| ==> TrimEnd(lines[i]) != BeginLine) ==> r.name == [] && r.b64 == []
  {
    ScanOutsideBlock(lines, 0, ScanStart);
    ScanFrom(lines, 0, ScanStart)
  }

  /** Outside the block, and with no BEGIN line to come, nothing is gathered. */
  lemma {:induction false} ScanOutsideBlock(lines: seq<string>, i: nat, st: ScanState)
    requires i <= |lines| && !st.inKey
    ensures (forall j :: i <= j < |lines| ==> TrimEnd(lines[j]) != BeginLine) ==>
      var r := ScanFrom(lines, i, st); !r.inKey && r.name == st.name && r.b64 == st.b64
    decreases |lines| - i
  {
    if i < |lines| && TrimEnd(lines[i]) != BeginLine {
      ScanOutsideBlock(lines, i + 1, ScanLine(st, lines[i]));
    }
  }

  // ---------------------------------------------------------------------------
  // Import

  datatype ImportOutcome = NoKeyData | TooShort | AlreadyTrusted | OwnKey | Added

  /** The boolean `importPublicKey` returns. */
  predicate Succeeded(o: ImportOutcome) {
    o == AlreadyTrusted || o == Added
  }

  predicate Trusts(trusted: seq<KeyItem>, hash: seq<byte>) {
    exists i :: 0 <= i < |trusted| && trusted[i].hash == hash
  }

  /** `importPublicKey` over the lines of a file: the outcome and the new trusted list. */
  function Import(lines: seq<string>, trusted: seq<KeyItem>, ownHash: seq<byte>, hash: seq<byte> -> seq<byte>)
    : (r: (ImportOutcome, seq<KeyItem>))
    ensures r.0 != Added ==> r.1 == trusted
    ensures r.0 == Added ==>
      |r.1| == |trusted| + 1 && r.1[..|trusted|] == trusted
      && !Trusts(trusted, r.1[|trusted|].hash) && r.1[|trusted|].hash != ownHash
    ensures r.0 in {AlreadyTrusted, OwnKey, Added} ==> Scan(lines).b64 != []
    ensures Scan(lines).b64 == [] ==> r == (NoKeyData, trusted)
    ensures var b64 := Scan(lines).b64;
      b64 != [] && |Base64.Decode(b64)| < RecordSize ==> r == (TooShort, trusted)
    ensures var st := Scan(lines);
      var data := Base64.Decode(st.b64);
      st.b64 != [] && |data| >= RecordSize ==>
        var k := ParseRecord(data, st.name, hash);
        r == if Trusts(trusted, k.hash) then (AlreadyTrusted, trusted)
             else if k.hash == ownHash then (OwnKey, trusted)
             else (Added, trusted + [k])
  {
    var st := Scan(lines);
    var headerName := st.name;
    var b64 := st.b64;
    if b64 == [] then (NoKeyData, trusted)
    else
      var data := Base64.Decode(b64);
      if |data| < RecordSize then (TooShort, trusted)
      else
        var key := ParseRecord(data, headerName, hash);
        if Trusts(trusted, key.hash) then (AlreadyTrusted, trusted)
        else if key.hash == ownHash then (OwnKey, trusted)
        else (Added, trusted + [key])
  }

  /** An added key always carries the fingerprint of its own key material. */
  lemma ImportedHashIsComputed(lines: seq<string>, trusted: seq<KeyItem>, ownHash: seq<byte>, hash: seq<byte> -> seq<byte>)
    ensures var r := Import(lines, trusted, ownHash, hash);
      r.0 == Added ==> var k := r.1[|trusted|]; ValidPublicKey(k.pk) && k.hash == hash(k.pk.modulus + k.pk.exponent)
  {
  }

  /** Data that decodes to fewer than 552 bytes is refused and nothing changes. */
  lemma ImportRejectsShortData(lines: seq<string>, trusted: seq<KeyItem>, ownHash: seq<byte>, hash: seq<byte> -> seq<byte>)
    requires |Base64.Decode(Scan(lines).b64)| < RecordSize
    ensures var r := Import(lines, trusted, ownHash, hash);
      !Succeeded(r.0) && r.1 == trusted
  {
  }

  // ---------------------------------------------------------------------------
  // Export then import

  /** A line of Base64 output: non-empty, alphabet characters and '=' only. */
  predicate Base64Line(line: string) {
    line != [] && forall k :: 0 <= k < |line| ==> line[k] == '=' || Base64.InAlphabet(line[k])
  }

  /** No Base64 line is mistaken for a header, blank or marker line. */
  lemma Base64LineIsData(line: string)
    requires Base64Line(line)
    ensures TrimEnd(line) == line
    ensures line != BeginLine && line != EndLine
    ensures !StartsWith(line, "Name: ") && !StartsWith(line, "Hash: ") && !StartsWith(line, "Bits: ")
  {
    assert Base64.DecodeChar(line[|line| - 1]) >= 0 || line[|line| - 1] == '=';
    TrimEndKeeps(line);
    assert BeginLine[0] == '-' && Base64.DecodeChar('-') == -1;
    if |line| >= 6 {
      assert Base64.DecodeChar(':') == -1;
      assert line[4] != ':';
    }
  }

  lemma {:induction false} ChunksOfBase64(s: string, width: nat)
    requires width > 0
    requires forall k :: 0 <= k < |s| ==> s[k] == '=' || Base64.InAlphabet(s[k])
    ensures forall i :: 0 <= i < |Chunks(s, width)| ==> Base64Line(Chunks(s, width)[i])
    decreases |s|
  {
    if |s| > width {
      ChunksOfBase64(s[width..], width);
    }
  }

  /** Once END has been seen, the remaining lines change nothing. */
  lemma {:induction false} ScanStopped(lines: seq<string>, i: nat, st: ScanState)
    requires i <= |lines| && st.stopped
    ensures ScanFrom(lines, i, st) == st
    decreases |lines| - i
  {
    if i < |lines| {
      ScanStopped(lines, i + 1, st);
    }
  }

  /** Inside the block, Base64 lines are appended in order. */
  lemma {:induction false} ScanData(data: seq<string>, st: ScanState)
    requires st.inKey && !st.stopped
    requires forall k :: 0 <= k < |data| ==> Base64Line(data[k])
    ensures ScanFrom(data, 0, st) == st.(b64 := st.b64 + Concat(data))
  {
    ScanDataFrom(data, 0, st);
    assert data[0..] == data;
  }

  lemma ConcatSlice(lines: seq<string>, i: nat, j: nat)
    requires i < j <= |lines|
    ensures Concat(lines[i..j]) == lines[i] + Concat(lines[i + 1..j])
  {
    assert lines[i..j][1..] == lines[i + 1..j];
  }

  lemma {:induction false} ScanDataFrom(data: seq<string>, i: nat, st: ScanState)
    requires i <= |data| && st.inKey && !st.stopped
    requires forall k :: 0 <= k < |data| ==> Base64Line(data[k])
    ensures ScanFrom(data, i, st) == st.(b64 := st.b64 + Concat(data[i..]))
    decreases |data| - i
  {
    if i == |data| {
      assert data[i..] == [];
    } else {
      Base64LineIsData(data[i]);
      var next := st.(b64 := st.b64 + data[i]);
      assert ScanLine(st, data[i]) == next;
      ScanDataFrom(data, i + 1, next);
      ConcatSlice(data, i, |data|);
      var tail := Concat(data[i + 1..]);
      assert data[i..|data|] == data[i..] && data[i + 1..|data|] == data[i + 1..];
      assert st.b64 + (data[i] + tail) == (st.b64 + data[i]) + tail;
    }
  }

  /** Scanning a sequence of lines in two parts. */
  lemma {:induction false} ScanAppend(a: seq<string>, b: seq<string>, i: nat, st: ScanState)
    requires i <= |a|
    ensures ScanFrom(a + b, i, st) == ScanFrom(b, 0, ScanFrom(a, i, st))
    decreases |a| - i
  {
    if i == |a| {
      assert (a + b)[i..] == b;
      ScanShift(a, b, st);
    } else {
      assert (a + b)[i] == a[i];
      ScanAppend(a, b, i + 1, ScanLine(st, a[i]));
    }
  }

  /** Scanning `a + b` from the end of `a` is scanning `b`. */
  lemma ScanShift(a: seq<string>, b: seq<string>, st: ScanState)
    ensures ScanFrom(a + b, |a|, st) == ScanFrom(b, 0, st)
  {
    ScanShiftFrom(a, b, 0, st);
  }

  lemma {:induction false} ScanShiftFrom(a: seq<string>, b: seq<string>, j: nat, st: ScanState)
    requires j <= |b|
    ensures ScanFrom(a + b, |a| + j, st) == ScanFrom(b, j, st)
    decreases |b| - j
  {
    if j < |b| {
      assert (a + b)[|a| + j] == b[j];
      ScanShiftFrom(a, b, j + 1, ScanLine(st, b[j]));
    }
  }

  /** A header line `tag + value` inside the block. */
  lemma ScanTaggedLine(st: ScanState, tag: string, value: string)
    requires st.inKey && !st.stopped
    requires tag in {"Name: ", "Hash: ", "Bits: "} && Solid(value)
    ensures tag == "Name: " ==> ScanLine(st, tag + value) == st.(name := value)
    ensures tag != "Name: " ==> ScanLine(st, tag + value) == st
  {
    var line := tag + value;
    assert line[|line| - 1] == value[|value| - 1];
    TrimEndKeeps(line);
    assert line[..6] == tag && line[6..] == value;
    assert line[0] != '-';
  }

  /** The scan of the five header lines of an exported block. */
  lemma ScanHeader(shown: string, hex: string, bits: string)
    requires Solid(shown) && Solid(hex) && Solid(bits)
    ensures ScanFrom(Header(shown, hex, bits), 0, ScanStart) == ScanState(true, false, shown, [])
  {
    var header := Header(shown, hex, bits);
    TrimEndKeeps(BeginLine);
    var s1 := ScanState(true, false, [], []);
    assert ScanLine(ScanStart, BeginLine) == s1;
    var s2 := ScanState(true, false, shown, []);
    ScanTaggedLine(s1, "Name: ", shown);
    ScanTaggedLine(s2, "Hash: ", hex);
    ScanTaggedLine(s2, "Bits: ", bits);
    assert ScanLine(s2, "") == s2;
    assert ScanFrom(header, 5, s2) == s2;
    assert ScanFrom(header, 4, s2) == s2;
    assert ScanFrom(header, 3, s2) == s2;
    assert ScanFrom(header, 2, s2) == s2;
    assert ScanFrom(header, 1, s1) == s2;
  }

  /** Scanning the header and the Base64 lines of a block. */
  lemma ScanBody(shown: string, hex: string, bits: string, data: seq<string>)
    requires Solid(shown) && Solid(hex) && Solid(bits)
    requires forall k :: 0 <= k < |data| ==> Base64Line(data[k])
    ensures ScanFrom(Header(shown, hex, bits) + data, 0, ScanStart) == ScanState(true, false, shown, Concat(data))
  {
    var h := ScanState(true, false, shown, []);
    ScanHeader(shown, hex, bits);
    ScanAppend(Header(shown, hex, bits), data, 0, ScanStart);
    ScanData(data, h);
  }

  /** An END line after the scanned lines stops the loop where it stands. */
  lemma ScanThenEnd(body: seq<string>, st: ScanState)
    requires ScanFrom(body, 0, ScanStart) == st && !st.stopped
    ensures ScanFrom(body + [EndLine], 0, ScanStart) == st.(stopped := true)
  {
    ScanAppend(body, [EndLine], 0, ScanStart);
    ScanEnd(st);
  }

  /** The END line stops the loop. */
  lemma ScanEnd(st: ScanState)
    requires !st.stopped
    ensures ScanFrom([EndLine], 0, st) == st.(stopped := true)
  {
    TrimEndKeeps(EndLine);
    assert EndLine[5] == 'E' && BeginLine[5] == 'B';
    assert ScanLine(st, EndLine) == st.(stopped := true);
  }

  /** Scanning a block that carries `text` in 64-column lines gives back `text`. */
  lemma ScanWrapped(shown: string, hex: string, bits: string, text: string)
    requires Solid(shown) && Solid(hex) && Solid(bits)
    requires forall k :: 0 <= k < |text| ==> text[k] == '=' || Base64.InAlphabet(text[k])
    ensures Scan(Block(shown, hex, bits, Chunks(text, LineWidth))) == ScanState(true, true, shown, text)
  {
    var data := Chunks(text, LineWidth);
    ChunksOfBase64(text, LineWidth);
    ConcatChunks(text, LineWidth);
    ScanBody(shown, hex, bits, data);
    ScanThenEnd(Header(shown, hex, bits) + data, ScanState(true, false, shown, text));
  }

  /** The header scan finds the exported name line and the whole Base64 text. */
  lemma ScanExport(nick: string, ownHash: seq<byte>, pk: PublicKey)
    requires |ownHash| == HashSize && ValidPublicKey(pk)
    requires nick == [] || !TrailingJunk(nick[|nick| - 1])
    ensures Scan(ExportLines(nick, ownHash, pk)).name == if nick == [] then Unnamed else nick
    ensures Scan(ExportLines(nick, ownHash, pk)).b64 == Base64.Encode(Record(ownHash, nick, pk))
  {
    var hex := Hex(ownHash);
    var bits := Decimal(pk.bits as int);
    assert IsHexDigit(hex[|hex| - 1]);
    assert IsDigit(bits[|bits| - 1]);
    ScanWrapped(if nick == [] then Unnamed else nick, hex, bits, Base64.Encode(Record(ownHash, nick, pk)));
  }

  /**
   * A nickname that survives the text block: no trailing blank, no NUL, and
   * no newline (which would split the "Name: " line of the written file).
   */
  predicate PortableNick(nick: string) {
    (nick == [] || !TrailingJunk(nick[|nick| - 1]))
    && (forall i :: 0 <= i < |nick| ==> CharByte(nick[i]) != 0)
    && '\n' !in nick
  }

  /**
   * Trailing blanks of a nickname do not survive the "Name: " line: the
   * importer trims the line, so it reads back the nickname without them.
   */
  lemma NameLineDropsTrailingBlanks(st: ScanState, nick: string)
    requires st.inKey && !st.stopped && TrimEnd(nick) != []
    ensures ScanLine(st, "Name: " + nick).name == TrimEnd(nick)
    ensures TrimEnd(nick) != nick ==> ScanLine(st, "Name: " + nick).name != nick
  {
    TrimEndAfterPrefix("Name: ", nick);
    var line := TrimEnd("Name: " + nick);
    assert line[..6] == "Name: " && line[6..] == TrimEnd(nick);
    assert line[0] == 'N';
  }

  /**
   * An all-blank nickname leaves the line "Name:", which is no header line
   * for the importer: it is appended to the Base64 text.
   */
  lemma BlankNickLineIsData(st: ScanState, nick: string)
    requires st.inKey && !st.stopped
    requires forall i :: 0 <= i < |nick| ==> TrailingJunk(nick[i])
    ensures ScanLine(st, "Name: " + nick).b64 == st.b64 + "Name:"
  {
    TrimEndJunkSuffix("Name: ", nick);
    assert TrimEnd("Name: ") == TrimEnd("Name:");
    TrimEndKeeps("Name:");
    var line := TrimEnd("Name: " + nick);
    assert line == "Name:";
    assert !StartsWith(line, "Name: ") && !StartsWith(line, "Hash: ") && !StartsWith(line, "Bits: ");
  }

  /** The name the importer settles on for an exported nickname. */
  lemma ParsedName(nick: string, record: seq<byte>)
    requires PortableNick(nick)
    requires |record| >= RecordSize && record[20..36] == NameField(nick)
    ensures (if nick != [] && nick != Unnamed then CopyName(nick) else record[20..35] + [0]) == NameField(nick)
  {
    if nick != [] && nick != Unnamed {
      assert CString(nick) == nick;
    } else {
      assert record[20..35] == NameField(nick)[..15];
    }
  }

  /** Parsing an exported record recovers the key and name, with a recomputed fingerprint. */
  lemma ParseExported(nick: string, exporterHash: seq<byte>, pk: PublicKey, hash: seq<byte> -> seq<byte>)
    requires |exporterHash| == HashSize && ValidPublicKey(pk) && PortableNick(nick)
    ensures ParseRecord(Record(exporterHash, nick, pk), if nick == [] then Unnamed else nick, hash)
      == KeyItem(hash(pk.modulus + pk.exponent), NameField(nick), pk)
  {
    var record := Record(exporterHash, nick, pk);
    ParsedName(nick, record);
    LittleEndian32RoundTrip(pk.bits);
    var le := record[36..40];
    assert record[36] == le[0] && record[37] == le[1] && record[38] == le[2] && record[39] == le[3];
    assert FromLittleEndian32(record[36], record[37], record[38], record[39]) == pk.bits;
    assert record[296..552] == record[296..];
  }

  /**
   * Importing an exported key yields the exporter's key material and name,
   * with the fingerprint recomputed from the key; it is added unless it is
   * already trusted or is the importer's own key.
   */
  lemma ImportExport(nick: string, exporterHash: seq<byte>, pk: PublicKey,
                     trusted: seq<KeyItem>, ownHash: seq<byte>, hash: seq<byte> -> seq<byte>)
    requires |exporterHash| == HashSize && ValidPublicKey(pk) && PortableNick(nick)
    ensures var key := KeyItem(hash(pk.modulus + pk.exponent), NameField(nick), pk);
      Import(ExportLines(nick, exporterHash, pk), trusted, ownHash, hash)
      == if Trusts(trusted, key.hash) then (AlreadyTrusted, trusted)
         else if key.hash == ownHash then (OwnKey, trusted)
         else (Added, trusted + [key])
  {
    var record := Record(exporterHash, nick, pk);
    ScanExport(nick, exporterHash, pk);
    Base64.DecodeEncode(record);
    assert |Base64.Encode(record)| > 0;
    ParseExported(nick, exporterHash, pk, hash);
  }

  // ---------------------------------------------------------------------------
  // The trusted and pending lists

  datatype KeyRing = KeyRing(trusted: seq<KeyItem>, pending: seq<KeyItem>)

  /** `trustPendingKey`: moves pending entry `index` to the end of the trusted list. */
  function TrustPending(ring: KeyRing, index: int): (r: KeyRing)
    ensures !(0 <= index < |ring.pending|) ==> r == ring
    ensures 0 <= index < |ring.pending| ==>
      r.trusted == ring.trusted + [ring.pending[index]]
      && r.pending == Without(ring.pending, index)
    ensures multiset(r.trusted) + multiset(r.pending) == multiset(ring.trusted) + multiset(ring.pending)
  {
    if index < 0 || index >= |ring.pending| then ring
    else KeyRing(ring.trusted + [ring.pending[index]], Without(ring.pending, index))
  }

  /** No key is both trusted and pending. */
  predicate Disjoint(ring: KeyRing) {
    forall i, j :: 0 <= i < |ring.trusted| && 0 <= j < |ring.pending| ==> ring.trusted[i].hash != ring.pending[j].hash
  }

  /** No two keys of the list share a fingerprint. */
  predicate HashesDistinct(keys: seq<KeyItem>) {
    forall i, j :: 0 <= i < j < |keys| ==> keys[i].hash != keys[j].hash
  }

  /**
   * Trusting a pending key keeps the two lists apart, and keeps the trusted
   * fingerprints distinct.
   */
  lemma TrustKeepsDisjoint(ring: KeyRing, index: int)
    requires Disjoint(ring) && HashesDistinct(ring.pending)
    ensures Disjoint(TrustPending(ring, index))
    ensures HashesDistinct(ring.trusted) ==> HashesDistinct(TrustPending(ring, index).trusted)
  {
  }

  /**
   * `importPublicKey` looks only at the trusted list: a key it adds keeps the
   * lists apart exactly when its fingerprint is not pending.
   */
  lemma ImportDisjointWhenNotPending(lines: seq<string>, ring: KeyRing, ownHash: seq<byte>, hash: seq<byte> -> seq<byte>)
    requires Disjoint(ring)
    ensures var r := Import(lines, ring.trusted, ownHash, hash);
      r.0 == Added ==>
        (Disjoint(KeyRing(r.1, ring.pending)) <==> forall j :: 0 <= j < |ring.pending| ==> ring.pending[j].hash != r.1[|ring.trusted|].hash)
    ensures var r := Import(lines, ring.trusted, ownHash, hash);
      r.0 != Added ==> Disjoint(KeyRing(r.1, ring.pending))
  {
    var r := Import(lines, ring.trusted, ownHash, hash);
    if r.0 == Added {
      var n := |ring.trusted|;
      assert forall i :: 0 <= i < n ==> r.1[i] == ring.trusted[i];
      if !Disjoint(KeyRing(r.1, ring.pending)) {
        var i, j :| 0 <= i < |r.1| && 0 <= j < |ring.pending| && r.1[i].hash == ring.pending[j].hash;
        assert i == n;
      }
    }
  }

  /** `removeKey`: deletes entry `index` of the chosen list when it exists. */
  function RemoveKey(ring: KeyRing, index: int, isPending: bool): (r: KeyRing)
    ensures isPending ==> r.trusted == ring.trusted
    ensures !isPending ==> r.pending == ring.pending
    ensures isPending && 0 <= index < |ring.pending| ==>
      r.pending == Without(ring.pending, index)
      && multiset(r.pending) + multiset{ring.pending[index]} == multiset(ring.pending)
    ensures !isPending && 0 <= index < |ring.trusted| ==>
      r.trusted == Without(ring.trusted, index)
      && multiset(r.trusted) + multiset{ring.trusted[index]} == multiset(ring.trusted)
    ensures isPending && !(0 <= index < |ring.pending|) ==> r == ring
    ensures !isPending && !(0 <= index < |ring.trusted|) ==> r == ring
  {
    if isPending then
      if 0 <= index < |ring.pending| then ring.(pending := Without(ring.pending, index)) else ring
    else
      if 0 <= index < |ring.trusted| then ring.(trusted := Without(ring.trusted, index)) else ring
  }
}

=== FILE: scrolltext.dfy ===
/**
 * The scrolling text view used for chat: the offset counts lines up from the
 * bottom, so offset 0 shows the newest lines; the keys move it within
 * `[0, max(0, total - visible)]`.
 */
module ScrollText {
  import Text

  function Max(a: int, b: int): int { if a < b then b else a }
  function Min(a: int, b: int): int { if a < b then a else b }

  /** The first line drawn: `visible` lines above the bottom, raised by `offset`. */
  function WindowStart(total: nat, visible: int, offset: int): int {
    Max(0, total - visible - offset)
  }

  /** One past the last line drawn. */
  function WindowEnd(total: nat, visible: int, offset: int): int {
    Min(total, WindowStart(total, visible, offset) + visible)
  }

  /** The lines the view draws, oldest first. */
  function Window<T>(lines: seq<T>, visible: int, offset: int): (r: seq<T>)
    ensures |r| <= Max(0, visible)
    ensures var start := WindowStart(|lines|, visible, offset);
            r != [] ==> 0 <= start && start + |r| <= |lines| && r == lines[start..start + |r|]
  {
    var start := WindowStart(|lines|, visible, offset);
    var end := WindowEnd(|lines|, visible, offset);
    if start < end then lines[start..end] else []
  }

  /** At the bottom the view shows the newest lines, as many as fit. */
  lemma BottomShowsNewest<T>(lines: seq<T>, visible: nat)
    ensures Window(lines, visible, 0) == lines[|lines| - Min(|lines|, visible)..]
  {
  }

  /** At the top the view shows the oldest lines, as many as fit. */
  lemma TopShowsOldest<T>(lines: seq<T>, visible: nat)
    ensures Window(lines, visible, MaxOffset(|lines|, visible)) == lines[..Min(|lines|, visible)]
  {
  }

  /** Scrolling up one line below the top shows one older line and drops the newest. */
  lemma ScrollUpShiftsWindow<T>(lines: seq<T>, visible: nat, offset: nat)
    requires visible > 0 && offset < MaxOffset(|lines|, visible)
    ensures var start := WindowStart(|lines|, visible, offset);
            start >= 1 &&
            Window(lines, visible, offset + 1) == lines[start - 1..start - 1 + visible] &&
            Window(lines, visible, offset) == lines[start..start + visible]
  {
  }

  /** The footer announcing hidden newer lines. */
  function MoreBelow(offset: int): string {
    "── " + Text.Signed(offset) + " more below ──"
  }

  /**
   * What the view draws: the dimmed "(no messages)" placeholder, or the
   * window plus an optional footer line.
   */
  datatype View<T> = NoMessages | Shown(lines: seq<T>, footer: seq<string>)

  function Render<T>(lines: seq<T>, visible: int, offset: int): (v: View<T>)
    ensures lines == [] <==> v == NoMessages
    ensures v.Shown? ==> v.lines == Window(lines, visible, offset)
    ensures v.Shown? ==> (|v.footer| == 1 <==> offset > 0) && |v.footer| <= 1
    ensures v.Shown? && offset > 0 ==> v.footer[0] == MoreBelow(offset)
  {
    if lines == [] then NoMessages
    else Shown(Window(lines, visible, offset), if offset > 0 then [MoreBelow(offset)] else [])
  }

  /** The footer states how far up the view is. */
  lemma FooterCountsHiddenLines(offset: int)
    requires offset > 0
    ensures Text.AtoiSpec(MoreBelow(offset)[|"── "|..][..|Text.Signed(offset)|]) == offset
  {
    var m := MoreBelow(offset);
    assert m[|"── "|..][..|Text.Signed(offset)|] == Text.Signed(offset);
    Text.AtoiSigned(offset);
  }

  /** The largest useful offset: the one that brings the first line into view. */
  function MaxOffset(total: nat, visible: int): int {
    Max(0, total - visible)
  }

  /** C++ integer halving, which truncates toward zero. */
  function Half(n: int): int {
    if n >= 0 then n / 2 else -((-n) / 2)
  }

  datatype Key = PageUp | PageDown | Home | End | ArrowUp | ArrowDown | OtherKey

  predicate InRange(total: nat, visible: int, offset: int) {
    0 <= offset <= MaxOffset(total, visible)
  }

  /** The key handler: whether it consumed the key, and the new offset. */
  function OnEvent(total: nat, visible: int, offset: int, key: Key): (r: (bool, int))
    ensures total == 0 || key == OtherKey <==> !r.0
    ensures !r.0 ==> r.1 == offset
    ensures key == Home && total > 0 ==> r.1 == MaxOffset(total, visible)
    ensures key == End && total > 0 ==> r.1 == 0
    ensures r.0 && key in {PageUp, ArrowUp} ==> r.1 <= MaxOffset(total, visible)
    ensures r.0 && key in {PageDown, ArrowDown} ==> 0 <= r.1
    ensures total > 0 && key == PageUp ==> r.1 == Min(MaxOffset(total, visible), offset + Half(visible))
    ensures total > 0 && key == PageDown ==> r.1 == Max(0, offset - Half(visible))
    ensures total > 0 && key == ArrowUp ==> r.1 == Min(MaxOffset(total, visible), offset + 1)
    ensures total > 0 && key == ArrowDown ==> r.1 == Max(0, offset - 1)
  {
    if total == 0 then (false, offset)
    else
      var maxOffset := MaxOffset(total, visible);
      match key
      case PageUp => (true, Min(maxOffset, offset + Half(visible)))
      case PageDown => (true, Max(0, offset - Half(visible)))
      case Home => (true, maxOffset)
      case End => (true, 0)
      case ArrowUp => (true, Min(maxOffset, offset + 1))
      case ArrowDown => (true, Max(0, offset - 1))
      case OtherKey => (false, offset)
  }

  /** Every key keeps an offset inside the scrollable range. */
  lemma OffsetStaysInRange(total: nat, visible: int, offset: int, key: Key)
    requires visible >= 0 && InRange(total, visible, offset)
    ensures InRange(total, visible, OnEvent(total, visible, offset, key).1)
  {
  }

  /** Up then Down comes back, except at the top where Up does nothing. */
  lemma UpThenDown(total: nat, visible: int, offset: int)
    requires total > 0 && 0 <= offset < MaxOffset(total, visible)
    ensures OnEvent(total, visible, OnEvent(total, visible, offset, ArrowUp).1, ArrowDown).1 == offset
  {
  }
}

=== FILE: seqs.dfy ===
/** Sequence operations shared by the key lists, the shared-directory list and the interface's lists. */
module Seqs {

  /** `s` with element `i` erased, as `vector::erase(begin() + i)`. */
  function Without<T>(s: seq<T>, i: int): (r: seq<T>)
    requires 0 <= i < |s|
    ensures |r| == |s| - 1
    ensures multiset(r) + multiset{s[i]} == multiset(s)
    ensures forall k :: 0 <= k < i ==> r[k] == s[k]
    ensures forall k :: i <= k < |r| ==> r[k] == s[k + 1]
  {
    assert s == s[..i] + [s[i]] + s[i + 1..];
    s[..i] + s[i + 1..]
  }

  /** No element occurs twice. */
  predicate Distinct<T(==)>(s: seq<T>) {
    forall i, j :: 0 <= i < j < |s| ==> s[i] != s[j]
  }
}

=== FILE: session.dfy ===
/**
 * Where a search reply goes. The bridge keeps three pieces of state: the
 * remote directory being browsed (empty when not browsing), the id of the
 * last search request it sent, and whether that id is in use. A reply is a
 * directory listing while a browse path is set, the results of our search
 * when its message id matches the one in use, and is dropped otherwise.
 */
module Session {
  import opened Bytes
  import opened Text
  import opened State

  /** A 128-bit message id. */
  type Guid = seq<byte>

  datatype Option<T> = None | Some(value: T)

  datatype Session = Session(browsePath: string, scanUsed: bool, scanId: Guid)

  /** At start-up: not browsing, no search in flight, an all-zero id. */
  const Start := Session([], false, Zeros(16))

  // ---------------------------------------------------------------------------
  // Transitions

  /**
   * `search`: always leaves browse mode; when the engine is connected and the
   * core is not simulating (`live`), the id of the request just sent becomes
   * the one replies are matched against. A simulated search keeps the old id.
   */
  function Search(s: Session, live: bool, sent: Guid): (r: Session)
    ensures r.browsePath == []
    ensures live ==> r.scanUsed && r.scanId == sent
    ensures !live ==> r.scanUsed == s.scanUsed && r.scanId == s.scanId
  {
    var t := s.(browsePath := []);
    if live then t.(scanUsed := true, scanId := sent) else t
  }

  /** `cancelSearch`: forgets the search id; the browse path is untouched. */
  function CancelSearch(s: Session): (r: Session)
    ensures !r.scanUsed && r.scanId == Zeros(16)
    ensures r.browsePath == s.browsePath
  {
    s.(scanUsed := false, scanId := Zeros(16))
  }

  /**
   * `browsePeer`: without a connection, or while simulating, nothing happens
   * and nothing is sent. Otherwise the path is remembered and the returned
   * query is sent as a search request.
   */
  function BrowsePeer(s: Session, live: bool, peer: string, path: string): (r: (Session, Option<string>))
    ensures !live ==> r == (s, None)
    ensures live ==> r.0 == s.(browsePath := path) && r.1 == Some(BrowseQuery(peer, path))
  {
    if !live then (s, None) else (s.(browsePath := path), Some(BrowseQuery(peer, path)))
  }

  // ---------------------------------------------------------------------------
  // The browse query, "/<peer>/<directory>/*"

  predicate NoDoubleSlash(s: string) {
    forall i :: 0 <= i < |s| - 1 ==> !(s[i] == '/' && s[i + 1] == '/')
  }

  /**
   * A path the browse view produces: the root "/", or "/a/b/c" with
   * non-empty components and no trailing slash.
   */
  predicate WellFormedPath(p: string) {
    |p| >= 1 && p[0] == '/' && NoDoubleSlash(p) && (p == "/" || p[|p| - 1] != '/')
  }

  /** The query asks for every entry ("*") below a directory ending in '/'. */
  function BrowseQuery(peer: string, path: string): (q: string)
    ensures StartsWith(q, "/" + peer + "/") || StartsWith(q, "/" + peer + path)
    ensures |q| >= 2 && q[|q| - 2..] == "/*"
    ensures path == "/" || path == [] ==> q == "/" + peer + "/*"
    ensures path != "/" && path != [] && path[|path| - 1] == '/' ==> q == "/" + peer + path + "*"
    ensures path != "/" && path != [] && path[|path| - 1] != '/' ==> q == "/" + peer + path + "/*"
  {
    var base := "/" + peer;
    if path == "/" || path == [] then base + "/*"
    else
      var b := base + path;
      (if b[|b| - 1] != '/' then b + "/" else b) + "*"
  }

  /** The directory part of the query for a well-formed path. */
  function DirectoryOf(p: string): string {
    if p == "/" then p else p + "/"
  }

  /**
   * For a well-formed path and a peer name without slashes, the query is the
   * peer, then the path with exactly one trailing slash, then "*", and it
   * never contains "//".
   */
  lemma {:induction false} BrowseQueryOfWellFormed(peer: string, path: string)
    requires |peer| > 0 && '/' !in peer
    requires WellFormedPath(path)
    ensures BrowseQuery(peer, path) == "/" + peer + DirectoryOf(path) + "*"
    ensures NoDoubleSlash(BrowseQuery(peer, path))
  {
    var q := BrowseQuery(peer, path);
    var d := DirectoryOf(path);
    assert q == "/" + peer + d + "*";
    forall i | 0 <= i < |q| - 1
      ensures !(q[i] == '/' && q[i + 1] == '/')
    {
      if i == 0 {
        assert q[1] == peer[0];
      } else if i < |peer| {
        assert q[i] == peer[i - 1];
      } else if i == |peer| {
        assert q[i + 1] == d[0] == '/';
        assert q[i] == peer[|peer| - 1];
      } else if i < |peer| + |d| {
        assert q[i] == d[i - 1 - |peer|];
        if i + 1 < 1 + |peer| + |d| {
          assert q[i + 1] == d[i - |peer|];
          if i - |peer| < |path| {
            assert q[i + 1] == path[i - |peer|];
            assert q[i] == path[i - 1 - |peer|];
          } else {
            assert path != "/";
          }
        }
      }
    }
  }

  // ---------------------------------------------------------------------------
  // Reply items

  /** One item of a search reply; `Unreadable` is an item `get_item` rejects. */
  datatype ReplyItem =
    | Item(id: int, filename: string, metadata: string, sizeLow: int, sizeHigh: int)
    | Unreadable

  const TwoTo32: nat := 0x1_0000_0000

  /** The 64-bit size assembled from its two 32-bit halves, each read unsigned. */
  function FileSize(high: int, low: int): (n: nat)
    ensures n < TwoTo32 * TwoTo32
    ensures n / TwoTo32 == high % TwoTo32 && n % TwoTo32 == low % TwoTo32
  {
    var h := high % TwoTo32;
    var l := low % TwoTo32;
    assert h * TwoTo32 <= (TwoTo32 - 1) * TwoTo32;
    h * TwoTo32 + l
  }

  /** Listings may mark directories with a trailing slash; one is removed. */
  function EntryName(filename: string): (n: string)
    ensures |filename| > 0 && filename[|filename| - 1] == '/' ==> n + "/" == filename
    ensures (|filename| == 0 || filename[|filename| - 1] != '/') ==> n == filename
  {
    if |filename| > 0 && filename[|filename| - 1] == '/' then filename[..|filename| - 1] else filename
  }

  /** A listed item is a directory when its id is -1 or its metadata says so. */
  predicate IsDirectory(id: int, metadata: string) {
    id == -1 || metadata == "Directory"
  }

  /** The browse entry one readable item becomes. */
  function EntryOf(it: ReplyItem): (e: BrowseEntry)
    requires it.Item?
    ensures e.name == it.filename || e.name + "/" == it.filename
    ensures e.isDirectory <==> it.id == -1 || it.metadata == "Directory"
    ensures e.size / TwoTo32 == it.sizeHigh % TwoTo32 && e.size % TwoTo32 == it.sizeLow % TwoTo32
  {
    BrowseEntry(EntryName(it.filename), IsDirectory(it.id, it.metadata), FileSize(it.sizeHigh, it.sizeLow))
  }

  /** The entries a browse reply lists: readable items with a non-empty name, in order. */
  function BrowseEntries(items: seq<ReplyItem>): (r: seq<BrowseEntry>)
    ensures |r| <= |items|
    ensures forall j :: 0 <= j < |r| ==> r[j].name != []
  {
    if items == [] then []
    else
      var rest := BrowseEntries(items[1..]);
      if items[0].Item? && EntryOf(items[0]).name != [] then [EntryOf(items[0])] + rest else rest
  }

  /** A single item gives its entry, or nothing when it is unreadable or unnamed. */
  lemma BrowseEntriesOfOne(it: ReplyItem)
    ensures BrowseEntries([it]) == if it.Item? && EntryOf(it).name != [] then [EntryOf(it)] else []
  {
    assert [it][1..] == [];
  }

  /** The listing of two runs of items is the two listings one after the other. */
  lemma {:induction false} BrowseEntriesAppend(a: seq<ReplyItem>, b: seq<ReplyItem>)
    ensures BrowseEntries(a + b) == BrowseEntries(a) + BrowseEntries(b)
    decreases |a|
  {
    if a == [] {
      assert a + b == b;
    } else {
      assert (a + b)[0] == a[0] && (a + b)[1..] == a[1..] + b;
      BrowseEntriesAppend(a[1..], b);
    }
  }

  /** Which entries the listing holds: exactly the named readable items. */
  lemma {:induction false} BrowseEntriesMembers(items: seq<ReplyItem>, e: BrowseEntry)
    ensures e in BrowseEntries(items) <==>
      exists k :: 0 <= k < |items| && items[k].Item? && EntryOf(items[k]) == e && e.name != []
  {
    if items != [] {
      BrowseEntriesMembers(items[1..], e);
      if e in BrowseEntries(items) && !(e in BrowseEntries(items[1..])) {
        assert items[0].Item? && EntryOf(items[0]) == e && e.name != [];
      }
      if e in BrowseEntries(items[1..]) {
        var k :| 0 <= k < |items[1..]| && items[1..][k].Item? && EntryOf(items[1..][k]) == e && e.name != [];
        assert items[k + 1] == items[1..][k];
      }
      if exists k :: 0 <= k < |items| && items[k].Item? && EntryOf(items[k]) == e && e.name != [] {
        var k :| 0 <= k < |items| && items[k].Item? && EntryOf(items[k]) == e && e.name != [];
        if k > 0 {
          assert items[1..][k - 1] == items[k];
        }
      }
    }
  }

  /** A search result for one readable item; `user` is the replying peer's id. */
  function ResultOf(peer: string, it: ReplyItem): (r: SearchResult)
    requires it.Item?
    ensures r.filename == it.filename && r.kind == it.metadata
    ensures r.size / TwoTo32 == it.sizeHigh % TwoTo32 && r.size % TwoTo32 == it.sizeLow % TwoTo32
    ensures r.sources == 1 && r.user == peer
    ensures StartsWith(r.hash, peer + ":") && AtoiSpec(r.hash[|peer| + 1..]) == it.id
  {
    AtoiSigned(it.id);
    assert (peer + ":" + Signed(it.id))[|peer| + 1..] == Signed(it.id);
    SearchResult(it.filename, FileSize(it.sizeHigh, it.sizeLow), it.metadata, 1, peer, peer + ":" + Signed(it.id))
  }

  function Readable(items: seq<ReplyItem>): (n: nat)
    ensures n <= |items|
  {
    if items == [] then 0 else (if items[0].Item? then 1 else 0) + Readable(items[1..])
  }

  /** Every readable item becomes one result, in order. */
  function SearchResults(peer: string, items: seq<ReplyItem>): (r: seq<SearchResult>)
    ensures |r| == Readable(items)
    ensures forall j :: 0 <= j < |r| ==> r[j].user == peer && r[j].sources == 1
  {
    if items == [] then []
    else
      var rest := SearchResults(peer, items[1..]);
      if items[0].Item? then [ResultOf(peer, items[0])] + rest else rest
  }

  /** A single item gives its result, or nothing when it is unreadable. */
  lemma SearchResultsOfOne(peer: string, it: ReplyItem)
    ensures SearchResults(peer, [it]) == if it.Item? then [ResultOf(peer, it)] else []
  {
    assert [it][1..] == [];
  }

  /** The results of two runs of items are the two result lists one after the other. */
  lemma {:induction false} SearchResultsAppend(peer: string, a: seq<ReplyItem>, b: seq<ReplyItem>)
    ensures SearchResults(peer, a + b) == SearchResults(peer, a) + SearchResults(peer, b)
    decreases |a|
  {
    if a == [] {
      assert a + b == b;
    } else {
      assert (a + b)[0] == a[0] && (a + b)[1..] == a[1..] + b;
      SearchResultsAppend(peer, a[1..], b);
    }
  }

  /**
   * A download later names a file by its result's hash "<peer>:<id>": the
   * part before the first ':' is the peer and `atoi` of the rest is the id.
   */
  lemma ResultHashNamesItem(peer: string, it: ReplyItem)
    requires it.Item? && ':' !in peer
    ensures var h := ResultOf(peer, it).hash;
      |h| > |peer| && h[..|peer|] == peer && h[|peer|] == ':' &&
      AtoiSpec(h[|peer| + 1..]) == it.id
  {
    var h := ResultOf(peer, it).hash;
    assert h[|peer| + 1..] == Signed(it.id);
    AtoiSigned(it.id);
  }

  // ---------------------------------------------------------------------------
  // Routing a reply

  datatype Reply = Reply(peer: string, items: seq<ReplyItem>)

  datatype Delivery =
    | Listing(peer: string, entries: seq<BrowseEntry>)
    | Results(results: seq<SearchResult>)
    | Dropped

  /**
   * A reply with message id `guid`. `hasBody` is false for a message without
   * data; `listener` says whether the interface installed a browse handler.
   * A listing ends browse mode, so only the first reply after `browsePeer`
   * is taken as the directory contents.
   */
  function OnSearchReply(s: Session, guid: Guid, hasBody: bool, listener: bool, reply: Reply): (r: (Session, Delivery))
    ensures r.1.Listing? <==> hasBody && s.browsePath != [] && listener
    ensures r.1.Results? <==> hasBody && !(s.browsePath != [] && listener) && s.scanUsed && s.scanId == guid
    ensures r.1.Listing? ==> r.0 == s.(browsePath := []) && r.1 == Listing(reply.peer, BrowseEntries(reply.items))
    ensures r.1.Results? ==> r.1.results == SearchResults(reply.peer, reply.items)
    ensures !r.1.Listing? ==> r.0 == s
  {
    if !hasBody then (s, Dropped)
    else if s.browsePath != [] && listener then
      (s.(browsePath := []), Listing(reply.peer, BrowseEntries(reply.items)))
    else if s.scanUsed && s.scanId == guid then
      (s, Results(SearchResults(reply.peer, reply.items)))
    else (s, Dropped)
  }

  // ---------------------------------------------------------------------------
  // Scenarios

  /** After a live search, a reply to that very request is shown as results. */
  lemma SearchAcceptsItsReply(s: Session, sent: Guid, listener: bool, reply: Reply)
    ensures var t := Search(s, true, sent);
      OnSearchReply(t, sent, true, listener, reply) == (t, Results(SearchResults(reply.peer, reply.items)))
  {
  }

  /** After a live search, a reply carrying any other id is dropped. */
  lemma SearchDropsOtherReplies(s: Session, sent: Guid, guid: Guid, hasBody: bool, listener: bool, reply: Reply)
    requires guid != sent
    ensures var t := Search(s, true, sent);
      OnSearchReply(t, guid, hasBody, listener, reply) == (t, Dropped)
  {
  }

  /** Once a search is cancelled, and no browse is pending, every reply is dropped. */
  lemma CancelDropsEverything(s: Session, guid: Guid, hasBody: bool, listener: bool, reply: Reply)
    requires s.browsePath == []
    ensures var t := CancelSearch(s);
      OnSearchReply(t, guid, hasBody, listener, reply) == (t, Dropped)
  {
  }

  /**
   * Browsing a non-empty path: the next reply is the listing, whatever its
   * id, and the one after it is handled as a search reply again.
   */
  lemma BrowseListsOnce(s: Session, peer: string, path: string, g1: Guid, g2: Guid, r1: Reply, r2: Reply)
    requires path != []
    ensures var (t, q) := BrowsePeer(s, true, peer, path);
      var (u, d1) := OnSearchReply(t, g1, true, true, r1);
      var (_, d2) := OnSearchReply(u, g2, true, true, r2);
      q.Some? && d1 == Listing(r1.peer, BrowseEntries(r1.items)) && !d2.Listing? &&
      (d2.Results? <==> s.scanUsed && s.scanId == g2)
  {
  }

  /**
   * Browsing with an empty path sends a root query but does not enter browse
   * mode, so the reply is not taken as a listing.
   */
  lemma EmptyBrowsePathIsNotBrowsing(s: Session, peer: string, guid: Guid, listener: bool, reply: Reply)
    requires s.browsePath == []
    ensures var (t, q) := BrowsePeer(s, true, peer, []);
      q == Some("/" + peer + "/*") && !OnSearchReply(t, guid, true, listener, reply).1.Listing?
  {
  }
}

=== FILE: simulation.dfy ===
/**
 * The offline simulation the core runs when it has no network: simulated
 * peers walk through Connecting, Authenticating and then Online or Failed on
 * a timer, and simulated transfers advance at a fixed speed until complete.
 * Clock readings are milliseconds and every value `rand()` would supply is a
 * parameter.
 */
module Simulation {
  import opened Text
  import opened State

  // ---------------------------------------------------------------------------
  // Peers

  /** Milliseconds spent connecting, then authenticating. */
  const ConnectingMs := 800
  const AuthenticatingMs := 1200

  const AuthFailed := "(auth failed)"

  /** A simulated connection; `phase` 0 connecting, 1 authenticating, 2 settled. */
  datatype SimPeer = SimPeer(info: PeerInfo, changedAt: int, phase: nat, shouldFail: bool)

  /** The status shown always agrees with the phase. */
  predicate Consistent(sp: SimPeer) {
    && sp.phase <= 2
    && (sp.phase == 0 <==> sp.info.status == Connecting)
    && (sp.phase == 1 <==> sp.info.status == Authenticating)
    && (sp.phase == 2 ==> sp.info.status == (if sp.shouldFail then ConnectionStatus.Failed else Online))
  }

  /** `rand()` results a peer consumes when it comes online. */
  datatype Draws = Draws(files: nat, name: nat, suffix: nat)

  const NickStems: seq<string> := ["peer", "user", "node", "friend"]

  /** `connectToPeer` in simulation: a new connecting peer; one roll in five fails. */
  function Connect(address: string, port: int, now: int, roll: nat): (sp: SimPeer)
    ensures Consistent(sp) && sp.phase == 0 && sp.changedAt == now
    ensures sp.shouldFail <==> roll % 5 == 0
  {
    SimPeer(PeerInfo(address, port, [], Connecting, 0, now, []), now, 0, roll % 5 == 0)
  }

  /** One pass of `processSimulation` over one peer at time `now`. */
  function Tick(sp: SimPeer, now: int, d: Draws): (r: SimPeer)
    ensures sp.phase == 0 && now - sp.changedAt >= ConnectingMs ==>
      r == sp.(phase := 1, changedAt := now, info := sp.info.(status := Authenticating))
    ensures sp.phase == 1 && now - sp.changedAt >= AuthenticatingMs ==>
      r.phase == 2 && r.changedAt == sp.changedAt && r.shouldFail == sp.shouldFail &&
      (sp.shouldFail ==> r.info == sp.info.(status := ConnectionStatus.Failed, errorMsg := AuthFailed)) &&
      (!sp.shouldFail ==>
        r.info.status == Online && r.info.connectedAt == now &&
        100 <= r.info.filesShared < 2100 && r.info.nickname != [] &&
        (sp.info.nickname != [] ==> r.info.nickname == sp.info.nickname))
    ensures (!(sp.phase == 0 && now - sp.changedAt >= ConnectingMs) &&
             !(sp.phase == 1 && now - sp.changedAt >= AuthenticatingMs)) ==> r == sp
    ensures Consistent(sp) ==> Consistent(r)
  {
    var waited := now - sp.changedAt;
    if sp.phase == 0 && waited >= ConnectingMs then
      sp.(phase := 1, changedAt := now, info := sp.info.(status := Authenticating))
    else if sp.phase == 1 && waited >= AuthenticatingMs then
      if sp.shouldFail then
        sp.(phase := 2, info := sp.info.(status := ConnectionStatus.Failed, errorMsg := AuthFailed))
      else
        var nick := if sp.info.nickname == [] then NickStems[d.name % 4] + Decimal(d.suffix % 100) else sp.info.nickname;
        sp.(phase := 2, info := sp.info.(status := Online, connectedAt := now, filesShared := 100 + d.files % 2000, nickname := nick))
    else sp
  }

  /** Ticks never move a peer backwards, and a settled peer stays as it is. */
  lemma TickMonotone(sp: SimPeer, now: int, d: Draws)
    ensures Tick(sp, now, d).phase >= sp.phase
    ensures sp.phase >= 2 ==> Tick(sp, now, d) == sp
  {
  }

  /**
   * A new peer stays connecting for 800 ms, is authenticating after its
   * first tick at or past that mark, and settles on the first tick at least
   * 1200 ms later: failed exactly when its roll was a multiple of five.
   */
  lemma ConnectTimeline(address: string, port: int, t0: int, roll: nat, t1: int, t2: int, d1: Draws, d2: Draws)
    requires t1 - t0 >= ConnectingMs && t2 - t1 >= AuthenticatingMs
    ensures var p0 := Connect(address, port, t0, roll);
      forall t :: t - t0 < ConnectingMs ==> Tick(p0, t, d1) == p0
    ensures var p1 := Tick(Connect(address, port, t0, roll), t1, d1);
      p1.info.status == Authenticating &&
      Tick(p1, t2, d2).info.status == (if roll % 5 == 0 then ConnectionStatus.Failed else Online)
  {
  }

  /** The peers with address and port of `sp`, as `retryConnection` matches them. */
  predicate SameEndpoint(sp: SimPeer, p: PeerInfo) {
    sp.info.address == p.address && sp.info.port == p.port
  }

  /** The first simulated peer for `p`, or |sims| when there is none. */
  function FirstForPeer(sims: seq<SimPeer>, p: PeerInfo): (k: nat)
    ensures k <= |sims|
    ensures k < |sims| ==> SameEndpoint(sims[k], p)
    ensures forall j :: 0 <= j < k ==> !SameEndpoint(sims[j], p)
  {
    if sims == [] then 0
    else if SameEndpoint(sims[0], p) then 0
    else 1 + FirstForPeer(sims[1..], p)
  }

  /**
   * `retryConnection` in simulation: a failed peer goes back to connecting
   * with its error cleared, and the first matching simulated peer restarts
   * its timeline with a fresh roll. Any other index or status changes nothing.
   */
  function Retry(peers: seq<PeerInfo>, sims: seq<SimPeer>, index: int, now: int, roll: nat): (r: (seq<PeerInfo>, seq<SimPeer>))
    ensures !(0 <= index < |peers| && peers[index].status == ConnectionStatus.Failed) ==> r == (peers, sims)
    ensures |r.0| == |peers| && |r.1| == |sims|
    ensures 0 <= index < |peers| && peers[index].status == ConnectionStatus.Failed ==>
      && r.0 == peers[index := peers[index].(status := Connecting, errorMsg := [])]
      && var k := FirstForPeer(sims, peers[index]);
         (k == |sims| ==> r.1 == sims) &&
         (k < |sims| ==>
            r.1 == sims[k := sims[k].(phase := 0, changedAt := now, shouldFail := roll % 5 == 0,
                                       info := sims[k].info.(status := Connecting))] &&
            Consistent(r.1[k]))
  {
    if !(0 <= index < |peers| && peers[index].status == ConnectionStatus.Failed) then (peers, sims)
    else
      var p := peers[index];
      var k := FirstForPeer(sims, p);
      var sims' :=
        if k == |sims| then sims
        else sims[k := sims[k].(phase := 0, changedAt := now, shouldFail := roll % 5 == 0,
                                 info := sims[k].info.(status := Connecting))];
      (peers[index := p.(status := Connecting, errorMsg := [])], sims')
  }

  // ---------------------------------------------------------------------------
  // Transfers

  /** A simulated transfer; `speed` is in KB/s. */
  datatype SimTransfer = SimTransfer(id: int, totalSize: nat, transferred: nat, paused: bool, speed: nat)

  /** What a tick reports to the interface for one transfer. */
  datatype Report = Progress(id: int, transferred: nat, total: nat) | Finished(id: int)

  predicate Done(st: SimTransfer) {
    st.transferred >= st.totalSize
  }

  /** `downloadFile` in simulation: 10 MiB to 110 MiB at 200 to 999 KB/s. */
  function StartTransfer(id: int, sizeRoll: nat, speedRoll: nat): (st: SimTransfer)
    ensures 10 * 1024 * 1024 <= st.totalSize < 110 * 1024 * 1024
    ensures 200 <= st.speed < 1000
    ensures st.transferred == 0 && !st.paused && st.id == id
  {
    SimTransfer(id, 10 * 1024 * 1024 + sizeRoll % (100 * 1024 * 1024), 0, false, 200 + speedRoll % 800)
  }

  function Min(a: int, b: int): int { if a < b then a else b }

  /** Bytes moved in `elapsedMs` milliseconds at `speed` KB/s. */
  function Moved(speed: nat, elapsedMs: nat): nat {
    speed * 1024 * elapsedMs / 1000
  }

  /**
   * One transfer's share of a tick: paused or finished transfers are skipped
   * silently; others advance, never past the total, report their progress,
   * and report completion on the tick that finishes them.
   */
  function Advance(st: SimTransfer, elapsedMs: nat): (r: (SimTransfer, seq<Report>))
    ensures st.paused || Done(st) ==> r == (st, [])
    ensures !st.paused && !Done(st) ==>
      && r.0 == st.(transferred := r.0.transferred)
      && st.transferred <= r.0.transferred <= st.totalSize
      && r.0.transferred == Min(st.totalSize, st.transferred + Moved(st.speed, elapsedMs))
      && (r.0.transferred == st.totalSize <==> st.transferred + Moved(st.speed, elapsedMs) >= st.totalSize)
      && r.1 == [Progress(st.id, r.0.transferred, st.totalSize)] + (if Done(r.0) then [Finished(st.id)] else [])
  {
    if st.paused || Done(st) then (st, [])
    else
      var sum := st.transferred + Moved(st.speed, elapsedMs);
      var next := st.(transferred := if sum < st.totalSize then sum else st.totalSize);
      (next, [Progress(st.id, next.transferred, st.totalSize)] + (if Done(next) then [Finished(st.id)] else []))
  }

  /** A tick over every transfer, reports in list order. */
  function AdvanceAll(sts: seq<SimTransfer>, elapsedMs: nat): (r: (seq<SimTransfer>, seq<Report>))
    ensures |r.0| == |sts|
    ensures forall i :: 0 <= i < |sts| ==> r.0[i] == Advance(sts[i], elapsedMs).0
    ensures |sts| == 1 ==> r.1 == Advance(sts[0], elapsedMs).1
    ensures sts == [] ==> r.1 == []
  {
    if sts == [] then ([], [])
    else
      var head := Advance(sts[0], elapsedMs);
      var rest := AdvanceAll(sts[1..], elapsedMs);
      ([head.0] + rest.0, head.1 + rest.1)
  }

  /** The reports of a tick over two runs of transfers come run by run, in order. */
  lemma {:induction false} AdvanceAllAppend(a: seq<SimTransfer>, b: seq<SimTransfer>, elapsedMs: nat)
    ensures AdvanceAll(a + b, elapsedMs).1 == AdvanceAll(a, elapsedMs).1 + AdvanceAll(b, elapsedMs).1
    decreases |a|
  {
    if a == [] {
      assert a + b == b;
    } else {
      assert (a + b)[0] == a[0] && (a + b)[1..] == a[1..] + b;
      AdvanceAllAppend(a[1..], b, elapsedMs);
    }
  }

  /** No transfer ever counts more bytes than its size. */
  predicate WithinTotal(sts: seq<SimTransfer>) {
    forall i :: 0 <= i < |sts| ==> sts[i].transferred <= sts[i].totalSize
  }

  lemma AdvanceKeepsWithinTotal(sts: seq<SimTransfer>, elapsedMs: nat)
    requires WithinTotal(sts)
    ensures WithinTotal(AdvanceAll(sts, elapsedMs).0)
  {
  }

  /** A completion report names a transfer that finished on this very tick. */
  lemma {:induction false} FinishedReportsAreFresh(sts: seq<SimTransfer>, elapsedMs: nat, id: int)
    requires Finished(id) in AdvanceAll(sts, elapsedMs).1
    ensures exists i :: (0 <= i < |sts| && sts[i].id == id && !sts[i].paused && !Done(sts[i]) &&
                         Done(AdvanceAll(sts, elapsedMs).0[i]))
  {
    var head := Advance(sts[0], elapsedMs);
    var rest := AdvanceAll(sts[1..], elapsedMs);
    if Finished(id) in head.1 {
      assert sts[0].id == id && !sts[0].paused && !Done(sts[0]);
    } else {
      assert Finished(id) in rest.1;
      FinishedReportsAreFresh(sts[1..], elapsedMs, id);
      var i :| 0 <= i < |sts[1..]| && sts[1..][i].id == id && !sts[1..][i].paused && !Done(sts[1..][i]) &&
        Done(rest.0[i]);
      assert sts[i + 1] == sts[1..][i];
    }
  }

  /** A finished transfer is silent on every later tick. */
  lemma DoneIsSilent(st: SimTransfer, elapsedMs: nat)
    requires Done(st)
    ensures Advance(st, elapsedMs) == (st, [])
  {
  }

  // ---------------------------------------------------------------------------
  // Pause and resume

  /** The first transfer with `id`, or |sts|. */
  function FirstWithId(sts: seq<SimTransfer>, id: int): (k: nat)
    ensures k <= |sts|
    ensures k < |sts| ==> sts[k].id == id
    ensures forall j :: 0 <= j < k ==> sts[j].id != id
  {
    if sts == [] then 0 else if sts[0].id == id then 0 else 1 + FirstWithId(sts[1..], id)
  }

  /**
   * `pauseTransfer` and `resumeTransfer`: the first transfer with the id gets
   * the flag; the result says whether one was found (and a status change
   * reported).
   */
  function SetPaused(sts: seq<SimTransfer>, id: int, paused: bool): (r: (seq<SimTransfer>, bool))
    ensures r.1 <==> exists j :: 0 <= j < |sts| && sts[j].id == id
    ensures !r.1 ==> r.0 == sts
    ensures r.1 ==> var k := FirstWithId(sts, id); r.0 == sts[k := sts[k].(paused := paused)]
  {
    var k := FirstWithId(sts, id);
    if k == |sts| then (sts, false) else (sts[k := sts[k].(paused := paused)], true)
  }

  /** Pausing a running transfer and resuming it restores the list. */
  lemma PauseThenResume(sts: seq<SimTransfer>, id: int)
    requires forall j :: 0 <= j < |sts| ==> !sts[j].paused
    ensures SetPaused(SetPaused(sts, id, true).0, id, false).0 == sts
  {
    var k := FirstWithId(sts, id);
    if k < |sts| {
      var once := SetPaused(sts, id, true).0;
      assert forall j :: 0 <= j < |once| ==> once[j].id == sts[j].id;
      FirstWithIdAgrees(sts, once, id);
    }
  }

  lemma {:induction false} FirstWithIdAgrees(a: seq<SimTransfer>, b: seq<SimTransfer>, id: int)
    requires |a| == |b| && forall j :: 0 <= j < |a| ==> a[j].id == b[j].id
    ensures FirstWithId(a, id) == FirstWithId(b, id)
  {
    if a != [] {
      FirstWithIdAgrees(a[1..], b[1..], id);
    }
  }

  /** A paused transfer does not move, however long the tick. */
  lemma PausedDoesNotMove(sts: seq<SimTransfer>, id: int, elapsedMs: nat)
    requires exists j :: 0 <= j < |sts| && sts[j].id == id
    ensures var (paused, _) := SetPaused(sts, id, true);
      var k := FirstWithId(sts, id);
      AdvanceAll(paused, elapsedMs).0[k] == paused[k]
  {
  }
}

=== FILE: sorting.dfy ===
/**
 * The order `std::string::operator<` puts strings in (character by
 * character, a proper prefix first) and `std::sort` over it, as the chat
 * view keeps each room's user list.
 */
module Sorting {

  /** `a <= b` lexicographically. */
  predicate LessEq(a: string, b: string) {
    a == [] || (b != [] && (a[0] < b[0] || (a[0] == b[0] && LessEq(a[1..], b[1..]))))
  }

  lemma {:induction false} LessEqTotal(a: string, b: string)
    ensures LessEq(a, b) || LessEq(b, a)
  {
    if a != [] && b != [] && a[0] == b[0] {
      LessEqTotal(a[1..], b[1..]);
    }
  }

  lemma {:induction false} LessEqAntisymmetric(a: string, b: string)
    requires LessEq(a, b) && LessEq(b, a)
    ensures a == b
  {
    if a != [] && b != [] {
      LessEqAntisymmetric(a[1..], b[1..]);
      assert a == [a[0]] + a[1..] && b == [b[0]] + b[1..];
    }
  }

  lemma {:induction false} LessEqTransitive(a: string, b: string, c: string)
    requires LessEq(a, b) && LessEq(b, c)
    ensures LessEq(a, c)
  {
    if a != [] && a[0] == b[0] && b[0] == c[0] {
      LessEqTransitive(a[1..], b[1..], c[1..]);
    }
  }

  /** Each element is at most its successor. */
  predicate Sorted(s: seq<string>) {
    forall i :: 0 <= i < |s| - 1 ==> LessEq(s[i], s[i + 1])
  }

  /** In a sorted list every element is at most every later one. */
  lemma {:induction false} SortedPairs(s: seq<string>, i: int, j: int)
    requires Sorted(s) && 0 <= i <= j < |s|
    ensures LessEq(s[i], s[j])
    decreases j - i
  {
    if i == j {
      LessEqTotal(s[i], s[i]);
    } else {
      SortedPairs(s, i + 1, j);
      LessEqTransitive(s[i], s[i + 1], s[j]);
    }
  }

  /** `x` placed before the first element it does not exceed. */
  function Insert(x: string, s: seq<string>): (r: seq<string>)
    ensures multiset(r) == multiset(s) + multiset{x}
    ensures |r| == |s| + 1
  {
    if s == [] || LessEq(x, s[0]) then [x] + s
    else
      assert s == [s[0]] + s[1..];
      [s[0]] + Insert(x, s[1..])
  }

  /** Inserting into a sorted list keeps it sorted. */
  lemma {:induction false} InsertSorted(x: string, s: seq<string>)
    requires Sorted(s)
    ensures Sorted(Insert(x, s))
    ensures Insert(x, s)[0] == x || Insert(x, s)[0] == s[0]
  {
    if s != [] && !LessEq(x, s[0]) {
      LessEqTotal(x, s[0]);
      assert Sorted(s[1..]);
      InsertSorted(x, s[1..]);
    }
  }

  /** Insertion sort: the sorted permutation of `s`. */
  function Sort(s: seq<string>): (r: seq<string>)
    ensures multiset(r) == multiset(s)
    ensures Sorted(r)
  {
    if s == [] then []
    else
      assert s == [s[0]] + s[1..];
      InsertSorted(s[0], Sort(s[1..]));
      Insert(s[0], Sort(s[1..]))
  }

  /** The smallest element of a sorted list is its head. */
  lemma SortedHeadIsLeast(s: seq<string>, x: string)
    requires Sorted(s) && x in s
    ensures LessEq(s[0], x)
  {
    var j :| 0 <= j < |s| && s[j] == x;
    SortedPairs(s, 0, j);
  }

  /** A sorted permutation is unique: two sorted lists with the same elements are equal. */
  lemma {:induction false} SortedUnique(a: seq<string>, b: seq<string>)
    requires Sorted(a) && Sorted(b) && multiset(a) == multiset(b)
    ensures a == b
  {
    if a != [] {
      assert |b| == |a| by { assert |multiset(b)| == |multiset(a)|; }
      assert a[0] in multiset(a);
      assert b[0] in multiset(b);
      SortedHeadIsLeast(a, b[0]);
      SortedHeadIsLeast(b, a[0]);
      LessEqAntisymmetric(a[0], b[0]);
      TailMultiset(a);
      TailMultiset(b);
      SortedUnique(a[1..], b[1..]);
    }
  }

  lemma TailMultiset(s: seq<string>)
    requires s != []
    ensures multiset(s[1..]) == multiset(s) - multiset{s[0]}
  {
    assert s == [s[0]] + s[1..];
  }

  /** Sorting an already sorted list changes nothing. */
  lemma SortSorted(s: seq<string>)
    requires Sorted(s)
    ensures Sort(s) == s
  {
    SortedUnique(Sort(s), s);
  }

  /** Every element except `x`, in order, as `erase(remove(...))`. */
  function RemoveAll(s: seq<string>, x: string): (r: seq<string>)
    ensures x !in r
    ensures forall y :: y in r <==> y in s && y != x
    ensures multiset(r) == multiset(s)[x := 0]
    ensures |r| <= |s|
    ensures x !in s ==> r == s
  {
    if s == [] then []
    else
      assert s == [s[0]] + s[1..];
      (if s[0] == x then [] else [s[0]]) + RemoveAll(s[1..], x)
  }

  /**
   * Removal works run by run, so the users that stay keep their order: with
   * `x` absent from `a` and `b`, removing it from `a + [x] + b` gives `a + b`.
   */
  lemma {:induction false} RemoveAllAppend(a: seq<string>, b: seq<string>, x: string)
    ensures RemoveAll(a + b, x) == RemoveAll(a, x) + RemoveAll(b, x)
    decreases |a|
  {
    if a == [] {
      assert a + b == b;
    } else {
      RemoveAllAppend(a[1..], b, x);
      RemoveAllAppendStep(a, b, x);
    }
  }

  /** One step of `RemoveAllAppend`: from the tail of `a` to all of `a`. */
  lemma RemoveAllAppendStep(a: seq<string>, b: seq<string>, x: string)
    requires a != []
    requires RemoveAll(a[1..] + b, x) == RemoveAll(a[1..], x) + RemoveAll(b, x)
    ensures RemoveAll(a + b, x) == RemoveAll(a, x) + RemoveAll(b, x)
  {
    var head := if a[0] == x then [] else [a[0]];
    var ra, rb := RemoveAll(a[1..], x), RemoveAll(b, x);
    AppendTail(a, b);
    RemoveAllStep(a + b, x);
    RemoveAllStep(a, x);
    AppendAssociates(head, ra, rb);
  }

  lemma AppendTail(a: seq<string>, b: seq<string>)
    requires a != []
    ensures (a + b)[0] == a[0] && (a + b)[1..] == a[1..] + b
  {
  }

  lemma AppendAssociates(a: seq<string>, b: seq<string>, c: seq<string>)
    ensures a + (b + c) == (a + b) + c
  {
  }

  /** `RemoveAll` unfolded once. */
  lemma RemoveAllStep(s: seq<string>, x: string)
    requires s != []
    ensures RemoveAll(s, x) == (if s[0] == x then [] else [s[0]]) + RemoveAll(s[1..], x)
  {
  }

  /** Removing elements keeps a list sorted. */
  lemma {:induction false} RemoveAllSorted(s: seq<string>, x: string)
    requires Sorted(s)
    ensures Sorted(RemoveAll(s, x))
  {
    if s != [] {
      assert Sorted(s[1..]);
      RemoveAllSorted(s[1..], x);
      var rest := RemoveAll(s[1..], x);
      if s[0] != x && rest != [] {
        assert rest[0] in s[1..];
        var j :| 0 <= j < |s[1..]| && s[1..][j] == rest[0];
        SortedPairs(s, 0, j + 1);
      }
    }
  }
}

=== FILE: state.dfy ===
/**
 * The records the core hands to the user interface. Timestamps and
 * floating-point speeds are dropped; sizes are unbounded naturals.
 */
module State {

  datatype ConnectionStatus = Connecting | Authenticating | Online | Failed

  /** A peer; `connectedAt` is a millisecond clock reading. */
  datatype PeerInfo = PeerInfo(
    address: string,
    port: int,
    nickname: string,
    status: ConnectionStatus,
    filesShared: int,
    connectedAt: int,
    errorMsg: string)

  datatype SearchResult = SearchResult(
    filename: string,
    size: nat,
    kind: string,
    sources: int,
    user: string,
    hash: string)

  datatype TransferStatus = Active | Paused | Queued | Completed | Failed

  datatype TransferDirection = Download | Upload

  datatype TransferInfo = TransferInfo(
    id: int,
    filename: string,
    direction: TransferDirection,
    status: TransferStatus,
    totalSize: nat,
    transferred: nat,
    peer: string)

  datatype ChatMessage = ChatMessage(room: string, sender: string, content: string, isSystem: bool)

  datatype ChatRoom = ChatRoom(
    name: string,
    isDirect: bool,
    unreadCount: int,
    messages: seq<ChatMessage>,
    users: seq<string>)

  datatype BrowseEntry = BrowseEntry(name: string, isDirectory: bool, size: nat)
}

=== FILE: table.dfy ===
/**
 * The table component: fitting a cell to its column width, and moving the
 * selected row with the keyboard.
 */
module Table {

  datatype Align = Left | Center | Right

  function Spaces(n: nat): (r: string)
    ensures |r| == n && forall i :: 0 <= i < n ==> r[i] == ' '
  {
    seq(n, _ => ' ')
  }

  /** Where the text starts inside a padded cell. */
  function PadBefore(padding: nat, align: Align): nat {
    match align
    case Left => 0
    case Right => padding
    case Center => padding / 2
  }

  /**
   * The cell text for a column `width` wide: a width of zero or less leaves
   * the text alone; a longer text is cut, ending in "..." when there is room
   * for more than the dots; a shorter one is padded with spaces.
   */
  function FitToWidth(s: string, width: int, align: Align): (r: string)
    ensures width <= 0 ==> r == s
    ensures width > 0 ==> |r| == width
    ensures |s| > width > 3 ==> r[..width - 3] == s[..width - 3] && r[width - 3..] == "..."
    ensures 0 < width <= 3 && |s| > width ==> r == s[..width]
    ensures 0 < width && |s| <= width ==>
              var before := PadBefore(width - |s|, align);
              r[before..before + |s|] == s &&
              (forall i :: 0 <= i < width && !(before <= i < before + |s|) ==> r[i] == ' ')
  {
    if width <= 0 then s
    else if |s| > width then
      if width > 3 then s[..width - 3] + "..." else s[..width]
    else
      var padding := width - |s|;
      var before := PadBefore(padding, align);
      Spaces(before) + s + Spaces(padding - before)
  }

  /** Centring splits the padding evenly, the odd space going to the right. */
  lemma CenterIsBalanced(s: string, width: int)
    requires |s| <= width
    ensures var r := FitToWidth(s, width, Center);
            var before := PadBefore(width - |s|, Center);
            var after := width - |s| - before;
            before <= after <= before + 1 &&
            (forall i :: 0 <= i < before ==> r[i] == ' ') &&
            (forall i :: width - after <= i < width ==> r[i] == ' ')
  {
  }

  /** A cell already fitted to its width is left as it is. */
  lemma FitIdempotent(s: string, width: int, align: Align)
    ensures FitToWidth(FitToWidth(s, width, align), width, align) == FitToWidth(s, width, align)
  {
    var r := FitToWidth(s, width, align);
    if width > 0 {
      assert |r| == width;
      assert FitToWidth(r, width, align) == Spaces(0) + r + Spaces(0);
    }
  }

  /** A text that fits exactly is shown verbatim whatever the alignment. */
  lemma ExactFitIsVerbatim(s: string, align: Align)
    requires |s| > 0
    ensures FitToWidth(s, |s|, align) == s
  {
    assert FitToWidth(s, |s|, align) == Spaces(0) + s + Spaces(0);
  }

  /** The keys the table listens to; everything else is `OtherKey`. */
  datatype Key = ArrowUp | ArrowDown | Home | End | Return | PageUp | PageDown
               | Character(c: char) | OtherKey

  /**
   * What one key press does: whether the table consumed it, the new
   * selection, whether the highlight callback fires (with the new selection)
   * and whether the select callback fires (with the selection).
   */
  datatype Outcome = Outcome(handled: bool, selected: int, highlighted: bool, activated: bool)

  const PageStep := 10

  function Max(a: int, b: int): int { if a < b then b else a }
  function Min(a: int, b: int): int { if a < b then a else b }

  predicate IsUp(key: Key) { key == ArrowUp || key == Character('k') }
  predicate IsDown(key: Key) { key == ArrowDown || key == Character('j') }

  /** The table's key handler over `rows` rows with `selected` the current row. */
  function OnEvent(rows: nat, selected: int, key: Key): (o: Outcome)
    ensures rows == 0 ==> o == Outcome(false, selected, false, false)
    ensures rows > 0 && IsUp(key) ==>
              o.handled && o.selected == (if selected > 0 then selected - 1 else selected)
              && o.highlighted == (selected > 0)
    ensures rows > 0 && IsDown(key) ==>
              o.handled && o.selected == (if selected < rows - 1 then selected + 1 else selected)
              && o.highlighted == (selected < rows - 1)
    ensures rows > 0 && key in {Home, End, PageUp, PageDown} ==> o.handled && o.highlighted
    ensures rows > 0 && key == Home ==> o.selected == 0
    ensures rows > 0 && key == End ==> o.selected == rows - 1
    ensures rows > 0 && key == PageUp ==> o.selected == Max(0, selected - PageStep)
    ensures rows > 0 && key == PageDown ==> o.selected == Min(rows - 1, selected + PageStep)
    ensures o.activated <==> rows > 0 && key == Return
    ensures o.activated ==> o.handled && o.selected == selected
    ensures !o.handled ==> o.selected == selected && !o.highlighted
    ensures o.handled <==> rows > 0 && (IsUp(key) || IsDown(key) || key in {Home, End, Return, PageUp, PageDown})
  {
    if rows == 0 then Outcome(false, selected, false, false)
    else
      var maxIndex := rows - 1;
      if IsUp(key) then
        if selected > 0 then Outcome(true, selected - 1, true, false) else Outcome(true, selected, false, false)
      else if IsDown(key) then
        if selected < maxIndex then Outcome(true, selected + 1, true, false) else Outcome(true, selected, false, false)
      else if key == Home then Outcome(true, 0, true, false)
      else if key == End then Outcome(true, maxIndex, true, false)
      else if key == Return then Outcome(true, selected, false, true)
      else if key == PageUp then Outcome(true, Max(0, selected - PageStep), true, false)
      else if key == PageDown then Outcome(true, Min(maxIndex, selected + PageStep), true, false)
      else Outcome(false, selected, false, false)
  }

  /** A selection on a row stays on a row whatever key is pressed. */
  lemma SelectionStaysInRange(rows: nat, selected: int, key: Key)
    requires 0 <= selected < rows
    ensures 0 <= OnEvent(rows, selected, key).selected < rows
  {
  }

  /** Home and End land on a row even from a stale selection. */
  lemma JumpsClampIntoRange(rows: nat, selected: int, key: Key)
    requires rows > 0 && key in {Home, End}
    ensures 0 <= OnEvent(rows, selected, key).selected < rows
  {
  }

  /** The selection after pressing `key` `n` times. */
  function Press(rows: nat, selected: int, key: Key, n: nat): int
    decreases n
  {
    if n == 0 then selected else Press(rows, OnEvent(rows, selected, key).selected, key, n - 1)
  }

  /** `n` presses of Down from a row move `n` rows, stopping at the last one. */
  lemma {:induction false} DownPresses(rows: nat, selected: int, n: nat)
    requires 0 <= selected < rows
    ensures Press(rows, selected, ArrowDown, n) == Min(rows - 1, selected + n)
    decreases n
  {
    if n > 0 {
      DownPresses(rows, OnEvent(rows, selected, ArrowDown).selected, n - 1);
    }
  }

  /** `n` presses of Up from a row move `n` rows, stopping at the first one. */
  lemma {:induction false} UpPresses(rows: nat, selected: int, n: nat)
    requires 0 <= selected < rows
    ensures Press(rows, selected, ArrowUp, n) == Max(0, selected - n)
    decreases n
  {
    if n > 0 {
      UpPresses(rows, OnEvent(rows, selected, ArrowUp).selected, n - 1);
    }
  }

  /** Page Down and Page Up are ten presses of Down and Up on a valid selection. */
  lemma PagesAreTenArrows(rows: nat, selected: int)
    requires 0 <= selected < rows
    ensures OnEvent(rows, selected, PageDown).selected == Press(rows, selected, ArrowDown, PageStep)
    ensures OnEvent(rows, selected, PageUp).selected == Press(rows, selected, ArrowUp, PageStep)
  {
    DownPresses(rows, selected, PageStep);
    UpPresses(rows, selected, PageStep);
  }

  /** Down then Up comes back to the row it started from, except on the last row. */
  lemma DownThenUp(rows: nat, selected: int)
    requires 0 <= selected < rows - 1
    ensures OnEvent(rows, OnEvent(rows, selected, ArrowDown).selected, ArrowUp).selected == selected
  {
  }
}

=== FILE: text.dfy ===
/**
 * Small string helpers shared by the key file format, the configuration
 * file and the settings editor: prefix tests, trailing-whitespace trimming,
 * hexadecimal and decimal rendering, and the C library's `atoi`.
 */
module Text {
  import opened Bytes

  predicate StartsWith(s: string, prefix: string) {
    |prefix| <= |s| && s[..|prefix|] == prefix
  }

  // ---------------------------------------------------------------------------
  // Trimming

  /** The characters the key importer strips from the end of each line. */
  predicate TrailingJunk(c: char) {
    c == '\r' || c == '\n' || c == ' '
  }

  /** Pops carriage returns, newlines and spaces off the end of `s`. */
  function TrimEnd(s: string): (r: string)
    ensures |r| <= |s| && r == s[..|r|]
    ensures r == [] || !TrailingJunk(r[|r| - 1])
    ensures forall i :: |r| <= i < |s| ==> TrailingJunk(s[i])
  {
    if |s| > 0 && TrailingJunk(s[|s| - 1]) then TrimEnd(s[..|s| - 1]) else s
  }

  /** A line whose last character is not junk comes through trimming unchanged. */
  lemma TrimEndKeeps(s: string)
    requires s == [] || !TrailingJunk(s[|s| - 1])
    ensures TrimEnd(s) == s
  {
  }

  /** Trimming reaches into the text after a prefix only when that text is all junk. */
  lemma {:induction false} TrimEndAfterPrefix(p: string, s: string)
    requires TrimEnd(s) != []
    ensures TrimEnd(p + s) == p + TrimEnd(s)
    decreases |s|
  {
    if TrailingJunk(s[|s| - 1]) {
      assert (p + s)[..|p + s| - 1] == p + s[..|s| - 1];
      TrimEndAfterPrefix(p, s[..|s| - 1]);
    }
  }

  /** A suffix of junk alone is trimmed away, and trimming goes on into what precedes it. */
  lemma {:induction false} TrimEndJunkSuffix(p: string, s: string)
    requires forall i :: 0 <= i < |s| ==> TrailingJunk(s[i])
    ensures TrimEnd(p + s) == TrimEnd(p)
    decreases |s|
  {
    if s == [] {
      assert p + s == p;
    } else {
      assert (p + s)[..|p + s| - 1] == p + s[..|s| - 1];
      TrimEndJunkSuffix(p, s[..|s| - 1]);
    }
  }

  // ---------------------------------------------------------------------------
  // Hexadecimal, as printf's "%02X"

  function HexDigit(n: int): (c: char)
    requires 0 <= n < 16
    ensures IsHexDigit(c) && HexValue(c) == n
  {
    if n < 10 then ('0' as int + n) as char else ('A' as int + (n - 10)) as char
  }

  predicate IsHexDigit(c: char) {
    '0' <= c <= '9' || 'A' <= c <= 'F'
  }

  /** The value a reader gives an upper-case hex digit. */
  function HexValue(c: char): int
    requires IsHexDigit(c)
  {
    if c <= '9' then c as int - '0' as int else c as int - 'A' as int + 10
  }

  /** Two upper-case hex digits per byte, high nibble first. */
  function Hex(data: seq<byte>): (r: string)
    ensures |r| == 2 * |data|
    ensures forall i :: 0 <= i < |r| ==> IsHexDigit(r[i])
  {
    if data == [] then []
    else
      var v := data[0] as int;
      [HexDigit(v / 16), HexDigit(v % 16)] + Hex(data[1..])
  }

  /** Reading the two digits at position 2i back as a hex number gives byte i. */
  lemma {:induction false} HexReadsBack(data: seq<byte>, i: nat)
    requires i < |data|
    ensures 16 * HexValue(Hex(data)[2 * i]) + HexValue(Hex(data)[2 * i + 1]) == data[i] as int
    decreases i
  {
    var r := Hex(data);
    if i > 0 {
      HexReadsBack(data[1..], i - 1);
      assert r[2 * i] == Hex(data[1..])[2 * (i - 1)];
      assert r[2 * i + 1] == Hex(data[1..])[2 * (i - 1) + 1];
    }
  }

  // ---------------------------------------------------------------------------
  // Decimal numerals

  predicate IsDigit(c: char) {
    '0' <= c <= '9'
  }

  predicate AllDigits(s: string) {
    forall i :: 0 <= i < |s| ==> IsDigit(s[i])
  }

  function DigitValue(c: char): (d: int)
    requires IsDigit(c)
    ensures 0 <= d < 10
  {
    c as int - '0' as int
  }

  /** The value of a string of decimal digits, most significant first. */
  function DigitsValue(s: string): nat
    requires AllDigits(s)
  {
    if s == [] then 0 else DigitsValue(s[..|s| - 1]) * 10 + DigitValue(s[|s| - 1])
  }

  /** The shortest decimal numeral for `n`, as `operator<<` prints an unsigned value. */
  function Decimal(n: nat): (r: string)
    ensures |r| >= 1
    ensures AllDigits(r)
  {
    if n < 10 then ['0' + n as char] else Decimal(n / 10) + ['0' + (n % 10) as char]
  }

  /** A signed numeral, as `std::to_string` prints an `int`. */
  function Signed(n: int): (r: string)
    ensures |r| >= 1
    ensures n < 0 <==> r[0] == '-'
    ensures AllDigits(if n < 0 then r[1..] else r)
  {
    if n < 0 then "-" + Decimal(-n) else Decimal(n)
  }

  /** Printing and reading a numeral give back the number. */
  lemma {:induction false} DecimalValue(n: nat)
    ensures DigitsValue(Decimal(n)) == n
  {
    if n >= 10 {
      var r := Decimal(n);
      assert r[..|r| - 1] == Decimal(n / 10);
      DecimalValue(n / 10);
    }
  }

  // ---------------------------------------------------------------------------
  // atoi

  /** The white space `isspace` accepts in the C locale. */
  predicate IsSpace(c: char) {
    c == ' ' || c == '\t' || c == '\n' || c == '\U{B}' || c == '\U{C}' || c == '\r'
  }

  /** The number of leading characters of `s` satisfying the digit test. */
  function DigitRun(s: string): (n: nat)
    ensures n <= |s| && AllDigits(s[..n])
    ensures n < |s| ==> !IsDigit(s[n])
  {
    if s == [] || !IsDigit(s[0]) then 0
    else
      var k := DigitRun(s[1..]);
      assert s[..k + 1] == [s[0]] + s[1..][..k];
      k + 1
  }

  /** The number of leading white-space characters of `s`. */
  function SpaceRun(s: string): (n: nat)
    ensures n <= |s|
    ensures forall i :: 0 <= i < n ==> IsSpace(s[i])
    ensures n < |s| ==> !IsSpace(s[n])
  {
    if s == [] || !IsSpace(s[0]) then 0 else SpaceRun(s[1..]) + 1
  }

  /**
   * What `atoi` returns, stated directly: skip white space, read one optional
   * sign, then the longest run of digits; no digits means 0. The C function's
   * behaviour on overflow is undefined and is not modelled.
   */
  function AtoiSpec(s: string): int {
    var t := s[SpaceRun(s)..];
    var neg := |t| > 0 && t[0] == '-';
    var u := if |t| > 0 && (t[0] == '-' || t[0] == '+') then t[1..] else t;
    var v: int := DigitsValue(u[..DigitRun(u)]);
    if neg then -v else v
  }

  /** `atoi` as the C library computes it, one character at a time. */
  method Atoi(s: string) returns (value: int)
    ensures value == AtoiSpec(s)
  {
    var i := 0;
    while i < |s| && IsSpace(s[i])
      invariant 0 <= i <= |s|
      invariant forall k :: 0 <= k < i ==> IsSpace(s[k])
    {
      i := i + 1;
    }
    SpaceRunIsFirstNonSpace(s, i);
    var t := s[i..];
    var neg := false;
    if |t| > 0 && (t[0] == '-' || t[0] == '+') {
      neg := t[0] == '-';
      t := t[1..];
    }
    var acc := ReadDigits(t);
    value := if neg then -(acc as int) else acc;
  }

  /** Accumulates the leading digits of `u` as `acc = acc * 10 + digit`. */
  method ReadDigits(u: string) returns (acc: nat)
    ensures acc == DigitsValue(u[..DigitRun(u)])
  {
    acc := 0;
    var k := 0;
    while k < |u| && IsDigit(u[k])
      invariant 0 <= k <= |u|
      invariant AllDigits(u[..k])
      invariant acc == DigitsValue(u[..k])
    {
      assert u[..k + 1][..k] == u[..k];
      acc := acc * 10 + DigitValue(u[k]);
      k := k + 1;
    }
    DigitRunIsFirstNonDigit(u, k);
  }

  lemma {:induction false} SpaceRunIsFirstNonSpace(s: string, i: nat)
    requires i <= |s|
    requires forall k :: 0 <= k < i ==> IsSpace(s[k])
    requires i == |s| || !IsSpace(s[i])
    ensures SpaceRun(s) == i
  {
    if i > 0 {
      SpaceRunIsFirstNonSpace(s[1..], i - 1);
    }
  }

  lemma {:induction false} DigitRunIsFirstNonDigit(s: string, i: nat)
    requires i <= |s|
    requires AllDigits(s[..i])
    requires i == |s| || !IsDigit(s[i])
    ensures DigitRun(s) == i
  {
    if i > 0 {
      assert s[1..][..i - 1] == s[..i][1..];
      DigitRunIsFirstNonDigit(s[1..], i - 1);
    }
  }

  /** `atoi` reads back every signed numeral `std::to_string` prints. */
  lemma AtoiSigned(n: int)
    ensures AtoiSpec(Signed(n)) == n
  {
    if n < 0 {
      var d := Decimal(-n);
      AtoiNegated(d);
      DecimalValue(-n);
    } else {
      AtoiDecimal(n);
    }
  }

  /** A minus sign followed by digits reads as the negated digit value. */
  lemma AtoiNegated(d: string)
    requires |d| >= 1 && AllDigits(d)
    ensures AtoiSpec("-" + d) == -(DigitsValue(d) as int)
  {
    var r := "-" + d;
    assert SpaceRun(r) == 0;
    assert r[0..] == r;
    assert r[1..] == d;
    DigitRunIsFirstNonDigit(d, |d|);
    assert d[..|d|] == d;
  }

  /** Reading back a printed number, as the settings editor does with a port. */
  lemma AtoiDecimal(n: nat)
    ensures AtoiSpec(Decimal(n)) == n
  {
    var r := Decimal(n);
    assert SpaceRun(r) == 0;
    assert r[0..] == r;
    DigitRunIsFirstNonDigit(r, |r|);
    assert r[..|r|] == r;
    DecimalValue(n);
  }
}

=== FILE: theme.dfy ===
/**
 * Looking up a colour theme by name; the colours themselves are not modelled,
 * only the names of the built-in themes in their listed order.
 */
module Theme {

  const BuiltinNames: seq<string> := [
    "Default", "Dracula", "Gruvbox Dark", "Nord", "Solarized Dark", "Monokai",
    "Catppuccin", "Tokyo Night", "One Dark", "Everforest", "Kanagawa", "Rose Pine"
  ]

  /** The index of the first theme called `name`, or 0 (the default theme) when none is. */
  method FindThemeIndex(names: seq<string>, name: string) returns (index: int)
    ensures 0 <= index && (index < |names| || index == 0)
    ensures index < |names| && names[index] == name ==>
              forall j :: 0 <= j < index ==> names[j] != name
    ensures name in names ==> index < |names| && names[index] == name
    ensures name !in names ==> index == 0
  {
    var i := 0;
    while i < |names|
      invariant 0 <= i <= |names|
      invariant name !in names[..i]
    {
      if names[i] == name {
        return i;
      }
      i := i + 1;
    }
    assert names[..i] == names;
    return 0;
  }

  /** The same lookup as a function: the smallest matching index, else 0. */
  function ThemeIndex(names: seq<string>, name: string): (index: nat)
    ensures name in names ==>
              (index < |names| && names[index] == name &&
               forall j :: 0 <= j < index ==> names[j] != name)
    ensures name !in names ==> index == 0
  {
    if names == [] || names[0] == name then 0
    else if name in names[1..] then 1 + ThemeIndex(names[1..], name)
    else 0
  }

  /** The method and the function agree on every list and name. */
  method FindAgrees(names: seq<string>, name: string) returns (index: int)
    ensures index == ThemeIndex(names, name)
  {
    index := FindThemeIndex(names, name);
    if name in names {
      FirstMatchUnique(names, name, index, ThemeIndex(names, name));
    }
  }

  /** Two first matches are the same index. */
  lemma FirstMatchUnique(names: seq<string>, name: string, i: int, j: int)
    requires 0 <= i < |names| && names[i] == name && forall k :: 0 <= k < i ==> names[k] != name
    requires 0 <= j < |names| && names[j] == name && forall k :: 0 <= k < j ==> names[k] != name
    ensures i == j
  {
  }

  /** Over the built-in list every lookup names a theme, and an unknown name falls back to "Default". */
  lemma BuiltinLookup(name: string)
    ensures ThemeIndex(BuiltinNames, name) < |BuiltinNames|
    ensures name !in BuiltinNames ==> BuiltinNames[ThemeIndex(BuiltinNames, name)] == "Default"
  {
  }
}
